=== FILE: README.md ===
# LiveKit React Native SDK — a Dafny model of its decision logic

This project models the LiveKit React Native client SDK in Dafny. It covers
the end-to-end-encryption (E2EE) orchestration: the E2EE manager and the key
provider. It also covers the small deterministic pieces around it, written
in TypeScript, Kotlin, Java and Swift:

- participant ordering;
- the bar visualizer's animation sequences;
- the iOS audio-session hook;
- the audio-only `MediaRecorder`;
- the visibility logic of the video components;
- the Android and iOS string-to-constant translators;
- the sink and renderer registries;
- Android audio routing;
- the video-decoder selection rule;
- the frame-skipping iOS volume renderers.

Everything is modelled as immutable data with pure transition functions.
Native calls, events sent to JavaScript and timer calls are recorded in
ordinary log fields, so properties can talk about their order. Values that
come from foreign code are parameters of the model: crypto results, UUID
tags, devices reported by the audio switch, `Date.now()`, and the measured
sizes of views. A thrown exception is an `Err` of the `Result` type in
`wrappers.dfy`, and `null`/`undefined` is `None`.

| file | module(s) | models |
|---|---|---|
| wrappers.dfy | `Wrappers` | `Option`, `Result`, the error kinds |
| key_provider.dfy | `KeyProvider` | src/e2ee/RNKeyProvider.ts |
| e2ee_manager.dfy | `E2EEManager` | src/e2ee/RNE2EEManager.ts |
| participant_order.dfy | `ParticipantOrder` | `sortParticipants` and `onParticipantsChanged` in src/useRoom.ts |
| bar_visualizer.dfy | `BarVisualizer` | src/components/BarVisualizer.tsx |
| audio_engine.dfy | `AudioEngine` | src/audio/AudioManager.ts |
| media_recorder.dfy | `MediaRecorder` | src/audio/MediaRecorder.ts |
| viewport_detector.dfy | `ViewportDetector` | src/components/ViewPortDetector.tsx |
| element_info.dfy | `ElementInfo` | the element-info classes of src/components/VideoTrack.tsx and src/components/VideoView.tsx |
| ios_audio_utils.dfy | `IosAudioUtils` | ios/AudioUtils.swift |
| android_audio_utils.dfy | `AndroidSdk`, `AudioManagerUtils`, `LegacyAudioManagerUtils` | both copies of AudioManagerUtils.kt |
| sink_registry.dfy | `AudioSinks`, `AudioSinkManager`, `AudioRendererManager` | AudioSinkManager.kt and ios/audio/AudioRendererManager.swift |
| audio_switch_manager.dfy | `AudioSwitchManager` | AudioSwitchManager.java |
| video_decoder_factory.dfy | `VideoDecoderFactory` | CustomVideoDecoderFactory.kt |
| frame_skipper.dfy | `FrameSkipper` | ios/audio/VolumeAudioRenderer.swift and ios/audio/MultibandVolumeAudioRenderer.swift |

### Where the model follows the code rather than the documented intent

- **Repeated local status calls.** `setParticipantCryptorEnabled` changes
  the encryption flag only when the local participant's flag differs. A
  repeated call with the same value falls into the other branch. It emits
  the status event again, so status events are not de-duplicated.
  `E2EEManager.RepeatedLocalCallNotifiesTwice` states this.
- **Room listeners.** `setup(room)` never removes the listeners it
  registered on a previous room. Binding back to an earlier room registers
  them a second time (`E2EEManager.RebindingRegistersTwice`). For the
  track events this stays unobservable, because handling them is
  idempotent (`E2EEManager.RepeatedDeliveryIsSingle`). The
  `SignalConnected` handler is not idempotent. It runs once per
  registration and acts on the bound room whichever room fired, so after
  binding a, b and a again, a signal from a emits the status event twice
  (`E2EEManager.RebindingSignalsTwice`).
- **`lastSpokeAt` comparison.** The comparator compares `lastSpokeAt` with
  `!==`, which is reference identity on `Date` objects. The model takes
  every participant's date to be its own object, so the branch fires
  whenever either participant has a date. Then the comparator is a total
  preorder only when no speaking time is exactly the epoch
  (`ParticipantOrder.ZeroSpeakingTimeBreaksTransitivity` shows the
  counterexample). The sortedness lemmas carry that hypothesis.
- **Restarting a `MediaRecorder`.** Each start adds another `LK_AUDIO_DATA`
  handler and none is ever removed. A restarted recorder buffers every
  chunk twice (`MediaRecorder.RestartDuplicatesChunks`).
- **Decoder selection.** With software decoding forced and a non-empty
  codec list, `CustomVideoDecoderFactory` still advertises the wrapped
  factory's codecs, yet it builds every decoder in software
  (`VideoDecoderFactory.SupportedCodecsAndDecoders`).
- **iOS audio modes.** The name JavaScript uses for the default iOS audio
  mode, "default", is not one of the names `audioSessionModeFromString`
  lists. It still reaches `.default` through the fallback
  (`AudioEngine.DefaultConfigurationAsApplied`).

## Model

| member | source | states |
|---|---|---|
| `KeyProvider.Resolve` | src/e2ee/RNKeyProvider.ts:29-44 | every unset option takes its default (shared key, "LKFrameEncryptionKey", window 16, tolerance -1, ring size 16 under both spellings); frames are never discarded; text magic bytes, "LK-ROCKS" by default, are UTF-8 encoded |
| `KeyProvider.Utf8RoundTrip` | src/e2ee/RNKeyProvider.ts:40-44 | the `TextEncoder` encoding of any string of Unicode scalar values decodes back to that string |
| `KeyProvider.TextMagicBytesDecode` | src/e2ee/RNKeyProvider.ts:40-44 | text magic bytes given as a string of Unicode scalar values are stored as an encoding that decodes back to that text |
| `KeyProvider.DefaultMagicBytesAreAscii` | src/e2ee/RNKeyProvider.ts:9 | the default magic bytes are the eight ASCII bytes of "LK-ROCKS" |
| `KeyProvider.AsciiEncodesBytewise` | src/e2ee/RNKeyProvider.ts:40-44 | an ASCII string encodes to one byte per character, equal to its code point |
| `KeyProvider.New` | src/e2ee/RNKeyProvider.ts:29-50 | a new provider holds the resolved options and an empty index cache, and has made one native call, creating the native provider |
| `KeyProvider.SetSharedKey` | src/e2ee/RNKeyProvider.ts:60-62 | one native call, and the index cache and options unchanged |
| `KeyProvider.RatchetSharedKey` | src/e2ee/RNKeyProvider.ts:64-66 | one native shared ratchet, and the index cache unchanged |
| `KeyProvider.SetKey` | src/e2ee/RNKeyProvider.ts:72-83 | in shared-key mode it is exactly `setSharedKey`; otherwise it records `keyIndex ?? 0` for that participant, leaves every other participant's index alone, and forwards the index as given |
| `KeyProvider.RatchetKey` | src/e2ee/RNKeyProvider.ts:85-91 | the per-participant ratchet is used exactly when not in shared mode and a non-empty identity is given, otherwise the shared ratchet; the cache never changes |
| `KeyProvider.SetSifTrailer` | src/e2ee/RNKeyProvider.ts:93-95 | forwards the trailer and changes nothing else |
| `KeyProvider.Dispose` | src/e2ee/RNKeyProvider.ts:104-106 | disposes the native provider and changes nothing else |
| `KeyProvider.SharedModeNeverDiverges` | src/e2ee/RNKeyProvider.ts:72-91 | in shared-key mode no sequence of operations touches the index cache or makes a per-participant native call |
| `KeyProvider.SharedModeSetKeyIsSetSharedKey` | src/e2ee/RNKeyProvider.ts:77-79 | in shared-key mode `setKey` cannot be told apart from `setSharedKey` |
| `KeyProvider.PerParticipantScenario` | src/e2ee/RNKeyProvider.ts:52-54 | after key index 2 is set for one participant, `getLatestKeyIndex` gives 2 for them and 0 for anyone else |
| `E2EEManager.NewManager` | src/e2ee/RNE2EEManager.ts:49-57 | a new manager is disabled, has no room and no cryptors, and its data-channel flag is the constructor argument, false by default |
| `E2EEManager.DataChannelFlag` | src/e2ee/RNE2EEManager.ts:59-67 | data-channel encryption reads as on exactly when both flags are on; the setter changes only the data-channel flag |
| `E2EEManager.Setup` | src/e2ee/RNE2EEManager.ts:69-74 | binding the same room is a no-op; any other room replaces the binding and registers the listeners on it once |
| `E2EEManager.SetupIdempotent` | src/e2ee/RNE2EEManager.ts:69-74 | setup twice with one room equals setup once; other rooms' registrations are untouched |
| `E2EEManager.RebindingRegistersTwice` | src/e2ee/RNE2EEManager.ts:69-114 | switching from room a to b and back leaves a's listeners registered twice |
| `E2EEManager.Attach` | src/e2ee/RNE2EEManager.ts:126-137 | a fresh cryptor is stored under the track SID; it is created, enabled and given the participant's latest key index, in that order |
| `E2EEManager.SetupCryptor` | src/e2ee/RNE2EEManager.ts:116-162 | only an encrypted publication without a cryptor gets one; anything else changes nothing |
| `E2EEManager.SetupE2EESender` | src/e2ee/RNE2EEManager.ts:116-138 | unencrypted: no change; an existing entry is never replaced; otherwise exactly the track SID is added, the other entries kept |
| `E2EEManager.SetupE2EEReceiver` | src/e2ee/RNE2EEManager.ts:140-162 | the same for subscribed remote tracks, with a receiver cryptor |
| `E2EEManager.Detach` | src/e2ee/RNE2EEManager.ts:81-87 | a present entry is removed, and its cryptor disabled and then disposed; an absent one is a no-op; other entries stay |
| `E2EEManager.AttachPreservesValid` | src/e2ee/RNE2EEManager.ts:124-137 | attaching keeps the registry invariant: one live, undisposed cryptor per track SID, each created exactly once |
| `E2EEManager.DetachPreservesValid` | src/e2ee/RNE2EEManager.ts:97-102 | detaching keeps the registry invariant |
| `E2EEManager.HandleTrackEventIdempotent` | src/e2ee/RNE2EEManager.ts:76-104 | handling the same track event twice is handling it once |
| `E2EEManager.RepeatedDeliveryIsSingle` | src/e2ee/RNE2EEManager.ts:76-104 | track-event listeners registered several times behave as if registered once |
| `E2EEManager.DeliveryFromListenedRoom` | src/e2ee/RNE2EEManager.ts:90-104 | events from a room that was never set up are ignored |
| `E2EEManager.HandleTrackEventPreservesValid` | src/e2ee/RNE2EEManager.ts:76-104 | every track event keeps the registry invariant |
| `E2EEManager.SetParticipantCryptorEnabled` | src/e2ee/RNE2EEManager.ts:285-313 | the flag changes only for the local identity, and a local call with a room bound always ends with the flag set; it throws exactly when no room is bound or the identity does not resolve; every successful call emits exactly one status event and changes nothing else |
| `E2EEManager.RepeatedLocalCallNotifiesTwice` | src/e2ee/RNE2EEManager.ts:289-311 | a repeated local call keeps the flag but emits a second time |
| `E2EEManager.RemoteStatusNeverMutates` | src/e2ee/RNE2EEManager.ts:299-311 | a call for any other identity never changes the flag |
| `E2EEManager.SignalConnectedSyncsLocalState` | src/e2ee/RNE2EEManager.ts:105-113 | with a room bound the handler sets the flag to the local participant's E2EE state and emits once; without one it throws |
| `E2EEManager.SignalRepeatedlyEmitsPerRun` | src/e2ee/RNE2EEManager.ts:69-113 | a signal delivered to n registrations emits n status events for the local participant and sets the flag; only the flag and the events change; with no room bound nothing happens |
| `E2EEManager.RebindingSignalsTwice` | src/e2ee/RNE2EEManager.ts:69-113 | after binding a, b, a, a signal from a emits twice, one from b once, and one from a room never bound nothing |
| `E2EEManager.GetDataPacketCryptor` | src/e2ee/RNE2EEManager.ts:168-193 | an existing data-packet cryptor is returned as is; otherwise exactly one is created and kept |
| `E2EEManager.DataPacketCryptorReused` | src/e2ee/RNE2EEManager.ts:168-193 | a second acquisition returns the first one's cryptor and creates nothing |
| `E2EEManager.GetDataPacketCryptorPreservesValid` | src/e2ee/RNE2EEManager.ts:168-193 | acquisition keeps the invariant, including "at most one data-packet cryptor" |
| `E2EEManager.EncryptData` | src/e2ee/RNE2EEManager.ts:194-221 | without a room it throws before anything happens; otherwise it encrypts under the local identity and its latest key index, and throws when the native result is missing (null or undefined) |
| `E2EEManager.HandleEncryptedData` | src/e2ee/RNE2EEManager.ts:223-249 | decrypts under the given identity with the shared data-packet cryptor; a missing (null or undefined) native result throws |
| `E2EEManager.DataRoundTrip` | src/e2ee/RNE2EEManager.ts:194-249 | if the native cryptor inverts its own encryption, data sent through `encryptData` comes back from `handleEncryptedData` with one cryptor for both |
| `E2EEManager.EncryptDataPreservesValid` | src/e2ee/RNE2EEManager.ts:194-221 | encryption keeps the invariant |
| `E2EEManager.HandleEncryptedDataPreservesValid` | src/e2ee/RNE2EEManager.ts:223-249 | decryption keeps the invariant |
| `E2EEManager.SetSifTrailer` | src/e2ee/RNE2EEManager.ts:164-166 | forwards the trailer to the key provider and changes nothing else |
| `E2EEManager.ApplyPreservesValid` | src/e2ee/RNE2EEManager.ts:69-313 | every public operation and event keeps the invariant |
| `E2EEManager.RunPreservesValid` | src/e2ee/RNE2EEManager.ts:69-313 | any sequence of operations and events keeps the invariant and creates at most one data-packet cryptor |
| `E2EEManager.CameraTrackScenario` | src/e2ee/RNE2EEManager.ts:78-87 | an encrypted track published then unpublished gets a cryptor with key index 0, which is then disabled and disposed, in that order |
| `ParticipantOrder.CompareAntisymmetric` | src/useRoom.ts:105-140 | the comparator is antisymmetric and total, and a participant ties with itself |
| `ParticipantOrder.LeqIsRankedBefore` | src/useRoom.ts:105-140 | when no one spoke at the epoch, "sorts no later than" is a lexicographic ranking: speakers first and louder before quieter, then those who spoke before with the most recent first, then video on before off, then earlier joiners |
| `ParticipantOrder.LeqTransitive` | src/useRoom.ts:105-140 | under the same hypothesis the order is transitive |
| `ParticipantOrder.ZeroSpeakingTimeBreaksTransitivity` | src/useRoom.ts:121-139 | a speaking time of exactly 0 makes the comparator intransitive (concrete three participants) |
| `ParticipantOrder.Insert` | src/useRoom.ts:105 | insertion adds exactly the element: one longer, same multiset plus it |
| `ParticipantOrder.Sort` | src/useRoom.ts:105 | the sort returns a permutation of its input |
| `ParticipantOrder.InsertSorted` | src/useRoom.ts:105-140 | inserting into a sorted list keeps it sorted |
| `ParticipantOrder.SortSorted` | src/useRoom.ts:105-140 | the sort's result is sorted by the comparator |
| `ParticipantOrder.SortedIsPairwise` | src/useRoom.ts:105-140 | when the order is transitive, adjacent sortedness gives sortedness of every pair |
| `ParticipantOrder.SortOrdersByRank` | src/useRoom.ts:107-118 | after sorting, speakers precede non-speakers and speakers are ordered by decreasing audio level |
| `ParticipantOrder.IndexOf` | src/useRoom.ts:143 | `indexOf`: the first position of the participant, -1 exactly when absent |
| `ParticipantOrder.PlaceLocal` | src/useRoom.ts:142-152 | an absent or missing local participant leaves the list unchanged; the length is kept |
| `ParticipantOrder.PlaceLocalMovesLocal` | src/useRoom.ts:142-152 | the local participant ends at index 1 (index 0 when alone), the others keep their order, and the result is a permutation |
| `ParticipantOrder.ParticipantsChangedPlacesLocal` | src/useRoom.ts:33-39 | the list shown is a permutation of local-plus-remotes with the local participant at index 1, or 0 when alone |
| `ParticipantOrder.ParticipantsChangedOrdersOthers` | src/useRoom.ts:33-39 | everyone except the local participant appears in comparator order |
| `ParticipantOrder.RemoveAtKeepsSorted` | src/useRoom.ts:145 | removing the local participant keeps the rest sorted |
| `ParticipantOrder.LocalSecondBehindSpeaker` | src/useRoom.ts:101-152 | a concrete room: the active speaker comes first and the local participant second |
| `BarVisualizer.GetSequencerInterval` | src/components/BarVisualizer.tsx:42-62 | an interval exists for no state and for connecting, initializing, listening and thinking; connecting gives 2000 ms spread over the bars, which is Infinity with no bars |
| `BarVisualizer.DefaultIntervals` | src/components/BarVisualizer.tsx:35-40 | with 5 bars the animator ticks every 1000, 400, 2000, 500 and 150 ms, and 100 ms where no interval exists |
| `BarVisualizer.ListeningSequence` | src/components/BarVisualizer.tsx:237-242 | two frames, the middle bar (`floor(columns/2)`) and then `[-1]` |
| `BarVisualizer.ConnectingSequence` | src/components/BarVisualizer.tsx:244-252 | columns+1 frames; an empty first frame, then frame x highlights bars x-1 and columns-x |
| `BarVisualizer.GenerateConnectingSequenceBar` | src/components/BarVisualizer.tsx:244-252 | the source's loop builds exactly that sequence, and every bar index is in [0, columns) |
| `BarVisualizer.AllBars` | src/components/BarVisualizer.tsx:195-197 | all bar indices in order; a negative count throws a RangeError |
| `BarVisualizer.SelectSequence` | src/components/BarVisualizer.tsx:193-208 | the sequence chosen for each state, never empty |
| `BarVisualizer.SequenceIndicesInRange` | src/components/BarVisualizer.tsx:193-252 | every highlighted index of a chosen sequence is a real bar, or the -1 placeholder |
| `BarVisualizer.CurrentFrame` | src/components/BarVisualizer.tsx:234 | `sequence[index % length]` is a frame of the sequence, and the index-th one while the index is in range |
| `BarVisualizer.InitialAnimator` | src/components/BarVisualizer.tsx:189-191 | the animator starts in a valid state |
| `BarVisualizer.OnStateChange` | src/components/BarVisualizer.tsx:193-215 | a state change restarts the animation at frame 0 of the chosen sequence; it throws only for no state with a negative bar count |
| `BarVisualizer.OnAnimationFrame` | src/components/BarVisualizer.tsx:217-231 | the frame index advances by one exactly when a finite interval has elapsed |
| `BarVisualizer.Highlighted` | src/components/BarVisualizer.tsx:234 | the highlighted frame is always in bounds |
| `BarVisualizer.ConnectingWithoutBarsIsFrozen` | src/components/BarVisualizer.tsx:46-48 | connecting with no bars never advances |
| `BarVisualizer.CoercedHeight` | src/components/BarVisualizer.tsx:151 | the coerced height lies in [minHeight, maxHeight] and leaves an in-range value unchanged |
| `BarVisualizer.HeightPercent` | src/components/BarVisualizer.tsx:152 | the height percentage lies in [0, 100] |
| `BarVisualizer.DefaultHeights` | src/components/BarVisualizer.tsx:27-33 | with the default heights every bar is 25..100 percent tall, and full from 0.95 up |
| `BarVisualizer.TargetOpacities` | src/components/BarVisualizer.tsx:123-147 | a bar is fully opaque exactly when it is highlighted, otherwise at 0.3 |
| `BarVisualizer.ListeningFiveBars` | src/components/BarVisualizer.tsx:102-147 | listening with 5 bars first highlights only the middle bar |
| `AudioEngine.DefaultConfiguration` | src/audio/AudioManager.ts:64-86 | recording gives playAndRecord with Bluetooth and mixing, video or voice chat by speaker preference; playout alone gives mixing spoken-audio playback; idle gives soloAmbient |
| `AudioEngine.DefaultConfigurationAsApplied` | src/audio/AudioManager.ts:64-86 | the native translators turn each default configuration into the intended category, option set and mode |
| `AudioEngine.TryConfigure` | src/audio/AudioManager.ts:30-43 | going idle only stops; idle to idle calls nothing; active configures first and starts afterwards exactly when it was idle before, so one or two calls |
| `AudioEngine.UseIOSAudioManagement` | src/audio/AudioManager.ts:20-28 | the hook starts idle, with the speaker preference defaulting to true |
| `AudioEngine.HandleEngineStateUpdate` | src/audio/AudioManager.ts:45-57 | the new state is committed only when every session call succeeded; the speaker preference is carried over |
| `AudioEngine.UpdateKeepsSessionInSync` | src/audio/AudioManager.ts:30-57 | whichever call fails, the session runs exactly when the committed engine state is active |
| `AudioEngine.ReplayKeepsSessionInSync` | src/audio/AudioManager.ts:30-57 | the same across any series of engine events |
| `AudioEngine.InitialInSync` | src/audio/AudioManager.ts:20-28 | the initial hook state is in sync |
| `MediaRecorder.New` | src/audio/MediaRecorder.ts:35-45 | a new recorder is inactive with no parts and no tag |
| `MediaRecorder.RegisterListener` | src/audio/MediaRecorder.ts:47-69 | without exactly one audio track nothing happens; otherwise a native sink is created for it (peer connection -1 when local) and a handler installed |
| `MediaRecorder.UnregisterListener` | src/audio/MediaRecorder.ts:71-88 | the sink is deleted only with a tag set and one audio track |
| `MediaRecorder.Start` | src/audio/MediaRecorder.ts:100-104 | registers, becomes recording and dispatches `start` |
| `MediaRecorder.Pause` | src/audio/MediaRecorder.ts:90-93 | becomes paused and dispatches `pause` |
| `MediaRecorder.Resume` | src/audio/MediaRecorder.ts:95-98 | becomes recording and dispatches `resume` |
| `MediaRecorder.DispatchData` | src/audio/MediaRecorder.ts:118-125 | hands out the in-order concatenation of the parts and empties the buffer |
| `MediaRecorder.RequestData` | src/audio/MediaRecorder.ts:115-117 | an explicit request hands out the same in-order concatenation and empties the buffer, nothing else changing |
| `MediaRecorder.Stop` | src/audio/MediaRecorder.ts:106-113 | dispatches the data, then deletes the sink, then becomes inactive and dispatches `stop` |
| `MediaRecorder.OnAudioData` | src/audio/MediaRecorder.ts:59-67 | a chunk is buffered only with a tag set, addressed to it, while recording |
| `MediaRecorder.DeliverBuffers` | src/audio/MediaRecorder.ts:59-67 | chunks delivered while recording are buffered in order |
| `MediaRecorder.RecordingRoundTrip` | src/audio/MediaRecorder.ts:47-125 | start, chunks, stop hands out exactly the chunks' concatenation, between creating and deleting the sink |
| `MediaRecorder.NoSingleTrackRecordsNothing` | src/audio/MediaRecorder.ts:48-51 | a stream without exactly one audio track never buffers anything |
| `MediaRecorder.RestartDuplicatesChunks` | src/audio/MediaRecorder.ts:59-68 | after a restart each chunk is buffered twice |
| `MediaRecorder.PausedIgnoresChunks` | src/audio/MediaRecorder.ts:60-64 | nothing is buffered while paused; resuming buffers again |
| `ViewportDetector.IsVisible` | src/components/ViewPortDetector.tsx:65-72 | visible exactly when width and height are present and non-zero |
| `ViewportDetector.New` | src/components/ViewPortDetector.tsx:19-20 | no value reported yet and no timer |
| `ViewportDetector.Delay` | src/components/ViewPortDetector.tsx:58 | the `delay` prop, or 100 ms when absent or 0 |
| `ViewportDetector.StartWatching` | src/components/ViewPortDetector.tsx:47-59 | never starts a second timer; otherwise starts one with the delay |
| `ViewportDetector.StopWatching` | src/components/ViewPortDetector.tsx:61-63 | clears the timer and forgets it |
| `ViewportDetector.ComponentDidMount` | src/components/ViewPortDetector.tsx:28-32 | watches unless disabled |
| `ViewportDetector.ComponentWillReceiveProps` | src/components/ViewPortDetector.tsx:38-45 | the new props replace the old; disabled stops watching; otherwise the last value is reset and watching (re)starts, a fresh timer taking the current delay |
| `ViewportDetector.CheckInViewPort` | src/components/ViewPortDetector.tsx:65-78 | reports, and remembers, only a change of visibility |
| `ViewportDetector.CheckIdempotent` | src/components/ViewPortDetector.tsx:74-77 | the same measurement twice reports at most once |
| `ViewportDetector.FirstMeasurementReported` | src/components/ViewPortDetector.tsx:19-45 | the first measurement of a new detector, and the first after new props, is always reported |
| `ViewportDetector.ReportsAlternate` | src/components/ViewPortDetector.tsx:74-77 | over any measurements the reported values alternate |
| `ViewportDetector.OnTimer` | src/components/ViewPortDetector.tsx:51-58 | a tick after the interval is cleared, or with no view mounted, changes nothing; otherwise it only requests one measurement and reports nothing |
| `ViewportDetector.OnMeasured` | src/components/ViewPortDetector.tsx:55-57 | an outstanding measurement's callback is one visibility check, made whether or not the timer still runs; with no request outstanding nothing calls back |
| `ViewportDetector.TicksReportAlternate` | src/components/ViewPortDetector.tsx:38-78 | over any interleaving of ticks, callbacks, starts and stops the reported values alternate, and reports plus outstanding requests never exceed the ticks that asked |
| `ViewportDetector.LateReportAfterStop` | src/components/ViewPortDetector.tsx:51-62 | a measurement requested by the last tick before the timer is cleared still reaches `onChange` |
| `ViewportDetector.RunKeepsOneTimer` | src/components/ViewPortDetector.tsx:47-63 | no interleaving of ticks, callbacks, starts and stops leaves two timers live |
| `ViewportDetector.StartWatchingKeepsOneTimer` | src/components/ViewPortDetector.tsx:47-59 | starting to watch never leaves a second live timer |
| `ViewportDetector.StopWatchingKeepsOneTimer` | src/components/ViewPortDetector.tsx:61-63 | after stopping, no timer is live |
| `ViewportDetector.LifecycleKeepsOneTimer` | src/components/ViewPortDetector.tsx:28-63 | mounting, unmounting, new props and measurements never leave two timers live |
| `ViewportDetector.NewHasNoTimer` | src/components/ViewPortDetector.tsx:20 | a new detector has no live timer |
| `ElementInfo.New` | src/components/VideoTrack.tsx:256-269 | a new element is visible, 0 by 0 and not observed |
| `ElementInfo.Observe` | src/components/VideoTrack.tsx:271-273 | sets only the observing flag |
| `ElementInfo.StopObserving` | src/components/VideoTrack.tsx:275-277 | clears only the observing flag |
| `ElementInfo.VideoTrackOnLayout` | src/components/VideoTrack.tsx:279-287 | stores the size and calls the resize handler only while observed |
| `ElementInfo.VideoViewOnLayout` | src/components/VideoView.tsx:94-103 | stores the size times the pixel ratio and calls the resize handler only while observed |
| `ElementInfo.ViewLayoutScalesTrackLayout` | src/components/VideoView.tsx:94-103 | the view's layout is the track's layout of the scaled size |
| `ElementInfo.OnVisibility` | src/components/VideoTrack.tsx:289-297 | only a change is recorded and stamped, and called back while observed |
| `ElementInfo.OnVisibilityIdempotent` | src/components/VideoView.tsx:104-112 | the same report twice changes nothing the second time |
| `ElementInfo.ReportedVisibility` | src/components/VideoTrack.tsx:159-164 | the reported visibility is `isVisible`, or iOS picture-in-picture enabled |
| `ElementInfo.PictureInPictureStaysVisible` | src/components/VideoTrack.tsx:159-164 | with picture-in-picture on, a visible track stays visible and never calls back |
| `ElementInfo.OneCallbackPerChange` | src/components/VideoTrack.tsx:289-297 | while observed, the visibility handler is called once per change of the reported value |
| `ElementInfo.UnobservedIsSilent` | src/components/VideoView.tsx:87-112 | an unobserved element calls nothing back |
| `IosAudioUtils.ModeFromStringInvertsName` | ios/AudioUtils.swift:20-48 | a mode other than the default is returned exactly for its name when available; every available mode round-trips through its name |
| `IosAudioUtils.UnknownModeIsDefault` | ios/AudioUtils.swift:24-45 | "default", the empty string, and "voicePrompt" before iOS 12 give `.default` |
| `IosAudioUtils.CategoryFromStringInvertsName` | ios/AudioUtils.swift:50-68 | each category round-trips through its name; any other name gives soloAmbient |
| `IosAudioUtils.OptionFromStringInvertsName` | ios/AudioUtils.swift:72-96 | an option is recognised exactly from its name when the OS has it |
| `IosAudioUtils.OptionsOfMembership` | ios/AudioUtils.swift:70-99 | an option is inserted exactly when its name is listed and the OS has it |
| `IosAudioUtils.RawBits` | ios/AudioUtils.swift:70-99 | the bits of each option are those of its raw value in the framework's bitmask; interrupting spoken audio (0x11) carries the bit of mixing with others (0x1) |
| `IosAudioUtils.MaskContains` | ios/AudioUtils.swift:70-99 | the built option set contains exactly the inserted options, plus mixing with others whenever interrupting spoken audio was inserted |
| `IosAudioUtils.ContainsMembership` | ios/AudioUtils.swift:70-99 | the option set contains an option exactly when its name is listed and the OS has it, or it is mixing with others and interrupting spoken audio is listed from iOS 13 on |
| `IosAudioUtils.InterruptAlsoMixes` | ios/AudioUtils.swift:86-89 | asking only to interrupt spoken audio yields a set that contains mixing with others although that option was never inserted |
| `IosAudioUtils.OptionsIgnoreOrderAndDuplicates` | ios/AudioUtils.swift:70-99 | lists with the same names give the same set |
| `IosAudioUtils.CategoryOptionsFromStrings` | ios/AudioUtils.swift:70-99 | the source's loop inserts exactly that set of options and builds the bitmask of their raw values; the empty list gives the empty set |
| `IosAudioUtils.GatedOptions` | ios/AudioUtils.swift:86-93 | the two gated options appear only from iOS 13 and 14.5 on |
| `AudioManagerUtils.AudioModeFromString` | packages/react-native/android/src/main/java/com/livekit/reactnative/audio/AudioManagerUtils.kt:11-27 | null gives null |
| `AudioManagerUtils.FocusModeFromString` | packages/react-native/android/src/main/java/com/livekit/reactnative/audio/AudioManagerUtils.kt:29-44 | null gives null |
| `AudioManagerUtils.AudioAttributesUsageTypeFromString` | packages/react-native/android/src/main/java/com/livekit/reactnative/audio/AudioManagerUtils.kt:46-72 | null gives null |
| `AudioManagerUtils.AudioAttributesContentTypeFromString` | packages/react-native/android/src/main/java/com/livekit/reactnative/audio/AudioManagerUtils.kt:74-92 | null gives null |
| `AudioManagerUtils.AudioStreamTypeFromString` | packages/react-native/android/src/main/java/com/livekit/reactnative/audio/AudioManagerUtils.kt:94-115 | null gives null |
| `AudioManagerUtils.TablesAreBijective` | packages/react-native/android/src/main/java/com/livekit/reactnative/audio/AudioManagerUtils.kt:17-107 | 5 mode, 4 focus, 13 usage, 5 content and 8 stream names, each table pairing distinct names with distinct constants |
| `AudioManagerUtils.AudioModeFollowsTable` | packages/react-native/android/src/main/java/com/livekit/reactnative/audio/AudioManagerUtils.kt:16-24 | a name gives a constant exactly as the mode table pairs them; any other name gives null |
| `AudioManagerUtils.FocusModeFollowsTable` | packages/react-native/android/src/main/java/com/livekit/reactnative/audio/AudioManagerUtils.kt:34-41 | the same for focus modes |
| `AudioManagerUtils.UsageTypeFollowsTable` | packages/react-native/android/src/main/java/com/livekit/reactnative/audio/AudioManagerUtils.kt:50-69 | the same for usage types |
| `AudioManagerUtils.ContentTypeFollowsTable` | packages/react-native/android/src/main/java/com/livekit/reactnative/audio/AudioManagerUtils.kt:78-89 | the same for content types |
| `AudioManagerUtils.StreamTypeFollowsTable` | packages/react-native/android/src/main/java/com/livekit/reactnative/audio/AudioManagerUtils.kt:98-112 | the same for stream types |
| `AudioManagerUtils.TranslatorsInjective` | packages/react-native/android/src/main/java/com/livekit/reactnative/audio/AudioManagerUtils.kt:11-115 | two names giving the same constant are the same name |
| `LegacyAudioManagerUtils.AudioModeFromString` | android/src/main/java/com/livekit/reactnative/audio/AudioManagerUtils.kt:10-26 | null gives null |
| `LegacyAudioManagerUtils.FocusModeFromString` | android/src/main/java/com/livekit/reactnative/audio/AudioManagerUtils.kt:28-43 | null gives null |
| `LegacyAudioManagerUtils.CopiesAgree` | android/src/main/java/com/livekit/reactnative/audio/AudioManagerUtils.kt:10-43 | the older copy agrees with the full copy on every input |
| `LegacyAudioManagerUtils.LegacyFollowsTables` | android/src/main/java/com/livekit/reactnative/audio/AudioManagerUtils.kt:15-41 | the older copy maps exactly the 5 mode and 4 focus names, each to its constant |
| `AudioSinks.Register` | android/src/main/java/com/livekit/reactnative/audio/processing/AudioSinkManager.kt:21-26 | the sink is stored under the returned tag, every other entry kept; a fresh tag adds one entry |
| `AudioSinks.UnregisterTag` | android/src/main/java/com/livekit/reactnative/audio/processing/AudioSinkManager.kt:31-33 | removes only that tag; an unknown tag changes nothing |
| `AudioSinks.WithoutSink` | ios/audio/AudioRendererManager.swift:41-43 | removes every tag of the sink and no other |
| `AudioSinks.GetSink` | android/src/main/java/com/livekit/reactnative/audio/processing/AudioSinkManager.kt:47 | the sink under the tag, null when there is none |
| `AudioSinks.RegisterRoundTrip` | android/src/main/java/com/livekit/reactnative/audio/processing/AudioSinkManager.kt:21-47 | the returned tag finds the sink, and unregistering a fresh tag undoes registration |
| `AudioSinks.WithoutSinkForgetsIt` | ios/audio/AudioRendererManager.swift:41-43 | afterwards no tag finds the sink; doing it again changes nothing |
| `AudioSinks.WithoutSinkUndoesRegister` | ios/audio/AudioRendererManager.swift:29-43 | unregistering by value also removes a tag just registered for that sink |
| `AudioSinks.RouteFor` | android/src/main/java/com/livekit/reactnative/audio/processing/AudioSinkManager.kt:56-60 | peer connection -1 routes to the local dispatcher, any other to the track |
| `AudioSinkManager.UnregisterSink` | android/src/main/java/com/livekit/reactnative/audio/processing/AudioSinkManager.kt:38-45 | the source's key-by-key loop removes exactly the sink's tags |
| `AudioSinkManager.AttachSinkToTrack` | android/src/main/java/com/livekit/reactnative/audio/processing/AudioSinkManager.kt:49-61 | throws exactly when the WebRTC module or the audio track is missing; otherwise attaches by route |
| `AudioSinkManager.DetachSinkFromTrack` | android/src/main/java/com/livekit/reactnative/audio/processing/AudioSinkManager.kt:63-74 | throws only without the WebRTC module; a missing track is ignored; otherwise detaches by route |
| `AudioSinkManager.DetachSinkFromTrackByTag` | android/src/main/java/com/livekit/reactnative/audio/processing/AudioSinkManager.kt:76-80 | an unregistered tag throws; a registered one detaches its sink |
| `AudioSinkManager.AttachDetachInverse` | android/src/main/java/com/livekit/reactnative/audio/processing/AudioSinkManager.kt:49-74 | detaching after a successful attach uses the same route and undoes it |
| `AudioSinkManager.DetachRegisteredByTag` | android/src/main/java/com/livekit/reactnative/audio/processing/AudioSinkManager.kt:21-80 | a registered, attached sink is detached by its tag |
| `AudioRendererManager.UnregisterRenderer` | ios/audio/AudioRendererManager.swift:41-43 | keeps exactly the entries whose renderer is a different object |
| `AudioRendererManager.Attach` | ios/audio/AudioRendererManager.swift:46-59 | a missing track does nothing; otherwise the renderer is added by route |
| `AudioRendererManager.Detach` | ios/audio/AudioRendererManager.swift:73-86 | a missing track does nothing; otherwise the renderer is removed by route |
| `AudioRendererManager.DetachByTag` | ios/audio/AudioRendererManager.swift:62-70 | an unknown tag does nothing; a known one detaches its renderer |
| `AudioRendererManager.PlatformsAgree` | ios/audio/AudioRendererManager.swift:36-86 | where Android does not throw both platforms route alike; Android throws exactly where iOS ignores |
| `AudioSwitchManager.New` | packages/react-native/android/src/main/java/com/livekit/reactnative/audio/AudioSwitchManager.java:116-125 | no switch; preferred order Bluetooth headset, wired headset, speakerphone, earpiece; focus managed, routing not forced |
| `AudioSwitchManager.DefaultsAreNamedSettings` | packages/react-native/android/src/main/java/com/livekit/reactnative/audio/AudioSwitchManager.java:54-104 | the default focus mode, audio mode, stream, usage and content type are the constants named "gain", "inCommunication", "voiceCall", "voiceCommunication" and "speech" |
| `AudioSwitchManager.Store` | packages/react-native/android/src/main/java/com/livekit/reactnative/audio/AudioSwitchManager.java:218-265 | each setter replaces its own setting only |
| `AudioSwitchManager.SettingsReproduceConfig` | packages/react-native/android/src/main/java/com/livekit/reactnative/audio/AudioSwitchManager.java:137-143 | the seven settings `start` gives a new switch leave it configured exactly as the manager |
| `AudioSwitchManager.Start` | packages/react-native/android/src/main/java/com/livekit/reactnative/audio/AudioSwitchManager.java:127-148 | creates, configures, starts and activates a switch only when none exists |
| `AudioSwitchManager.Stop` | packages/react-native/android/src/main/java/com/livekit/reactnative/audio/AudioSwitchManager.java:150-158 | stops a live switch; afterwards there is none |
| `AudioSwitchManager.SelectedAudioDevice` | packages/react-native/android/src/main/java/com/livekit/reactnative/audio/AudioSwitchManager.java:164-172 | null when not started |
| `AudioSwitchManager.AvailableAudioDevices` | packages/react-native/android/src/main/java/com/livekit/reactnative/audio/AudioSwitchManager.java:174-182 | empty when not started |
| `AudioSwitchManager.FirstOfClass` | packages/react-native/android/src/main/java/com/livekit/reactnative/audio/AudioSwitchManager.java:190-195 | the first device of the class, none exactly when no device has it |
| `AudioSwitchManager.SelectAudioOutput` | packages/react-native/android/src/main/java/com/livekit/reactnative/audio/AudioSwitchManager.java:184-202 | selects the first available device of the class; no switch or no match changes nothing |
| `AudioSwitchManager.SelectAudioOutputKind` | packages/react-native/android/src/main/java/com/livekit/reactnative/audio/AudioSwitchManager.java:212-216 | a null kind changes nothing |
| `AudioSwitchManager.Set` | packages/react-native/android/src/main/java/com/livekit/reactnative/audio/AudioSwitchManager.java:218-265 | the value is stored, and forwarded to the switch only while one exists |
| `AudioSwitchManager.ApplyKeepsInStep` | packages/react-native/android/src/main/java/com/livekit/reactnative/audio/AudioSwitchManager.java:127-265 | every operation keeps a live switch configured as the manager |
| `AudioSwitchManager.RunKeepsInStep` | packages/react-native/android/src/main/java/com/livekit/reactnative/audio/AudioSwitchManager.java:127-265 | the same over any sequence of operations |
| `AudioSwitchManager.StartStopCycle` | packages/react-native/android/src/main/java/com/livekit/reactnative/audio/AudioSwitchManager.java:127-158 | a second start is a no-op; a restart after stop creates a switch with the current settings |
| `VideoDecoderFactory.New` | packages/react-native/android/src/main/java/com/livekit/reactnative/video/CustomVideoDecoderFactory.kt:27-30 | defaults: no forcing, list ["VP9"] |
| `VideoDecoderFactory.SetForceSWCodec` | packages/react-native/android/src/main/java/com/livekit/reactnative/video/CustomVideoDecoderFactory.kt:37-39 | replaces the flag only |
| `VideoDecoderFactory.SetForceSWCodecList` | packages/react-native/android/src/main/java/com/livekit/reactnative/video/CustomVideoDecoderFactory.kt:44-46 | replaces the list only |
| `VideoDecoderFactory.CreateDecoder` | packages/react-native/android/src/main/java/com/livekit/reactnative/video/CustomVideoDecoderFactory.kt:48-58 | software exactly when forced or the codec is listed |
| `VideoDecoderFactory.GetSupportedCodecs` | packages/react-native/android/src/main/java/com/livekit/reactnative/video/CustomVideoDecoderFactory.kt:60-66 | the software factory's codecs exactly when forced with an empty list |
| `VideoDecoderFactory.DefaultForcesOnlyVP9` | packages/react-native/android/src/main/java/com/livekit/reactnative/video/CustomVideoDecoderFactory.kt:27-58 | by default exactly VP9 decodes in software |
| `VideoDecoderFactory.SupportedCodecsAndDecoders` | packages/react-native/android/src/main/java/com/livekit/reactnative/video/CustomVideoDecoderFactory.kt:48-66 | software codecs advertised imply software decoders; forced with a list, the wrapped codecs are advertised but decoders are software |
| `VideoDecoderFactory.SettersReplaceWholesale` | packages/react-native/android/src/main/java/com/livekit/reactnative/video/CustomVideoDecoderFactory.kt:37-46 | the two setters are independent; flag off with an empty list sends everything to the wrapped factory |
| `FrameSkipper.New` | ios/audio/VolumeAudioRenderer.swift:48-51 | a new renderer has skipped nothing |
| `FrameSkipper.Render` | ios/audio/VolumeAudioRenderer.swift:53-63 | below `frameInterval - 1` skipped buffers it only counts; otherwise it resets and processes; the counter stays in [0, max(0, frameInterval-1)] |
| `FrameSkipper.SkipsUntilFull` | ios/audio/VolumeAudioRenderer.swift:54-57 | from any count, buffers are skipped until the counter reaches `frameInterval - 1` |
| `FrameSkipper.OneInterval` | ios/audio/VolumeAudioRenderer.swift:53-63 | `frameInterval` buffers process exactly one and return the counter to 0 |
| `FrameSkipper.ExactlyOnePerInterval` | ios/audio/MultibandVolumeAudioRenderer.swift:70-76 | a fresh renderer processes exactly k of its first k·n buffers and ends as it started, n ≥ 1 |
| `FrameSkipper.ShortIntervalProcessesAll` | ios/audio/VolumeAudioRenderer.swift:53-63 | with `frameInterval` ≤ 1 every buffer is processed |
| `FrameSkipper.RenderManyValid` | ios/audio/MultibandVolumeAudioRenderer.swift:56-76 | the counter stays in range over any number of buffers, and at most one buffer is processed per buffer rendered |
| `FrameSkipper.OnVolumeCalculated` | ios/audio/VolumeAudioRenderer.swift:33-43 | an event is sent exactly when a tag is set and there is a level average |
| `FrameSkipper.OnMagnitudesCalculated` | ios/audio/MultibandVolumeAudioRenderer.swift:43-52 | an event is sent exactly when a tag is set and the magnitudes are non-empty |
| `FrameSkipper.RenderVolume` | ios/audio/VolumeAudioRenderer.swift:53-63 | only a processed buffer can send an event |
| `FrameSkipper.RenderMultiband` | ios/audio/MultibandVolumeAudioRenderer.swift:70-82 | an event is sent exactly for a processed buffer with a processor result, non-empty magnitudes and a tag |
| `FrameSkipper.SkippedOrUntaggedIsSilent` | ios/audio/MultibandVolumeAudioRenderer.swift:43-82 | a skipped buffer or an untagged renderer sends nothing |

## Left out

- KeyProvider.Utf8RoundTrip: strings are modelled as sequences of Unicode scalar values (Dafny `char`), so a JavaScript string holding a lone surrogate such as `"\uD800"` is outside the model; `TextEncoder` encodes such a surrogate as U+FFFD (EF BF BD), and that string does not round-trip.
- KeyProvider.TextMagicBytesDecode: stated for strings of Unicode scalar values only, for the same reason.
- AudioEngine.HandleEngineStateUpdate: a rejected session call is assumed to have no effect on the native session. The source promises nothing about the session after a rejected `startAudioSession` or `stopAudioSession`, so `UpdateKeepsSessionInSync` and `ReplayKeepsSessionInSync` hold only under this assumption.
- Native WebRTC crypto is not modelled: frame cryptors, the native key provider, data-packet encryption, decryption and ratcheting. Cryptors are opaque handles, and the results of native calls are parameters.
- `async`/`await` interleavings and the `Mutex` in `getDataPacketCryptor` are left out. Operations run one after another, so lazy creation reduces to "created at most once".
- A failure of the native `setEnabled` or `dispose` promise is not modelled. Such a promise rejects after the registry entry is already gone.
- Event-emitter wiring (`on`, `off`, `emit`) is not modelled. Handlers are direct calls, and emitted events are log entries.
- The identity lookup `getParticipantByIdentity` belongs to livekit-client, which is not part of this model. A `RoomView` of identities stands in for it.
- Float DSP is left out: level averaging, FFT bands, and the rounding of `intervalMs / 10`. `frameInterval` is taken as a given integer.
- Timers, `requestAnimationFrame` and `Date.now()` are parameters or events. The period of the bar animation is not modelled; `BarVisualizer.CurrentFrame` states only that every frame is in bounds.
- Base64 decoding of audio chunks is left out. Chunks stay strings.
- The React rendering, the hooks' effect scheduling, and a custom `sortParticipants` passed in options are left out.
- The Android audio-switch work posted to the main thread runs immediately. The race that `removeCallbacksAndMessages` settles is not modelled.
- `setMicrophoneMute` and `enableSpeakerphone` are not modelled. They call the platform audio manager directly and keep no state.
- `AudioDeviceKind` is not part of this model. A kind is represented by its device class.
- On iOS the WebRTC module is force-cast. A missing module would crash, so the model assumes it is present.
- The AudioSwitch library's own behaviour is left out: device discovery, automatic selection from the preferred list, and audio focus. The devices it reports are a parameter.
- ViewportDetector.OnTimer: a tick does not measure by itself. The view's `measure` callback is the separate event `OnMeasured`, and the size it reports is a parameter. It may arrive after any later event, including after the timer is cleared. Whether the native side still calls back for a view that has been unmounted is not modelled: any outstanding request may call back.
- IosAudioUtils.RawBits: the raw values of `AVAudioSession.CategoryOptions` come from the iOS SDK, which is not part of this model. They are written down as constants.
- NaN widths and heights in `ViewPortDetector` are left out. Sizes are reals, and a missing dimension is absent.
- `ParticipantOrder.Sort`: the insertion sort is stable by construction, but stability is not stated. `Array.prototype.sort` is stable too.
- `ParticipantOrder.LeqTransitive`: proved only when no speaking time is exactly the epoch, because the comparator is not transitive otherwise.
- `AudioManagerUtils.AudioModeFromString`: this row and the other four translators' rows state only the null case. The name-to-constant behaviour is stated by the `*FollowsTable` lemmas and `TablesAreBijective`.
- `LegacyAudioManagerUtils.AudioModeFromString`: this row and the legacy focus-mode row state only the null case. `LegacyFollowsTables` and `CopiesAgree` state the rest.

=== FILE: android_audio_utils.dfy ===
/** The Android audio-setting translators: JavaScript names an audio mode,
    focus mode, attribute usage, content type or stream type as a string,
    and these functions return the platform constant, or null for a null
    or unknown name. There are two copies of the file,
    packages/react-native/android/.../AudioManagerUtils.kt with all five
    translators and android/.../AudioManagerUtils.kt with the first two;
    each copy is modelled as written and the two are proved to agree. */

/** The platform constants the translators return, with the values the
    Android SDK gives them. */
module AndroidSdk {
  const MODE_NORMAL: int := 0
  const MODE_RINGTONE: int := 1
  const MODE_IN_CALL: int := 2
  const MODE_IN_COMMUNICATION: int := 3
  const MODE_CALL_SCREENING: int := 4

  const AUDIOFOCUS_GAIN: int := 1
  const AUDIOFOCUS_GAIN_TRANSIENT: int := 2
  const AUDIOFOCUS_GAIN_TRANSIENT_MAY_DUCK: int := 3
  const AUDIOFOCUS_GAIN_TRANSIENT_EXCLUSIVE: int := 4

  const USAGE_UNKNOWN: int := 0
  const USAGE_MEDIA: int := 1
  const USAGE_VOICE_COMMUNICATION: int := 2
  const USAGE_VOICE_COMMUNICATION_SIGNALLING: int := 3
  const USAGE_ALARM: int := 4
  const USAGE_NOTIFICATION: int := 5
  const USAGE_NOTIFICATION_RINGTONE: int := 6
  const USAGE_NOTIFICATION_EVENT: int := 10
  const USAGE_ASSISTANCE_ACCESSIBILITY: int := 11
  const USAGE_ASSISTANCE_NAVIGATION_GUIDANCE: int := 12
  const USAGE_ASSISTANCE_SONIFICATION: int := 13
  const USAGE_GAME: int := 14
  const USAGE_ASSISTANT: int := 16

  const CONTENT_TYPE_UNKNOWN: int := 0
  const CONTENT_TYPE_SPEECH: int := 1
  const CONTENT_TYPE_MUSIC: int := 2
  const CONTENT_TYPE_MOVIE: int := 3
  const CONTENT_TYPE_SONIFICATION: int := 4

  const STREAM_VOICE_CALL: int := 0
  const STREAM_SYSTEM: int := 1
  const STREAM_RING: int := 2
  const STREAM_MUSIC: int := 3
  const STREAM_ALARM: int := 4
  const STREAM_NOTIFICATION: int := 5
  const STREAM_DTMF: int := 8
  const STREAM_ACCESSIBILITY: int := 10

  /** A translation table: pairs of a name and its constant. */
  type Table = seq<(string, int)>

  /** No name and no constant occurs twice, so the table is a bijection
      between its names and its constants. */
  predicate Bijective(t: Table) {
    forall i, j :: 0 <= i < |t| && 0 <= j < |t| && i != j ==> t[i].0 != t[j].0 && t[i].1 != t[j].1
  }

  /** In a bijective table a constant is paired with one name only. */
  lemma SameConstantSameName(t: Table, a: string, b: string, c: int)
    requires Bijective(t) && (a, c) in t && (b, c) in t
    ensures a == b
  {
    var i :| 0 <= i < |t| && t[i] == (a, c);
    var j :| 0 <= j < |t| && t[j] == (b, c);
    assert i == j;
  }
}

/** The full copy (packages/react-native/android/.../AudioManagerUtils.kt). */
module AudioManagerUtils {
  import opened Wrappers
  import opened AndroidSdk

  const AudioModes: Table := [
    ("normal", MODE_NORMAL), ("callScreening", MODE_CALL_SCREENING), ("inCall", MODE_IN_CALL),
    ("inCommunication", MODE_IN_COMMUNICATION), ("ringtone", MODE_RINGTONE)]

  const FocusModes: Table := [
    ("gain", AUDIOFOCUS_GAIN), ("gainTransient", AUDIOFOCUS_GAIN_TRANSIENT),
    ("gainTransientExclusive", AUDIOFOCUS_GAIN_TRANSIENT_EXCLUSIVE),
    ("gainTransientMayDuck", AUDIOFOCUS_GAIN_TRANSIENT_MAY_DUCK)]

  const UsageTypes: Table := [
    ("alarm", USAGE_ALARM), ("assistanceAccessibility", USAGE_ASSISTANCE_ACCESSIBILITY),
    ("assistanceNavigationGuidance", USAGE_ASSISTANCE_NAVIGATION_GUIDANCE),
    ("assistanceSonification", USAGE_ASSISTANCE_SONIFICATION), ("assistant", USAGE_ASSISTANT),
    ("game", USAGE_GAME), ("media", USAGE_MEDIA), ("notification", USAGE_NOTIFICATION),
    ("notificationEvent", USAGE_NOTIFICATION_EVENT), ("notificationRingtone", USAGE_NOTIFICATION_RINGTONE),
    ("unknown", USAGE_UNKNOWN), ("voiceCommunication", USAGE_VOICE_COMMUNICATION),
    ("voiceCommunicationSignalling", USAGE_VOICE_COMMUNICATION_SIGNALLING)]

  const ContentTypes: Table := [
    ("movie", CONTENT_TYPE_MOVIE), ("music", CONTENT_TYPE_MUSIC), ("sonification", CONTENT_TYPE_SONIFICATION),
    ("speech", CONTENT_TYPE_SPEECH), ("unknown", CONTENT_TYPE_UNKNOWN)]

  const StreamTypes: Table := [
    ("accessibility", STREAM_ACCESSIBILITY), ("alarm", STREAM_ALARM), ("dtmf", STREAM_DTMF),
    ("music", STREAM_MUSIC), ("notification", STREAM_NOTIFICATION), ("ring", STREAM_RING),
    ("system", STREAM_SYSTEM), ("voiceCall", STREAM_VOICE_CALL)]

  function AudioModeFromString(s: Option<string>): (r: Option<int>)
    ensures s.None? ==> r.None?
  {
    match s
    case None => None
    case Some(name) =>
      match name
      case "normal" => Some(MODE_NORMAL)
      case "callScreening" => Some(MODE_CALL_SCREENING)
      case "inCall" => Some(MODE_IN_CALL)
      case "inCommunication" => Some(MODE_IN_COMMUNICATION)
      case "ringtone" => Some(MODE_RINGTONE)
      case _ => None
  }

  function FocusModeFromString(s: Option<string>): (r: Option<int>)
    ensures s.None? ==> r.None?
  {
    match s
    case None => None
    case Some(name) =>
      match name
      case "gain" => Some(AUDIOFOCUS_GAIN)
      case "gainTransient" => Some(AUDIOFOCUS_GAIN_TRANSIENT)
      case "gainTransientExclusive" => Some(AUDIOFOCUS_GAIN_TRANSIENT_EXCLUSIVE)
      case "gainTransientMayDuck" => Some(AUDIOFOCUS_GAIN_TRANSIENT_MAY_DUCK)
      case _ => None
  }

  function AudioAttributesUsageTypeFromString(s: Option<string>): (r: Option<int>)
    ensures s.None? ==> r.None?
  {
    match s
    case None => None
    case Some(name) =>
      match name
      case "alarm" => Some(USAGE_ALARM)
      case "assistanceAccessibility" => Some(USAGE_ASSISTANCE_ACCESSIBILITY)
      case "assistanceNavigationGuidance" => Some(USAGE_ASSISTANCE_NAVIGATION_GUIDANCE)
      case "assistanceSonification" => Some(USAGE_ASSISTANCE_SONIFICATION)
      case "assistant" => Some(USAGE_ASSISTANT)
      case "game" => Some(USAGE_GAME)
      case "media" => Some(USAGE_MEDIA)
      case "notification" => Some(USAGE_NOTIFICATION)
      case "notificationEvent" => Some(USAGE_NOTIFICATION_EVENT)
      case "notificationRingtone" => Some(USAGE_NOTIFICATION_RINGTONE)
      case "unknown" => Some(USAGE_UNKNOWN)
      case "voiceCommunication" => Some(USAGE_VOICE_COMMUNICATION)
      case "voiceCommunicationSignalling" => Some(USAGE_VOICE_COMMUNICATION_SIGNALLING)
      case _ => None
  }

  function AudioAttributesContentTypeFromString(s: Option<string>): (r: Option<int>)
    ensures s.None? ==> r.None?
  {
    match s
    case None => None
    case Some(name) =>
      match name
      case "movie" => Some(CONTENT_TYPE_MOVIE)
      case "music" => Some(CONTENT_TYPE_MUSIC)
      case "sonification" => Some(CONTENT_TYPE_SONIFICATION)
      case "speech" => Some(CONTENT_TYPE_SPEECH)
      case "unknown" => Some(CONTENT_TYPE_UNKNOWN)
      case _ => None
  }

  function AudioStreamTypeFromString(s: Option<string>): (r: Option<int>)
    ensures s.None? ==> r.None?
  {
    match s
    case None => None
    case Some(name) =>
      match name
      case "accessibility" => Some(STREAM_ACCESSIBILITY)
      case "alarm" => Some(STREAM_ALARM)
      case "dtmf" => Some(STREAM_DTMF)
      case "music" => Some(STREAM_MUSIC)
      case "notification" => Some(STREAM_NOTIFICATION)
      case "ring" => Some(STREAM_RING)
      case "system" => Some(STREAM_SYSTEM)
      case "voiceCall" => Some(STREAM_VOICE_CALL)
      case _ => None
  }

  /** Each table pairs distinct names with distinct constants, and has as
      many entries as the translator recognises names. */
  lemma TablesAreBijective()
    ensures Bijective(AudioModes) && |AudioModes| == 5
    ensures Bijective(FocusModes) && |FocusModes| == 4
    ensures Bijective(UsageTypes) && |UsageTypes| == 13
    ensures Bijective(ContentTypes) && |ContentTypes| == 5
    ensures Bijective(StreamTypes) && |StreamTypes| == 8
  {
  }

  /** Each translator maps a name to a constant exactly as its table pairs
      them, and every name outside its table to null. */
  lemma AudioModeFollowsTable(name: string, c: int)
    ensures AudioModeFromString(Some(name)) == Some(c) <==> (name, c) in AudioModes
  {
  }

  lemma FocusModeFollowsTable(name: string, c: int)
    ensures FocusModeFromString(Some(name)) == Some(c) <==> (name, c) in FocusModes
  {
  }

  lemma UsageTypeFollowsTable(name: string, c: int)
    ensures AudioAttributesUsageTypeFromString(Some(name)) == Some(c) <==> (name, c) in UsageTypes
  {
  }

  lemma ContentTypeFollowsTable(name: string, c: int)
    ensures AudioAttributesContentTypeFromString(Some(name)) == Some(c) <==> (name, c) in ContentTypes
  {
  }

  lemma StreamTypeFollowsTable(name: string, c: int)
    ensures AudioStreamTypeFromString(Some(name)) == Some(c) <==> (name, c) in StreamTypes
  {
  }

  /** Different recognised names never share a constant, so a constant
      names its setting unambiguously. */
  lemma TranslatorsInjective(a: string, b: string)
    ensures AudioModeFromString(Some(a)).Some? && AudioModeFromString(Some(a)) == AudioModeFromString(Some(b)) ==> a == b
    ensures FocusModeFromString(Some(a)).Some? && FocusModeFromString(Some(a)) == FocusModeFromString(Some(b)) ==> a == b
    ensures (AudioAttributesUsageTypeFromString(Some(a)).Some? &&
             AudioAttributesUsageTypeFromString(Some(a)) == AudioAttributesUsageTypeFromString(Some(b))) ==> a == b
    ensures (AudioAttributesContentTypeFromString(Some(a)).Some? &&
             AudioAttributesContentTypeFromString(Some(a)) == AudioAttributesContentTypeFromString(Some(b))) ==> a == b
    ensures (AudioStreamTypeFromString(Some(a)).Some? &&
             AudioStreamTypeFromString(Some(a)) == AudioStreamTypeFromString(Some(b))) ==> a == b
  {
    TablesAreBijective();
    var m := AudioModeFromString(Some(a));
    if m.Some? && m == AudioModeFromString(Some(b)) {
      AudioModeFollowsTable(a, m.value);
      AudioModeFollowsTable(b, m.value);
      SameConstantSameName(AudioModes, a, b, m.value);
    }
    var f := FocusModeFromString(Some(a));
    if f.Some? && f == FocusModeFromString(Some(b)) {
      FocusModeFollowsTable(a, f.value);
      FocusModeFollowsTable(b, f.value);
      SameConstantSameName(FocusModes, a, b, f.value);
    }
    var u := AudioAttributesUsageTypeFromString(Some(a));
    if u.Some? && u == AudioAttributesUsageTypeFromString(Some(b)) {
      UsageTypeFollowsTable(a, u.value);
      UsageTypeFollowsTable(b, u.value);
      SameConstantSameName(UsageTypes, a, b, u.value);
    }
    var c := AudioAttributesContentTypeFromString(Some(a));
    if c.Some? && c == AudioAttributesContentTypeFromString(Some(b)) {
      ContentTypeFollowsTable(a, c.value);
      ContentTypeFollowsTable(b, c.value);
      SameConstantSameName(ContentTypes, a, b, c.value);
    }
    var t := AudioStreamTypeFromString(Some(a));
    if t.Some? && t == AudioStreamTypeFromString(Some(b)) {
      StreamTypeFollowsTable(a, t.value);
      StreamTypeFollowsTable(b, t.value);
      SameConstantSameName(StreamTypes, a, b, t.value);
    }
  }
}

/** The older copy (android/.../AudioManagerUtils.kt), with only the mode
    and focus-mode translators. */
module LegacyAudioManagerUtils {
  import opened Wrappers
  import opened AndroidSdk
  import AudioManagerUtils

  function AudioModeFromString(s: Option<string>): (r: Option<int>)
    ensures s.None? ==> r.None?
  {
    match s
    case None => None
    case Some(name) =>
      match name
      case "normal" => Some(MODE_NORMAL)
      case "callScreening" => Some(MODE_CALL_SCREENING)
      case "inCall" => Some(MODE_IN_CALL)
      case "inCommunication" => Some(MODE_IN_COMMUNICATION)
      case "ringtone" => Some(MODE_RINGTONE)
      case _ => None
  }

  function FocusModeFromString(s: Option<string>): (r: Option<int>)
    ensures s.None? ==> r.None?
  {
    match s
    case None => None
    case Some(name) =>
      match name
      case "gain" => Some(AUDIOFOCUS_GAIN)
      case "gainTransient" => Some(AUDIOFOCUS_GAIN_TRANSIENT)
      case "gainTransientExclusive" => Some(AUDIOFOCUS_GAIN_TRANSIENT_EXCLUSIVE)
      case "gainTransientMayDuck" => Some(AUDIOFOCUS_GAIN_TRANSIENT_MAY_DUCK)
      case _ => None
  }

  /** The two copies agree on every input, null included. */
  lemma CopiesAgree(s: Option<string>)
    ensures AudioModeFromString(s) == AudioManagerUtils.AudioModeFromString(s)
    ensures FocusModeFromString(s) == AudioManagerUtils.FocusModeFromString(s)
  {
  }

  lemma LegacyFollowsTables(name: string, c: int)
    ensures AudioModeFromString(Some(name)) == Some(c) <==> (name, c) in AudioManagerUtils.AudioModes
    ensures FocusModeFromString(Some(name)) == Some(c) <==> (name, c) in AudioManagerUtils.FocusModes
  {
  }
}

=== FILE: audio_engine.dfy ===
/** The iOS audio-session management hook (src/audio/AudioManager.ts).

    The audio engine reports before it enables and after it disables
    whether playout and recording are on; the hook configures, starts or
    stops the shared audio session accordingly and remembers the engine
    state once that succeeded. Session calls are recorded; one of them may
    reject, which is modelled by the index of the first call that fails
    (a failing call has no effect). */
module AudioEngine {
  import opened Wrappers
  import IosAudioUtils

  datatype EngineState = EngineState(isPlayoutEnabled: bool, isRecordingEnabled: bool, preferSpeakerOutput: bool) {
    /** The engine uses the session at all. */
    predicate Active() { isPlayoutEnabled || isRecordingEnabled }
  }

  /** An audio configuration as named from JavaScript. */
  datatype AppleAudioConfiguration = AppleAudioConfiguration(audioCategory: string, audioCategoryOptions: seq<string>, audioMode: string)

  datatype SessionCall = StopAudioSession | SetAppleAudioConfiguration(config: AppleAudioConfiguration) | StartAudioSession

  /** The configuration used when the app supplies none. */
  function DefaultConfiguration(s: EngineState): (c: AppleAudioConfiguration)
    ensures s.isRecordingEnabled ==>
              c == AppleAudioConfiguration("playAndRecord", ["allowBluetooth", "mixWithOthers"],
                                           if s.preferSpeakerOutput then "videoChat" else "voiceChat")
    ensures !s.isRecordingEnabled && s.isPlayoutEnabled ==>
              c == AppleAudioConfiguration("playback", ["mixWithOthers"], "spokenAudio")
    ensures !s.Active() ==> c == AppleAudioConfiguration("soloAmbient", [], "default")
  {
    if s.isRecordingEnabled then
      AppleAudioConfiguration("playAndRecord", ["allowBluetooth", "mixWithOthers"],
                              if s.preferSpeakerOutput then "videoChat" else "voiceChat")
    else if s.isPlayoutEnabled then
      AppleAudioConfiguration("playback", ["mixWithOthers"], "spokenAudio")
    else AppleAudioConfiguration("soloAmbient", [], "default")
  }

  /** What the native session applies for a default configuration: with
      recording it can record and plays through Bluetooth, the mode follows
      the speaker preference; playout alone is a mixing spoken-audio
      playback session. The names used are all ones the native translators
      recognise (the idle "default" mode is reached through their fallback). */
  lemma DefaultConfigurationAsApplied(s: EngineState, os: IosAudioUtils.OsVersion)
    ensures var c := DefaultConfiguration(s);
            var category := IosAudioUtils.CategoryFromString(c.audioCategory);
            var mode := IosAudioUtils.ModeFromString(c.audioMode, os);
            var options := IosAudioUtils.OptionsOf(c.audioCategoryOptions, os);
            (s.isRecordingEnabled ==>
               category == IosAudioUtils.PlayAndRecord &&
               options == {IosAudioUtils.AllowBluetooth, IosAudioUtils.MixWithOthers} &&
               mode == (if s.preferSpeakerOutput then IosAudioUtils.VideoChat else IosAudioUtils.VoiceChat)) &&
            (!s.isRecordingEnabled && s.isPlayoutEnabled ==>
               category == IosAudioUtils.Playback && options == {IosAudioUtils.MixWithOthers} &&
               mode == IosAudioUtils.SpokenAudio) &&
            (!s.Active() ==>
               category == IosAudioUtils.SoloAmbient && options == {} && mode == IosAudioUtils.Default)
  {
    var c := DefaultConfiguration(s);
    IosAudioUtils.OptionsOfMembership(c.audioCategoryOptions, os);
    if s.isRecordingEnabled {
      assert IosAudioUtils.OptionName(IosAudioUtils.AllowBluetooth) == c.audioCategoryOptions[0];
      assert IosAudioUtils.OptionName(IosAudioUtils.MixWithOthers) == c.audioCategoryOptions[1];
    } else if s.isPlayoutEnabled {
      assert IosAudioUtils.OptionName(IosAudioUtils.MixWithOthers) == c.audioCategoryOptions[0];
    }
  }

  /** The app's configurator, or the default one. */
  function Configure(custom: Option<EngineState -> AppleAudioConfiguration>, s: EngineState): AppleAudioConfiguration {
    match custom
    case Some(f) => f(s)
    case None => DefaultConfiguration(s)
  }

  /** The session calls for a transition from `oldState` to `newState`:
      going idle stops the session; while active it is (re)configured, and
      started after the configuration when it was idle before. */
  function TryConfigure(newState: EngineState, oldState: EngineState,
                        custom: Option<EngineState -> AppleAudioConfiguration>): (calls: seq<SessionCall>)
    ensures !newState.Active() && oldState.Active() ==> calls == [StopAudioSession]
    ensures !newState.Active() && !oldState.Active() ==> calls == []
    ensures newState.Active() ==>
              |calls| >= 1 && calls[0] == SetAppleAudioConfiguration(Configure(custom, newState)) &&
              (StartAudioSession in calls <==> !oldState.Active()) &&
              calls[|calls| - 1] == (if oldState.Active() then calls[0] else StartAudioSession)
    ensures StopAudioSession in calls ==> |calls| == 1
    ensures newState.Active() ==> |calls| == (if oldState.Active() then 1 else 2)
  {
    if !newState.Active() && oldState.Active() then [StopAudioSession]
    else if newState.Active() then
      [SetAppleAudioConfiguration(Configure(custom, newState))] +
      (if !oldState.Active() then [StartAudioSession] else [])
    else []
  }

  /** The hook's state: the last engine state it committed, and the session
      calls that took effect. */
  datatype Management = Management(engine: EngineState, session: seq<SessionCall>)

  /** The hook starts idle; `preferSpeakerOutput` defaults to true. */
  function UseIOSAudioManagement(preferSpeakerOutput: Option<bool>): (m: Management)
    ensures !m.engine.Active() && m.session == []
    ensures m.engine.preferSpeakerOutput == preferSpeakerOutput.GetOr(true)
  {
    Management(EngineState(false, false, preferSpeakerOutput.GetOr(true)), [])
  }

  /** The result of one engine-state update. */
  datatype Update = Update(m: Management, result: Result<()>)

  /** One engine-state update. The speaker preference is carried over; the
      new state is committed only when every session call succeeded.
      `failAt` is the index of the first call that rejects, if any. */
  function HandleEngineStateUpdate(m: Management, isPlayoutEnabled: bool, isRecordingEnabled: bool,
                                   custom: Option<EngineState -> AppleAudioConfiguration>,
                                   failAt: Option<nat>): (u: Update)
    ensures var newState := EngineState(isPlayoutEnabled, isRecordingEnabled, m.engine.preferSpeakerOutput);
            var calls := TryConfigure(newState, m.engine, custom);
            (u.result.Ok? <==> failAt.None? || failAt.value >= |calls|) &&
            (u.result.Ok? ==> u.m == Management(newState, m.session + calls)) &&
            (u.result.Err? ==> u.m == Management(m.engine, m.session + calls[..failAt.value]))
    ensures u.m.engine.preferSpeakerOutput == m.engine.preferSpeakerOutput
  {
    var newState := EngineState(isPlayoutEnabled, isRecordingEnabled, m.engine.preferSpeakerOutput);
    var calls := TryConfigure(newState, m.engine, custom);
    if failAt.Some? && failAt.value < |calls| then
      Update(Management(m.engine, m.session + calls[..failAt.value]), Err(NativeFailure))
    else
      Update(Management(newState, m.session + calls), Ok(()))
  }

  /** Whether the session is running after a series of calls: the last
      start or stop decides; configuring alone does not start it. */
  function SessionRunning(calls: seq<SessionCall>): bool
    decreases |calls|
  {
    if calls == [] then false
    else match calls[|calls| - 1]
      case StartAudioSession => true
      case StopAudioSession => false
      case SetAppleAudioConfiguration(_) => SessionRunning(calls[..|calls| - 1])
  }

  lemma {:induction false} SessionRunningAppend(calls: seq<SessionCall>, more: seq<SessionCall>)
    requires forall i :: 0 <= i < |more| ==> more[i].SetAppleAudioConfiguration?
    ensures SessionRunning(calls + more) == SessionRunning(calls)
    decreases |more|
  {
    if more != [] {
      var init := more[..|more| - 1];
      assert (calls + more)[..|calls + more| - 1] == calls + init;
      assert (calls + more)[|calls + more| - 1] == more[|more| - 1];
      SessionRunningAppend(calls, init);
    } else {
      assert calls + more == calls;
    }
  }

  /** The session runs exactly when the committed engine state is active. */
  predicate InSync(m: Management) {
    SessionRunning(m.session) == m.engine.Active()
  }

  /** Every update keeps the session in step with the committed engine
      state, whichever session call fails: a failed stop leaves both
      running, a failed configuration or start leaves both idle. */
  lemma UpdateKeepsSessionInSync(m: Management, isPlayoutEnabled: bool, isRecordingEnabled: bool,
                                 custom: Option<EngineState -> AppleAudioConfiguration>, failAt: Option<nat>)
    requires InSync(m)
    ensures InSync(HandleEngineStateUpdate(m, isPlayoutEnabled, isRecordingEnabled, custom, failAt).m)
  {
    var newState := EngineState(isPlayoutEnabled, isRecordingEnabled, m.engine.preferSpeakerOutput);
    var calls := TryConfigure(newState, m.engine, custom);
    var u := HandleEngineStateUpdate(m, isPlayoutEnabled, isRecordingEnabled, custom, failAt);
    if failAt.Some? && failAt.value < |calls| {
      var done := calls[..failAt.value];
      if done != [] {
        assert done == [calls[0]];
        SessionRunningAppend(m.session, done);
      } else {
        assert m.session + done == m.session;
      }
    } else if newState.Active() {
      if m.engine.Active() {
        assert calls == [calls[0]];
        SessionRunningAppend(m.session, calls);
      } else {
        assert (m.session + calls)[|m.session + calls| - 1] == StartAudioSession;
      }
    } else if m.engine.Active() {
      assert (m.session + calls)[|m.session + calls| - 1] == StopAudioSession;
    } else {
      assert m.session + calls == m.session;
    }
  }

  /** An engine event: the new flags and the index of a failing call, if any. */
  datatype EngineEvent = EngineEvent(isPlayoutEnabled: bool, isRecordingEnabled: bool, failAt: Option<nat>)

  function Replay(m: Management, events: seq<EngineEvent>, custom: Option<EngineState -> AppleAudioConfiguration>): Management
    decreases |events|
  {
    if events == [] then m
    else
      var e := events[0];
      Replay(HandleEngineStateUpdate(m, e.isPlayoutEnabled, e.isRecordingEnabled, custom, e.failAt).m, events[1..], custom)
  }

  /** From the hook's initial state, across any series of engine events and
      failures, the session is running exactly when the committed engine
      state uses it, and the speaker preference never changes. */
  lemma {:induction false} ReplayKeepsSessionInSync(m: Management, events: seq<EngineEvent>,
                                                    custom: Option<EngineState -> AppleAudioConfiguration>)
    requires InSync(m)
    ensures InSync(Replay(m, events, custom))
    ensures Replay(m, events, custom).engine.preferSpeakerOutput == m.engine.preferSpeakerOutput
    decreases |events|
  {
    if events != [] {
      var e := events[0];
      UpdateKeepsSessionInSync(m, e.isPlayoutEnabled, e.isRecordingEnabled, custom, e.failAt);
      ReplayKeepsSessionInSync(HandleEngineStateUpdate(m, e.isPlayoutEnabled, e.isRecordingEnabled, custom, e.failAt).m,
                               events[1..], custom);
    }
  }

  lemma InitialInSync(preferSpeakerOutput: Option<bool>)
    ensures InSync(UseIOSAudioManagement(preferSpeakerOutput))
  {
  }
}

=== FILE: audio_switch_manager.dfy ===
/** The Android audio-routing manager
    (packages/react-native/android/.../audio/AudioSwitchManager.java).

    It keeps an audio configuration and a preferred-device order, creates an
    `AudioSwitch` on `start` with that configuration, drops it on `stop`,
    selects output devices through it and forwards each setting to it while
    it exists. Work the source posts to the main thread runs immediately
    here. The switch is foreign code: the calls made on it are recorded, and
    the devices it reports are a parameter of `Start`. */
module AudioSwitchManager {
  import opened Wrappers
  import AndroidSdk
  import AudioManagerUtils

  datatype DeviceClass = BluetoothHeadset | WiredHeadset | Speakerphone | Earpiece

  datatype AudioDevice = AudioDevice(deviceClass: DeviceClass, name: string)

  datatype Config = Config(
    manageAudioFocus: bool,
    focusMode: int,
    audioMode: int,
    audioStreamType: int,
    audioAttributeUsageType: int,
    audioAttributeContentType: int,
    forceHandleAudioRouting: bool)

  /** One of the seven settings, with its new value. */
  datatype Setting =
    | ManageAudioFocus(manage: bool)
    | FocusMode(focusMode: int)
    | AudioMode(audioMode: int)
    | AudioStreamType(streamType: int)
    | AudioAttributesUsageType(usageType: int)
    | AudioAttributesContentType(contentType: int)
    | ForceHandleAudioRouting(force: bool)

  /** The calls made on the audio switch. */
  datatype SwitchCall =
    | CreateSwitch(preferred: seq<DeviceClass>)
    | Configure(setting: Setting)
    | StartSwitch
    | Activate
    | StopSwitch
    | SelectDevice(device: AudioDevice)

  /** A live switch: the configuration it was given, the devices it
      reports and the one it selected. */
  datatype Switch = Switch(applied: Config, available: seq<AudioDevice>, selected: Option<AudioDevice>)

  datatype Manager = Manager(
    config: Config,
    preferredDeviceList: seq<DeviceClass>,
    audioSwitch: Option<Switch>,
    calls: seq<SwitchCall>)

  const DefaultConfig: Config := Config(true, AndroidSdk.AUDIOFOCUS_GAIN, AndroidSdk.MODE_IN_COMMUNICATION,
                                        AndroidSdk.STREAM_VOICE_CALL, AndroidSdk.USAGE_VOICE_COMMUNICATION,
                                        AndroidSdk.CONTENT_TYPE_SPEECH, false)

  /** A new manager: default configuration, no switch, and the preferred
      order Bluetooth headset, wired headset, speakerphone, earpiece. */
  function New(): (m: Manager)
    ensures m.audioSwitch.None? && m.calls == []
    ensures m.preferredDeviceList == [BluetoothHeadset, WiredHeadset, Speakerphone, Earpiece]
    ensures m.config.manageAudioFocus && !m.config.forceHandleAudioRouting
  {
    Manager(DefaultConfig, [BluetoothHeadset, WiredHeadset, Speakerphone, Earpiece], None, [])
  }

  /** The default integer settings are the ones JavaScript names "gain",
      "inCommunication", "voiceCall", "voiceCommunication" and "speech". */
  lemma DefaultsAreNamedSettings()
    ensures var c := New().config;
            AudioManagerUtils.FocusModeFromString(Some("gain")) == Some(c.focusMode) &&
            AudioManagerUtils.AudioModeFromString(Some("inCommunication")) == Some(c.audioMode) &&
            AudioManagerUtils.AudioStreamTypeFromString(Some("voiceCall")) == Some(c.audioStreamType) &&
            AudioManagerUtils.AudioAttributesUsageTypeFromString(Some("voiceCommunication")) == Some(c.audioAttributeUsageType) &&
            AudioManagerUtils.AudioAttributesContentTypeFromString(Some("speech")) == Some(c.audioAttributeContentType)
  {
  }

  /** The configuration with one setting replaced. */
  function Store(c: Config, s: Setting): (c': Config)
    ensures s.ManageAudioFocus? ==> c' == c.(manageAudioFocus := s.manage)
    ensures s.FocusMode? ==> c' == c.(focusMode := s.focusMode)
    ensures s.AudioMode? ==> c' == c.(audioMode := s.audioMode)
    ensures s.AudioStreamType? ==> c' == c.(audioStreamType := s.streamType)
    ensures s.AudioAttributesUsageType? ==> c' == c.(audioAttributeUsageType := s.usageType)
    ensures s.AudioAttributesContentType? ==> c' == c.(audioAttributeContentType := s.contentType)
    ensures s.ForceHandleAudioRouting? ==> c' == c.(forceHandleAudioRouting := s.force)
  {
    match s
    case ManageAudioFocus(b) => c.(manageAudioFocus := b)
    case FocusMode(i) => c.(focusMode := i)
    case AudioMode(i) => c.(audioMode := i)
    case AudioStreamType(i) => c.(audioStreamType := i)
    case AudioAttributesUsageType(i) => c.(audioAttributeUsageType := i)
    case AudioAttributesContentType(i) => c.(audioAttributeContentType := i)
    case ForceHandleAudioRouting(b) => c.(forceHandleAudioRouting := b)
  }

  /** The settings a new switch is given, in the order `start` gives them. */
  function Settings(c: Config): seq<Setting> {
    [ManageAudioFocus(c.manageAudioFocus), FocusMode(c.focusMode), AudioMode(c.audioMode),
     AudioStreamType(c.audioStreamType), AudioAttributesContentType(c.audioAttributeContentType),
     AudioAttributesUsageType(c.audioAttributeUsageType), ForceHandleAudioRouting(c.forceHandleAudioRouting)]
  }

  function StoreAll(c: Config, settings: seq<Setting>): Config
    decreases |settings|
  {
    if settings == [] then c else StoreAll(Store(c, settings[0]), settings[1..])
  }

  /** Whatever configuration a switch starts from, the settings `start`
      gives it leave it with exactly the manager's configuration. */
  lemma SettingsReproduceConfig(c: Config, initial: Config)
    ensures StoreAll(initial, Settings(c)) == c
  {
    var ss := Settings(c);
    var c0 := initial;
    var c1 := Store(c0, ss[0]);
    assert StoreAll(c0, ss) == StoreAll(c1, ss[1..]);
    var c2 := Store(c1, ss[1]);
    assert StoreAll(c1, ss[1..]) == StoreAll(c2, ss[2..]);
    var c3 := Store(c2, ss[2]);
    assert StoreAll(c2, ss[2..]) == StoreAll(c3, ss[3..]);
    var c4 := Store(c3, ss[3]);
    assert StoreAll(c3, ss[3..]) == StoreAll(c4, ss[4..]);
    var c5 := Store(c4, ss[4]);
    assert StoreAll(c4, ss[4..]) == StoreAll(c5, ss[5..]);
    var c6 := Store(c5, ss[5]);
    assert StoreAll(c5, ss[5..]) == StoreAll(c6, ss[6..]);
    var c7 := Store(c6, ss[6]);
    assert StoreAll(c6, ss[6..]) == StoreAll(c7, ss[7..]);
    assert ss[7..] == [];
  }

  function ConfigureCalls(settings: seq<Setting>): (calls: seq<SwitchCall>)
    ensures |calls| == |settings|
    ensures forall i :: 0 <= i < |settings| ==> calls[i] == Configure(settings[i])
  {
    seq(|settings|, i requires 0 <= i < |settings| => Configure(settings[i]))
  }

  /** Creates, configures, starts and activates a switch unless one exists.
      `devices` are the devices the new switch reports. */
  function Start(m: Manager, devices: seq<AudioDevice>): (m': Manager)
    ensures m.audioSwitch.Some? ==> m' == m
    ensures m.audioSwitch.None? ==>
              m'.audioSwitch == Some(Switch(m.config, devices, None)) &&
              m'.calls == m.calls + [CreateSwitch(m.preferredDeviceList)] + ConfigureCalls(Settings(m.config)) +
                          [StartSwitch, Activate]
    ensures m'.config == m.config && m'.preferredDeviceList == m.preferredDeviceList
  {
    if m.audioSwitch.Some? then m
    else
      // the switch starts from its own defaults, which the settings replace
      SettingsReproduceConfig(m.config, DefaultConfig);
      m.(audioSwitch := Some(Switch(StoreAll(DefaultConfig, Settings(m.config)), devices, None)),
         calls := m.calls + [CreateSwitch(m.preferredDeviceList)] + ConfigureCalls(Settings(m.config)) +
                  [StartSwitch, Activate])
  }

  /** Stops the switch if there is one; afterwards there is none. */
  function Stop(m: Manager): (m': Manager)
    ensures m'.audioSwitch.None?
    ensures m'.calls == m.calls + (if m.audioSwitch.Some? then [StopSwitch] else [])
    ensures m'.config == m.config && m'.preferredDeviceList == m.preferredDeviceList
  {
    m.(audioSwitch := None, calls := m.calls + (if m.audioSwitch.Some? then [StopSwitch] else []))
  }

  function SelectedAudioDevice(m: Manager): (d: Option<AudioDevice>)
    ensures m.audioSwitch.None? ==> d.None?
    ensures m.audioSwitch.Some? ==> d == m.audioSwitch.value.selected
  {
    match m.audioSwitch
    case None => None
    case Some(s) => s.selected
  }

  function AvailableAudioDevices(m: Manager): (ds: seq<AudioDevice>)
    ensures m.audioSwitch.None? ==> ds == []
    ensures m.audioSwitch.Some? ==> ds == m.audioSwitch.value.available
  {
    match m.audioSwitch
    case None => []
    case Some(s) => s.available
  }

  /** The first device of the class, in the order the switch lists them. */
  function FirstOfClass(devices: seq<AudioDevice>, deviceClass: DeviceClass): (r: Option<nat>)
    ensures r.None? <==> forall j :: 0 <= j < |devices| ==> devices[j].deviceClass != deviceClass
    ensures r.Some? ==> r.value < |devices| && devices[r.value].deviceClass == deviceClass &&
                        forall j :: 0 <= j < r.value ==> devices[j].deviceClass != deviceClass
    decreases |devices|
  {
    if devices == [] then None
    else if devices[0].deviceClass == deviceClass then Some(0)
    else match FirstOfClass(devices[1..], deviceClass)
      case None => None
      case Some(i) => Some(i + 1)
  }

  /** Selects the first available device of the class; without a switch or
      without such a device nothing happens. */
  function SelectAudioOutput(m: Manager, deviceClass: DeviceClass): (m': Manager)
    ensures m.audioSwitch.None? ==> m' == m
    ensures m.audioSwitch.Some? && FirstOfClass(m.audioSwitch.value.available, deviceClass).None? ==> m' == m
    ensures m.audioSwitch.Some? && FirstOfClass(m.audioSwitch.value.available, deviceClass).Some? ==>
              var d := m.audioSwitch.value.available[FirstOfClass(m.audioSwitch.value.available, deviceClass).value];
              d.deviceClass == deviceClass &&
              SelectedAudioDevice(m') == Some(d) && m'.calls == m.calls + [SelectDevice(d)]
    ensures m'.config == m.config && m'.audioSwitch.Some? == m.audioSwitch.Some?
  {
    match m.audioSwitch
    case None => m
    case Some(s) =>
      match FirstOfClass(s.available, deviceClass)
      case None => m
      case Some(i) =>
        m.(audioSwitch := Some(s.(selected := Some(s.available[i]))), calls := m.calls + [SelectDevice(s.available[i])])
  }

  /** Selecting by kind; a null kind does nothing. A kind is represented by
      its device class. */
  function SelectAudioOutputKind(m: Manager, kind: Option<DeviceClass>): (m': Manager)
    ensures kind.None? ==> m' == m
    ensures kind.Some? ==> m' == SelectAudioOutput(m, kind.value)
  {
    match kind
    case None => m
    case Some(c) => SelectAudioOutput(m, c)
  }

  /** Any setter: the value is stored, and forwarded to the switch only
      while one exists. */
  function Set(m: Manager, s: Setting): (m': Manager)
    ensures m'.config == Store(m.config, s)
    ensures m.audioSwitch.None? ==> m'.audioSwitch.None? && m'.calls == m.calls
    ensures m.audioSwitch.Some? ==>
              m'.audioSwitch == Some(m.audioSwitch.value.(applied := Store(m.audioSwitch.value.applied, s))) &&
              m'.calls == m.calls + [Configure(s)]
    ensures m'.preferredDeviceList == m.preferredDeviceList
  {
    match m.audioSwitch
    case None => m.(config := Store(m.config, s))
    case Some(sw) =>
      m.(config := Store(m.config, s), audioSwitch := Some(sw.(applied := Store(sw.applied, s))),
         calls := m.calls + [Configure(s)])
  }

  /** A live switch always runs with the manager's configuration. */
  predicate InStep(m: Manager) {
    m.audioSwitch.Some? ==> m.audioSwitch.value.applied == m.config
  }

  datatype Action =
    | DoStart(devices: seq<AudioDevice>)
    | DoStop
    | DoSelect(kind: Option<DeviceClass>)
    | DoSet(setting: Setting)

  function Apply(m: Manager, a: Action): Manager {
    match a
    case DoStart(devices) => Start(m, devices)
    case DoStop => Stop(m)
    case DoSelect(kind) => SelectAudioOutputKind(m, kind)
    case DoSet(s) => Set(m, s)
  }

  function Run(m: Manager, actions: seq<Action>): Manager
    decreases |actions|
  {
    if actions == [] then m else Run(Apply(m, actions[0]), actions[1..])
  }

  lemma ApplyKeepsInStep(m: Manager, a: Action)
    requires InStep(m)
    ensures InStep(Apply(m, a))
  {
    if a.DoStart? && m.audioSwitch.None? {
      SettingsReproduceConfig(m.config, m.config);
    }
  }

  /** Whatever the app does, in whatever order, a live switch is configured
      exactly as the manager says: settings made before `start` are given
      to the new switch and settings made after are forwarded to it. */
  lemma {:induction false} RunKeepsInStep(m: Manager, actions: seq<Action>)
    requires InStep(m)
    ensures InStep(Run(m, actions))
    decreases |actions|
  {
    if actions != [] {
      ApplyKeepsInStep(m, actions[0]);
      RunKeepsInStep(Apply(m, actions[0]), actions[1..]);
    }
  }

  /** `start` twice creates one switch; `stop` then `start` creates a new
      one with the current configuration. */
  lemma StartStopCycle(m: Manager, devices: seq<AudioDevice>, later: seq<AudioDevice>, s: Setting)
    requires m.audioSwitch.None?
    ensures Start(Start(m, devices), later) == Start(m, devices)
    ensures var restarted := Start(Set(Stop(Start(m, devices)), s), later);
            restarted.audioSwitch == Some(Switch(Store(m.config, s), later, None))
  {
  }
}

=== FILE: bar_visualizer.dfy ===
/** The agent-state bar visualizer (src/components/BarVisualizer.tsx): how
    fast the highlight pattern advances, which pattern each agent state
    shows, which bars a frame highlights, and how a magnitude becomes a bar
    height. Animation timing is reduced to "the time elapsed since the last
    step", supplied by the caller. */
module BarVisualizer {
  import opened Wrappers

  datatype AgentState = Disconnected | Connecting | Initializing | Listening | Thinking | Speaking

  /** A step interval in milliseconds; dividing by zero bars gives infinity. */
  datatype Interval = Finite(ms: real) | Infinite

  /** The fixed interval table. */
  function TableInterval(s: AgentState): Option<real> {
    match s
    case Connecting => Some(2000.0)
    case Initializing => Some(2000.0)
    case Listening => Some(500.0)
    case Thinking => Some(150.0)
    case _ => None
  }

  /** The step interval for a state: 1000 ms without a state, the table
      entry otherwise, with the connecting interval spread over the bars. */
  function GetSequencerInterval(state: Option<AgentState>, barCount: int): (r: Option<Interval>)
    ensures r.Some? <==> state.None? || state.value in {Connecting, Initializing, Listening, Thinking}
    ensures r.Some? && r.value.Finite? ==> r.value.ms != 0.0
    ensures r == Some(Infinite) <==> state == Some(Connecting) && barCount == 0
    ensures state == Some(Connecting) && barCount != 0 ==> r.value.ms * barCount as real == 2000.0
    ensures barCount > 0 && r.Some? ==> r.value.Finite? && r.value.ms > 0.0
  {
    match state
    case None => Some(Finite(1000.0))
    case Some(s) =>
      match TableInterval(s)
      case None => None
      case Some(ms) =>
        if s == Connecting then
          (if barCount == 0 then Some(Infinite) else Some(Finite(ms / barCount as real)))
        else Some(Finite(ms))
  }

  /** The interval the animator actually uses: states without an entry
      step every 100 ms. */
  function AnimatorInterval(state: Option<AgentState>, barCount: int): Interval {
    GetSequencerInterval(state, barCount).GetOr(Finite(100.0))
  }

  /** The intervals per state with the default five bars. */
  lemma DefaultIntervals()
    ensures AnimatorInterval(None, 5) == Finite(1000.0)
    ensures AnimatorInterval(Some(Connecting), 5) == Finite(400.0)
    ensures AnimatorInterval(Some(Initializing), 5) == Finite(2000.0)
    ensures AnimatorInterval(Some(Listening), 5) == Finite(500.0)
    ensures AnimatorInterval(Some(Thinking), 5) == Finite(150.0)
    ensures AnimatorInterval(Some(Speaking), 5) == Finite(100.0)
    ensures AnimatorInterval(Some(Disconnected), 5) == Finite(100.0)
  {
  }

  // ---------------------------------------------------------------------
  // Highlight sequences
  // ---------------------------------------------------------------------

  type Frame = seq<int>
  type Sequence = seq<Frame>

  /** The centre bar, then no bar (-1), alternating. */
  function ListeningSequence(columns: int): (r: Sequence)
    ensures |r| == 2 && |r[0]| == 1 && r[1] == [-1]
    ensures 2 * r[0][0] <= columns < 2 * r[0][0] + 2
  {
    [[columns / 2], [-1]]
  }

  /** An empty frame, then for each bar `x` the pair of bars `x` and its
      mirror image. */
  function ConnectingSequence(columns: int): (r: Sequence)
    ensures |r| == (if columns > 0 then columns else 0) + 1
    ensures r[0] == []
    ensures forall x :: 1 <= x < |r| ==> r[x] == [x - 1, columns - x]
  {
    [[]] + seq(if columns > 0 then columns else 0, x => [x, columns - 1 - x])
  }

  /** The connecting sequence, built frame by frame as the component does. */
  method GenerateConnectingSequenceBar(columns: int) returns (r: Sequence)
    ensures r == ConnectingSequence(columns)
    ensures forall i, j :: 0 <= i < |r| && 0 <= j < |r[i]| ==> 0 <= r[i][j] < columns
  {
    r := [[]];
    var x := 0;
    while x < columns
      invariant 0 <= x <= (if columns > 0 then columns else 0)
      invariant |r| == x + 1 && r[0] == []
      invariant forall k :: 1 <= k < |r| ==> r[k] == [k - 1, columns - k]
    {
      r := r + [[x, columns - 1 - x]];
      x := x + 1;
    }
    var expected := ConnectingSequence(columns);
    assert |r| == |expected|;
    forall k | 0 <= k < |r|
      ensures r[k] == expected[k]
    {
    }
  }

  /** Every bar from 0 to `columns - 1`; a negative length is a `RangeError`. */
  function AllBars(columns: int): (r: Result<Frame>)
    ensures r.Err? <==> columns < 0
    ensures r.Ok? ==> |r.value| == columns && forall i :: 0 <= i < columns ==> r.value[i] == i
  {
    if columns < 0 then Err(RangeError) else Ok(seq(columns, i => i))
  }

  /** The highlight sequence for an agent state. */
  function SelectSequence(state: Option<AgentState>, columns: int): (r: Result<Sequence>)
    ensures r.Err? <==> state.None? && columns < 0
    ensures r.Ok? ==> |r.value| >= 1
    ensures state == Some(Thinking) || state == Some(Listening) ==> r == Ok(ListeningSequence(columns))
    ensures state == Some(Connecting) || state == Some(Initializing) ==> r == Ok(ConnectingSequence(columns))
    ensures state.None? && columns >= 0 ==> r == Ok([AllBars(columns).value])
    ensures state == Some(Speaking) || state == Some(Disconnected) ==> r == Ok([[]])
  {
    match state
    case Some(Thinking) => Ok(ListeningSequence(columns))
    case Some(Connecting) => Ok(ConnectingSequence(columns))
    case Some(Initializing) => Ok(ConnectingSequence(columns))
    case Some(Listening) => Ok(ListeningSequence(columns))
    case None =>
      (match AllBars(columns) case Ok(f) => Ok([f]) case Err(e) => Err(e))
    case Some(_) => Ok([[]])
  }

  /** With at least one bar, every index any frame highlights is a bar,
      except the -1 that stands for "none". */
  lemma SequenceIndicesInRange(state: Option<AgentState>, columns: int)
    requires columns >= 1
    ensures var r := SelectSequence(state, columns);
            r.Ok? &&
            forall i, j :: 0 <= i < |r.value| && 0 <= j < |r.value[i]| ==>
              r.value[i][j] == -1 || 0 <= r.value[i][j] < columns
  {
    var r := SelectSequence(state, columns).value;
    forall i, j | 0 <= i < |r| && 0 <= j < |r[i]|
      ensures r[i][j] == -1 || 0 <= r[i][j] < columns
    {
      if state == Some(Connecting) || state == Some(Initializing) {
        if i > 0 {
          assert r[i] == [i - 1, columns - 1 - (i - 1)];
        }
      }
    }
  }

  /** The frame shown at step `index`: the sequence, cycled. */
  function CurrentFrame(s: Sequence, index: nat): (f: Frame)
    requires |s| > 0
    ensures f in s
    ensures index < |s| ==> f == s[index]
  {
    s[index % |s|]
  }

  // ---------------------------------------------------------------------
  // The animator hook
  // ---------------------------------------------------------------------

  /** The hook's state: the chosen sequence and the step counter. */
  datatype Animator = Animator(sequence: Sequence, index: nat)

  predicate AnimatorValid(a: Animator) {
    |a.sequence| > 0
  }

  function InitialAnimator(): (a: Animator)
    ensures AnimatorValid(a)
  {
    Animator([[]], 0)
  }

  /** A change of state or column count selects a new sequence and restarts
      it; the hook throws when the sequence cannot be built. */
  function OnStateChange(a: Animator, state: Option<AgentState>, columns: int): (r: Result<Animator>)
    ensures r.Ok? ==> AnimatorValid(r.value) && r.value.index == 0 &&
                      Ok(r.value.sequence) == SelectSequence(state, columns)
    ensures r.Err? <==> state.None? && columns < 0
  {
    match SelectSequence(state, columns)
    case Ok(s) => Ok(Animator(s, 0))
    case Err(e) => Err(e)
  }

  /** An animation frame `elapsed` milliseconds after the last step: the
      index moves on once the interval has passed. */
  function OnAnimationFrame(a: Animator, elapsed: real, interval: Interval): (r: Animator)
    ensures r.sequence == a.sequence
    ensures r.index == a.index || r.index == a.index + 1
    ensures r.index == a.index + 1 <==> interval.Finite? && elapsed >= interval.ms
  {
    match interval
    case Infinite => a
    case Finite(ms) => if elapsed >= ms then a.(index := a.index + 1) else a
  }

  /** The highlighted bars the hook returns. */
  function Highlighted(a: Animator): (f: Frame)
    requires AnimatorValid(a)
    ensures f in a.sequence
  {
    CurrentFrame(a.sequence, a.index)
  }

  /** Connecting with no bars spreads 2000 ms over zero bars: the interval
      is infinite and the pattern never advances past its empty frame. */
  lemma ConnectingWithoutBarsIsFrozen(elapsed: real)
    ensures var a := OnStateChange(InitialAnimator(), Some(Connecting), 0).value;
            var b := OnAnimationFrame(a, elapsed, AnimatorInterval(Some(Connecting), 0));
            b == a && Highlighted(b) == []
  {
  }

  // ---------------------------------------------------------------------
  // Bars
  // ---------------------------------------------------------------------

  function Min(a: real, b: real): real { if a <= b then a else b }
  function Max(a: real, b: real): real { if a >= b then a else b }

  const DefaultMaxHeight: real := 1.0
  const DefaultMinHeight: real := 0.2

  /** A magnitude clamped to the bar's height range. */
  function CoercedHeight(value: real, minHeight: real, maxHeight: real): (r: real)
    ensures minHeight <= maxHeight ==> minHeight <= r <= maxHeight
    ensures minHeight <= value <= maxHeight ==> r == value
    ensures r <= maxHeight
  {
    Min(maxHeight, Max(minHeight, value))
  }

  /** The bar height as a percentage of the container. */
  function HeightPercent(value: real, minHeight: real, maxHeight: real): (r: real)
    ensures 0.0 <= r <= 100.0
    ensures var c := CoercedHeight(value, minHeight, maxHeight);
            0.0 <= c * 100.0 + 5.0 <= 100.0 ==> r == c * 100.0 + 5.0
  {
    Min(100.0, Max(0.0, CoercedHeight(value, minHeight, maxHeight) * 100.0 + 5.0))
  }

  /** With the default options a bar is never shorter than 25% and a
      magnitude of 0.95 or more fills it. */
  lemma DefaultHeights(value: real)
    ensures 25.0 <= HeightPercent(value, DefaultMinHeight, DefaultMaxHeight) <= 100.0
    ensures value >= 0.95 ==> HeightPercent(value, DefaultMinHeight, DefaultMaxHeight) == 100.0
  {
  }

  /** The opacity each of the `barCount` bars animates to: full for a
      highlighted bar, 0.3 otherwise. */
  function TargetOpacities(highlighted: Frame, barCount: int): (r: seq<real>)
    ensures |r| == (if barCount > 0 then barCount else 0)
    ensures forall i :: 0 <= i < |r| ==> (r[i] == 1.0 <==> i in highlighted)
    ensures forall i :: 0 <= i < |r| ==> r[i] == 1.0 || r[i] == 0.3
  {
    seq(if barCount > 0 then barCount else 0, i => if i in highlighted then 1.0 else 0.3)
  }

  /** In the listening pattern with five bars the middle bar lights on the
      first step and none on the second. */
  lemma ListeningFiveBars()
    ensures var a := OnStateChange(InitialAnimator(), Some(Listening), 5).value;
            TargetOpacities(Highlighted(a), 5) == [0.3, 0.3, 1.0, 0.3, 0.3] &&
            TargetOpacities(Highlighted(a.(index := 1)), 5) == [0.3, 0.3, 0.3, 0.3, 0.3]
  {
    var a := OnStateChange(InitialAnimator(), Some(Listening), 5).value;
    assert Highlighted(a) == [2];
    assert Highlighted(a.(index := 1)) == [-1];
  }
}

=== FILE: e2ee_manager.dfy ===
/** The end-to-end-encryption manager (src/e2ee/RNE2EEManager.ts).

    The manager is bound to a room by `Setup`, reacts to the room's track
    lifecycle events by attaching and detaching frame cryptors, keeps the
    global and data-channel encryption flags, and encrypts and decrypts
    data-channel packets through one lazily created data-packet cryptor.

    Everything native is opaque: frame cryptors and the data-packet cryptor
    are handles drawn from a counter, and every call into them is appended to
    `native`, so that the order of calls and "nothing else changes" can be
    stated. Results the native side produces (the encrypted packet, the
    decrypted bytes) are parameters of the operations that receive them.
    Room and participant objects are external: a room is known by its object
    identity (`RoomRef`), and the parts of it an operation reads are passed in
    as a `RoomView` of the bound room at the time of the call. */
module E2EEManager {
  import opened Wrappers
  import KeyProvider

  type Bytes = KeyProvider.Bytes
  type Handle = nat
  /** The object identity of a `Room`. */
  type RoomRef = nat
  /** The object identity of an RTP sender or receiver. */
  type Endpoint = nat

  /** The participants of the bound room, as the manager reads them.
      `Resolves` is the room's lookup by identity, which answers the local
      participant first and the remote participants otherwise. */
  datatype RoomView = RoomView(localIdentity: string, remoteIdentities: set<string>) {
    predicate Resolves(identity: string) {
      identity == localIdentity || identity in remoteIdentities
    }
  }

  /** A local or remote track publication. `endpoint` is the sender or
      receiver of its track, `None` when the publication has no track. */
  datatype Publication = Publication(trackSid: string, isEncrypted: bool, endpoint: Option<Endpoint>)

  datatype Direction = Sender | Receiver

  datatype Packet = Packet(payload: Bytes, iv: Bytes, keyIndex: int)

  /** One call into native code. */
  datatype NativeCall =
    | CreateFrameCryptor(cryptor: Handle, direction: Direction, participant: string, endpoint: Endpoint)
    | SetEnabled(cryptor: Handle, enabled: bool)
    | SetKeyIndex(cryptor: Handle, keyIndex: int)
    | DisposeCryptor(cryptor: Handle)
    | CreateDataPacketCryptor(cryptor: Handle)
    | Encrypt(cryptor: Handle, participant: string, keyIndex: int, data: Bytes)
    | Decrypt(cryptor: Handle, participant: string, packet: Packet)

  /** A `ParticipantEncryptionStatusChanged` notification. */
  datatype StatusChanged = StatusChanged(enabled: bool, participant: string)

  datatype Manager = Manager(
    room: Option<RoomRef>,
    listeners: seq<RoomRef>,             // one entry per room whose events we listen to, per registration
    frameCryptors: map<string, Handle>,  // track SID to frame cryptor
    keys: KeyProvider.KeyProvider,
    encryptionEnabled: bool,
    dataChannelEncryptionEnabled: bool,
    dataPacketCryptor: Option<Handle>,
    nextHandle: Handle,
    native: seq<NativeCall>,
    emitted: seq<StatusChanged>)

  /** The state of a call that may throw after having changed the manager. */
  datatype Outcome<T> = Outcome(m: Manager, result: Result<T>)

  // ---------------------------------------------------------------------
  // Bookkeeping over the native log
  // ---------------------------------------------------------------------

  /** The frame cryptors the native log shows as created. */
  function Created(log: seq<NativeCall>): set<Handle>
    decreases |log|
  {
    if log == [] then {}
    else Created(log[..|log| - 1]) +
         (if log[|log| - 1].CreateFrameCryptor? then {log[|log| - 1].cryptor} else {})
  }

  /** No frame cryptor handle is created twice in the native log. */
  predicate CreatedOnce(log: seq<NativeCall>)
    decreases |log|
  {
    log == [] ||
    (CreatedOnce(log[..|log| - 1]) &&
     (log[|log| - 1].CreateFrameCryptor? ==> log[|log| - 1].cryptor !in Created(log[..|log| - 1])))
  }

  /** The frame cryptors the native log shows as disposed. */
  function Disposed(log: seq<NativeCall>): set<Handle>
    decreases |log|
  {
    if log == [] then {}
    else Disposed(log[..|log| - 1]) +
         (if log[|log| - 1].DisposeCryptor? then {log[|log| - 1].cryptor} else {})
  }

  /** How many data-packet cryptors the native log shows as created. */
  function DataPacketCreations(log: seq<NativeCall>): nat
    decreases |log|
  {
    if log == [] then 0
    else DataPacketCreations(log[..|log| - 1]) +
         (if log[|log| - 1].CreateDataPacketCryptor? then 1 else 0)
  }

  predicate HandlesBelow(log: seq<NativeCall>, n: Handle) {
    forall i :: 0 <= i < |log| ==> log[i].cryptor < n
  }

  lemma LogAppend(log: seq<NativeCall>, c: NativeCall)
    ensures Created(log + [c]) == Created(log) + (if c.CreateFrameCryptor? then {c.cryptor} else {})
    ensures Disposed(log + [c]) == Disposed(log) + (if c.DisposeCryptor? then {c.cryptor} else {})
    ensures DataPacketCreations(log + [c]) == DataPacketCreations(log) + (if c.CreateDataPacketCryptor? then 1 else 0)
    ensures CreatedOnce(log + [c]) <==> CreatedOnce(log) && (c.CreateFrameCryptor? ==> c.cryptor !in Created(log))
  {
    assert (log + [c])[..|log|] == log;
  }

  lemma {:induction false} CreatedBelow(log: seq<NativeCall>, n: Handle)
    requires HandlesBelow(log, n)
    ensures forall h :: h in Created(log) ==> h < n
    ensures forall h :: h in Disposed(log) ==> h < n
    decreases |log|
  {
    if log != [] {
      CreatedBelow(log[..|log| - 1], n);
    }
  }

  /** The manager's invariant:
      - every handle the native log mentions was drawn from the counter;
      - every frame cryptor is created exactly once;
      - every registry entry is a created and not yet disposed frame cryptor;
      - every created frame cryptor is still registered or has been disposed
        (none leaks);
      - no frame cryptor is registered under two track SIDs;
      - the data-packet cryptor was created once if it exists, never otherwise;
      - a room is bound exactly when some room's events are listened to, and
        the bound room is one of them. */
  predicate Valid(m: Manager) {
    && HandlesBelow(m.native, m.nextHandle)
    && CreatedOnce(m.native)
    && (forall s :: s in m.frameCryptors ==>
          m.frameCryptors[s] in Created(m.native) && m.frameCryptors[s] !in Disposed(m.native))
    && (forall h :: h in Created(m.native) ==> h in m.frameCryptors.Values || h in Disposed(m.native))
    && (forall s, t :: s in m.frameCryptors && t in m.frameCryptors && s != t ==>
          m.frameCryptors[s] != m.frameCryptors[t])
    && DataPacketCreations(m.native) == (if m.dataPacketCryptor.Some? then 1 else 0)
    && (m.dataPacketCryptor.Some? ==> m.dataPacketCryptor.value < m.nextHandle)
    && (m.room.Some? <==> |m.listeners| > 0)
    && (m.room.Some? ==> m.room.value in m.listeners)
  }

  // ---------------------------------------------------------------------
  // Construction, accessors, room binding
  // ---------------------------------------------------------------------

  /** A new manager; `dcEncryptionEnabled` defaults to false. */
  function New(keys: KeyProvider.KeyProvider, dcEncryptionEnabled: Option<bool>): Manager {
    Manager(None, [], map[], keys, false, dcEncryptionEnabled.GetOr(false), None, 0, [], [])
  }

  function IsEnabled(m: Manager): bool {
    m.encryptionEnabled
  }

  function IsDataChannelEncryptionEnabled(m: Manager): bool {
    IsEnabled(m) && m.dataChannelEncryptionEnabled
  }

  function SetDataChannelEncryptionEnabled(m: Manager, value: bool): Manager {
    m.(dataChannelEncryptionEnabled := value)
  }

  /** A new manager is disabled, holds nothing, and its data-channel flag is
      the constructor argument, false by default. */
  lemma NewManager(keys: KeyProvider.KeyProvider, dc: Option<bool>)
    ensures !IsEnabled(New(keys, dc)) && !IsDataChannelEncryptionEnabled(New(keys, dc))
    ensures New(keys, dc).dataChannelEncryptionEnabled == (dc == Some(true))
    ensures New(keys, dc).frameCryptors == map[] && New(keys, dc).room.None?
    ensures Valid(New(keys, dc))
  {
  }

  /** Data-channel encryption is on exactly when both flags are; the setter
      changes the data-channel flag and nothing else. */
  lemma DataChannelFlag(m: Manager, value: bool)
    ensures IsDataChannelEncryptionEnabled(SetDataChannelEncryptionEnabled(m, value)) <==>
              m.encryptionEnabled && value
    ensures SetDataChannelEncryptionEnabled(m, value).(dataChannelEncryptionEnabled := m.dataChannelEncryptionEnabled) == m
    ensures IsEnabled(SetDataChannelEncryptionEnabled(m, value)) == IsEnabled(m)
  {
  }

  /** Binds the manager to a room. The same room object is a no-op; any other
      room replaces the binding and registers the listeners on it once. The
      listeners of a previously bound room are not removed. */
  function Setup(m: Manager, room: RoomRef): (r: Manager)
    ensures r.room == Some(room)
    ensures m.room == Some(room) ==> r == m
    ensures m.room != Some(room) ==>
              r.listeners == m.listeners + [room] &&
              r.(room := m.room, listeners := m.listeners) == m
  {
    if m.room == Some(room) then m
    else m.(room := Some(room), listeners := m.listeners + [room])
  }

  /** How many times the track listeners are registered on a room. */
  function Registrations(m: Manager, room: RoomRef): nat {
    multiset(m.listeners)[room]
  }

  lemma SetupIdempotent(m: Manager, room: RoomRef)
    ensures Setup(Setup(m, room), room) == Setup(m, room)
    ensures Registrations(Setup(m, room), room) ==
              Registrations(m, room) + (if m.room == Some(room) then 0 else 1)
    ensures forall other :: other != room ==> Registrations(Setup(m, room), other) == Registrations(m, other)
  {
  }

  /** Rebinding back to an earlier room registers its listeners a second
      time, since switching rooms never removes them. */
  lemma RebindingRegistersTwice(m: Manager, a: RoomRef, b: RoomRef)
    requires m.room.None? && m.listeners == [] && a != b
    ensures Registrations(Setup(Setup(Setup(m, a), b), a), a) == 2
  {
    assert Setup(Setup(Setup(m, a), b), a).listeners == [a, b, a];
  }

  // ---------------------------------------------------------------------
  // Frame cryptor lifecycle
  // ---------------------------------------------------------------------

  /** Creates a frame cryptor for the track, registers it, enables it, and
      gives it the latest key index cached for the participant. */
  function Attach(m: Manager, trackSid: string, dir: Direction, identity: string, endpoint: Endpoint): (r: Manager)
    ensures r.frameCryptors == m.frameCryptors[trackSid := m.nextHandle]
    ensures r.nextHandle == m.nextHandle + 1
    ensures r.native == m.native
                        + [CreateFrameCryptor(m.nextHandle, dir, identity, endpoint)]
                        + [SetEnabled(m.nextHandle, true)]
                        + [SetKeyIndex(m.nextHandle, KeyProvider.GetLatestKeyIndex(m.keys, identity))]
    ensures r.(frameCryptors := m.frameCryptors, nextHandle := m.nextHandle, native := m.native) == m
  {
    var h := m.nextHandle;
    m.(frameCryptors := m.frameCryptors[trackSid := h],
       nextHandle := h + 1,
       native := m.native
                 + [CreateFrameCryptor(h, dir, identity, endpoint)]
                 + [SetEnabled(h, true)]
                 + [SetKeyIndex(h, KeyProvider.GetLatestKeyIndex(m.keys, identity))])
  }

  /** The shared body of sender and receiver setup: only an encrypted
      publication whose track SID has no cryptor yet gets one, and an
      existing cryptor is never replaced. A publication without a track
      makes the handler reject before anything is registered. */
  function SetupCryptor(m: Manager, pub: Publication, dir: Direction, identity: string): (r: Manager)
    ensures !pub.isEncrypted || pub.trackSid in m.frameCryptors || pub.endpoint.None? ==> r == m
    ensures pub.isEncrypted && pub.trackSid !in m.frameCryptors && pub.endpoint.Some? ==>
              r == Attach(m, pub.trackSid, dir, identity, pub.endpoint.value)
  {
    if !pub.isEncrypted then m
    else if pub.trackSid in m.frameCryptors then m
    else if pub.endpoint.None? then m
    else Attach(m, pub.trackSid, dir, identity, pub.endpoint.value)
  }

  /** A local track was published by the local participant `identity`. */
  function SetupE2EESender(m: Manager, pub: Publication, identity: string): (r: Manager)
    ensures pub.trackSid in m.frameCryptors ==> r.frameCryptors == m.frameCryptors
    ensures !pub.isEncrypted ==> r == m
    ensures r.frameCryptors.Keys == m.frameCryptors.Keys + (if r == m then {} else {pub.trackSid})
    ensures forall s :: s in m.frameCryptors ==> s in r.frameCryptors && r.frameCryptors[s] == m.frameCryptors[s]
    ensures r != m ==> pub.endpoint.Some? && r == Attach(m, pub.trackSid, Sender, identity, pub.endpoint.value)
    ensures pub.isEncrypted && pub.trackSid !in m.frameCryptors && pub.endpoint.Some? ==>
              r == Attach(m, pub.trackSid, Sender, identity, pub.endpoint.value)
  {
    SetupCryptor(m, pub, Sender, identity)
  }

  /** A remote track of participant `identity` was subscribed. */
  function SetupE2EEReceiver(m: Manager, pub: Publication, identity: string): (r: Manager)
    ensures pub.trackSid in m.frameCryptors ==> r.frameCryptors == m.frameCryptors
    ensures !pub.isEncrypted ==> r == m
    ensures r.frameCryptors.Keys == m.frameCryptors.Keys + (if r == m then {} else {pub.trackSid})
    ensures forall s :: s in m.frameCryptors ==> s in r.frameCryptors && r.frameCryptors[s] == m.frameCryptors[s]
    ensures r != m ==> pub.endpoint.Some? && r == Attach(m, pub.trackSid, Receiver, identity, pub.endpoint.value)
    ensures pub.isEncrypted && pub.trackSid !in m.frameCryptors && pub.endpoint.Some? ==>
              r == Attach(m, pub.trackSid, Receiver, identity, pub.endpoint.value)
  {
    SetupCryptor(m, pub, Receiver, identity)
  }

  /** Unpublish and unsubscribe: the entry is removed from the registry
      first, then the cryptor is disabled, then disposed. An absent track SID
      is a no-op. */
  function Detach(m: Manager, trackSid: string): (r: Manager)
    ensures trackSid !in m.frameCryptors ==> r == m
    ensures r.frameCryptors == m.frameCryptors - {trackSid}
    ensures trackSid in m.frameCryptors ==>
              r.native == m.native + [SetEnabled(m.frameCryptors[trackSid], false)]
                                   + [DisposeCryptor(m.frameCryptors[trackSid])]
    ensures r.(frameCryptors := m.frameCryptors, native := m.native) == m
  {
    if trackSid !in m.frameCryptors then m
    else
      var h := m.frameCryptors[trackSid];
      m.(frameCryptors := m.frameCryptors - {trackSid},
         native := m.native + [SetEnabled(h, false)] + [DisposeCryptor(h)])
  }

  function OnLocalTrackUnpublished(m: Manager, trackSid: string): Manager {
    Detach(m, trackSid)
  }

  function OnTrackUnsubscribed(m: Manager, trackSid: string): Manager {
    Detach(m, trackSid)
  }

  // ---------------------------------------------------------------------
  // Invariant preservation for the lifecycle
  // ---------------------------------------------------------------------

  lemma AttachPreservesValid(m: Manager, trackSid: string, dir: Direction, identity: string, endpoint: Endpoint)
    requires Valid(m) && trackSid !in m.frameCryptors
    ensures Valid(Attach(m, trackSid, dir, identity, endpoint))
  {
    var h := m.nextHandle;
    var r := Attach(m, trackSid, dir, identity, endpoint);
    var c1 := CreateFrameCryptor(h, dir, identity, endpoint);
    var c2 := SetEnabled(h, true);
    var c3 := SetKeyIndex(h, KeyProvider.GetLatestKeyIndex(m.keys, identity));
    LogAppend(m.native, c1);
    LogAppend(m.native + [c1], c2);
    LogAppend(m.native + [c1] + [c2], c3);
    assert Created(r.native) == Created(m.native) + {h};
    assert Disposed(r.native) == Disposed(m.native);
    CreatedBelow(m.native, m.nextHandle);
    forall s | s in r.frameCryptors
      ensures r.frameCryptors[s] in Created(r.native) && r.frameCryptors[s] !in Disposed(r.native)
    {
    }
    forall x | x in Created(r.native)
      ensures x in r.frameCryptors.Values || x in Disposed(r.native)
    {
      if x != h && x !in Disposed(m.native) {
        var s :| s in m.frameCryptors && m.frameCryptors[s] == x;
        assert s != trackSid && r.frameCryptors[s] == x;
      } else if x == h {
        assert r.frameCryptors[trackSid] == h;
      }
    }
  }

  lemma DetachPreservesValid(m: Manager, trackSid: string)
    requires Valid(m)
    ensures Valid(Detach(m, trackSid))
  {
    if trackSid in m.frameCryptors {
      var h := m.frameCryptors[trackSid];
      var r := Detach(m, trackSid);
      CreatedBelow(m.native, m.nextHandle);
      LogAppend(m.native, SetEnabled(h, false));
      LogAppend(m.native + [SetEnabled(h, false)], DisposeCryptor(h));
      assert Created(r.native) == Created(m.native);
      assert Disposed(r.native) == Disposed(m.native) + {h};
      forall x | x in Created(r.native)
        ensures x in r.frameCryptors.Values || x in Disposed(r.native)
      {
        if x != h && x !in Disposed(m.native) {
          var s :| s in m.frameCryptors && m.frameCryptors[s] == x;
          assert s != trackSid && r.frameCryptors[s] == x;
        }
      }
    }
  }

  // ---------------------------------------------------------------------
  // Event delivery
  // ---------------------------------------------------------------------

  /** The four track lifecycle events the manager listens to. `identity` is
      the participant the publication belongs to. */
  datatype TrackEvent =
    | LocalTrackPublished(pub: Publication, identity: string)
    | LocalTrackUnpublished(trackSid: string)
    | TrackSubscribed(pub: Publication, identity: string)
    | TrackUnsubscribed(trackSid: string)

  function HandleTrackEvent(m: Manager, ev: TrackEvent): Manager {
    match ev
    case LocalTrackPublished(pub, id) => SetupE2EESender(m, pub, id)
    case LocalTrackUnpublished(sid) => OnLocalTrackUnpublished(m, sid)
    case TrackSubscribed(pub, id) => SetupE2EEReceiver(m, pub, id)
    case TrackUnsubscribed(sid) => OnTrackUnsubscribed(m, sid)
  }

  function HandleRepeatedly(m: Manager, ev: TrackEvent, times: nat): Manager
    decreases times
  {
    if times == 0 then m else HandleRepeatedly(HandleTrackEvent(m, ev), ev, times - 1)
  }

  /** An event fired by `room` runs the handler once per registration of
      the listeners on that room. */
  function Deliver(m: Manager, room: RoomRef, ev: TrackEvent): Manager {
    HandleRepeatedly(m, ev, Registrations(m, room))
  }

  /** Handling the same event twice is handling it once: publish and
      subscribe check before they create, and teardown of an absent entry is
      a no-op. */
  lemma HandleTrackEventIdempotent(m: Manager, ev: TrackEvent)
    ensures HandleTrackEvent(HandleTrackEvent(m, ev), ev) == HandleTrackEvent(m, ev)
  {
  }

  /** So for track events a room whose listeners were registered several
      times behaves as if they were registered once. `SignalConnected` does
      not: see `SignalRepeatedlyEmitsPerRun`. */
  lemma {:induction false} RepeatedDeliveryIsSingle(m: Manager, ev: TrackEvent, times: nat)
    requires times >= 1
    ensures HandleRepeatedly(m, ev, times) == HandleTrackEvent(m, ev)
    decreases times
  {
    if times > 1 {
      var once := HandleTrackEvent(m, ev);
      RepeatedDeliveryIsSingle(once, ev, times - 1);
      HandleTrackEventIdempotent(m, ev);
    }
  }

  lemma DeliveryFromListenedRoom(m: Manager, room: RoomRef, ev: TrackEvent)
    ensures room in m.listeners ==> Deliver(m, room, ev) == HandleTrackEvent(m, ev)
    ensures room !in m.listeners ==> Deliver(m, room, ev) == m
  {
    if room in m.listeners {
      RepeatedDeliveryIsSingle(m, ev, Registrations(m, room));
    }
  }

  lemma HandleTrackEventPreservesValid(m: Manager, ev: TrackEvent)
    requires Valid(m)
    ensures Valid(HandleTrackEvent(m, ev))
  {
    match ev
    case LocalTrackPublished(pub, id) =>
      if pub.isEncrypted && pub.trackSid !in m.frameCryptors && pub.endpoint.Some? {
        AttachPreservesValid(m, pub.trackSid, Sender, id, pub.endpoint.value);
      }
    case TrackSubscribed(pub, id) =>
      if pub.isEncrypted && pub.trackSid !in m.frameCryptors && pub.endpoint.Some? {
        AttachPreservesValid(m, pub.trackSid, Receiver, id, pub.endpoint.value);
      }
    case LocalTrackUnpublished(sid) => DetachPreservesValid(m, sid);
    case TrackUnsubscribed(sid) => DetachPreservesValid(m, sid);
  }

  // ---------------------------------------------------------------------
  // Encryption status
  // ---------------------------------------------------------------------

  /** Only a change of the flag requested for the local participant mutates
      the manager; it then notifies once for the local participant. Every
      other call, including a repeated local call with the same value, leaves
      the flag alone, throws when the identity cannot be resolved in the
      bound room (or no room is bound), and otherwise notifies for the
      resolved participant. */
  function SetParticipantCryptorEnabled(m: Manager, enabled: bool, identity: string, view: RoomView): (r: Result<Manager>)
    ensures r.Ok? ==> r.value.emitted == m.emitted + [StatusChanged(enabled, identity)]
    ensures r.Ok? ==> r.value.(encryptionEnabled := m.encryptionEnabled, emitted := m.emitted) == m
    ensures r.Ok? && r.value.encryptionEnabled != m.encryptionEnabled ==>
              m.room.Some? && identity == view.localIdentity && r.value.encryptionEnabled == enabled
    ensures m.room.Some? && identity == view.localIdentity ==> r.Ok? && r.value.encryptionEnabled == enabled
    ensures r.Err? <==> m.room.None? || !view.Resolves(identity)
    ensures r.Err? ==> r.error == NotFound
  {
    if m.encryptionEnabled != enabled && m.room.Some? && identity == view.localIdentity then
      Ok(m.(encryptionEnabled := enabled, emitted := m.emitted + [StatusChanged(enabled, identity)]))
    else if m.room.None? || !view.Resolves(identity) then
      Err(NotFound)
    else
      Ok(m.(emitted := m.emitted + [StatusChanged(enabled, identity)]))
  }

  /** Status changes are not de-duplicated: a repeated local call keeps the
      flag but notifies a second time. */
  lemma RepeatedLocalCallNotifiesTwice(m: Manager, enabled: bool, view: RoomView)
    requires m.room.Some?
    ensures var first := SetParticipantCryptorEnabled(m, enabled, view.localIdentity, view);
            first.Ok? &&
            var second := SetParticipantCryptorEnabled(first.value, enabled, view.localIdentity, view);
            second.Ok? && second.value.encryptionEnabled == enabled &&
            second.value.emitted == m.emitted + [StatusChanged(enabled, view.localIdentity), StatusChanged(enabled, view.localIdentity)]
  {
  }

  /** A remote participant's status is informational: the flag never moves. */
  lemma RemoteStatusNeverMutates(m: Manager, enabled: bool, identity: string, view: RoomView)
    requires identity != view.localIdentity
    ensures var r := SetParticipantCryptorEnabled(m, enabled, identity, view);
            r.Ok? ==> IsEnabled(r.value) == IsEnabled(m)
  {
  }

  /** The signal-connected handler re-announces the local participant's
      encryption state through `SetParticipantCryptorEnabled`; it throws if
      no room is bound. */
  function OnSignalConnected(m: Manager, localE2EEEnabled: bool, view: RoomView): Result<Manager> {
    if m.room.None? then Err(ConfigurationError)
    else SetParticipantCryptorEnabled(m, localE2EEEnabled, view.localIdentity, view)
  }

  /** With a room bound, the signal-connected handler never throws, leaves
      the manager's flag equal to the local participant's, and notifies
      exactly once. */
  lemma SignalConnectedSyncsLocalState(m: Manager, localE2EEEnabled: bool, view: RoomView)
    ensures OnSignalConnected(m, localE2EEEnabled, view).Ok? <==> m.room.Some?
    ensures m.room.Some? ==>
              var r := OnSignalConnected(m, localE2EEEnabled, view).value;
              IsEnabled(r) == localE2EEEnabled && |r.emitted| == |m.emitted| + 1
  {
  }

  /** The handler run once per registration of the listeners on the room
      that fired `SignalConnected`. Every run acts on the bound room, not on
      the room that fired; a run that throws ends the dispatch. */
  function SignalRepeatedly(m: Manager, localE2EEEnabled: bool, view: RoomView, times: nat): Manager
    decreases times
  {
    if times == 0 then m
    else match OnSignalConnected(m, localE2EEEnabled, view)
      case Err(_) => m
      case Ok(m') => SignalRepeatedly(m', localE2EEEnabled, view, times - 1)
  }

  function DeliverSignalConnected(m: Manager, from: RoomRef, localE2EEEnabled: bool, view: RoomView): Manager {
    SignalRepeatedly(m, localE2EEEnabled, view, Registrations(m, from))
  }

  /** Unlike the track events, `SignalConnected` is observable per
      registration: with a room bound, each run sets the flag and emits one
      status event for the local participant. Only the flag and the emitted
      events ever change. */
  lemma {:induction false} SignalRepeatedlyEmitsPerRun(m: Manager, localE2EEEnabled: bool, view: RoomView, times: nat)
    ensures var r := SignalRepeatedly(m, localE2EEEnabled, view, times);
            r.(encryptionEnabled := m.encryptionEnabled, emitted := m.emitted) == m &&
            (m.room.Some? ==>
               r.emitted == m.emitted + seq(times, _ => StatusChanged(localE2EEEnabled, view.localIdentity)) &&
               (times > 0 ==> IsEnabled(r) == localE2EEEnabled)) &&
            (m.room.None? ==> r == m)
    decreases times
  {
    if times > 0 && m.room.Some? {
      var m' := OnSignalConnected(m, localE2EEEnabled, view).value;
      SignalRepeatedlyEmitsPerRun(m', localE2EEEnabled, view, times - 1);
      var ev := StatusChanged(localE2EEEnabled, view.localIdentity);
      assert m.emitted + [ev] + seq(times - 1, _ => ev) == m.emitted + seq(times, _ => ev);
    }
  }

  /** After binding room a, then b, then a again, a signal from a re-announces
      the local state twice and one from b, still listened to, once; a room
      never bound announces nothing. */
  lemma RebindingSignalsTwice(m: Manager, a: RoomRef, b: RoomRef, c: RoomRef, localE2EEEnabled: bool, view: RoomView)
    requires m.room.None? && m.listeners == [] && a != b && c != a && c != b
    ensures var bound := Setup(Setup(Setup(m, a), b), a);
            var ev := StatusChanged(localE2EEEnabled, view.localIdentity);
            DeliverSignalConnected(bound, a, localE2EEEnabled, view).emitted == m.emitted + [ev, ev] &&
            DeliverSignalConnected(bound, b, localE2EEEnabled, view).emitted == m.emitted + [ev] &&
            DeliverSignalConnected(bound, c, localE2EEEnabled, view) == bound
  {
    var bound := Setup(Setup(Setup(m, a), b), a);
    assert bound.listeners == [a, b, a];
    assert Registrations(bound, a) == 2 && Registrations(bound, b) == 1 && Registrations(bound, c) == 0;
    SignalRepeatedlyEmitsPerRun(bound, localE2EEEnabled, view, 2);
    SignalRepeatedlyEmitsPerRun(bound, localE2EEEnabled, view, 1);
  }

  // ---------------------------------------------------------------------
  // Data packets
  // ---------------------------------------------------------------------

  datatype Acquired = Acquired(m: Manager, cryptor: Handle)

  /** Returns the data-packet cryptor, creating it on first use only. */
  function GetDataPacketCryptor(m: Manager): (a: Acquired)
    ensures m.dataPacketCryptor.Some? ==> a == Acquired(m, m.dataPacketCryptor.value)
    ensures m.dataPacketCryptor.None? ==>
              a.cryptor == m.nextHandle &&
              a.m == m.(dataPacketCryptor := Some(m.nextHandle), nextHandle := m.nextHandle + 1,
                        native := m.native + [CreateDataPacketCryptor(m.nextHandle)])
    ensures a.m.dataPacketCryptor == Some(a.cryptor)
  {
    if m.dataPacketCryptor.Some? then Acquired(m, m.dataPacketCryptor.value)
    else
      var h := m.nextHandle;
      Acquired(m.(dataPacketCryptor := Some(h), nextHandle := h + 1,
                  native := m.native + [CreateDataPacketCryptor(h)]), h)
  }

  /** The second acquisition reuses the first one's cryptor and creates nothing. */
  lemma DataPacketCryptorReused(m: Manager)
    ensures var a := GetDataPacketCryptor(m);
            GetDataPacketCryptor(a.m) == Acquired(a.m, a.cryptor)
  {
  }

  lemma GetDataPacketCryptorPreservesValid(m: Manager)
    requires Valid(m)
    ensures Valid(GetDataPacketCryptor(m).m)
  {
    if m.dataPacketCryptor.None? {
      LogAppend(m.native, CreateDataPacketCryptor(m.nextHandle));
      CreatedBelow(m.native, m.nextHandle);
      var r := GetDataPacketCryptor(m).m;
      forall x | x in Created(r.native)
        ensures x in r.frameCryptors.Values || x in Disposed(r.native)
      {
      }
    }
  }

  /** Encrypts a data packet under the local participant's identity and
      latest key index. Throws before doing anything when no room is bound;
      throws after the native call when it yields no packet. */
  function EncryptData(m: Manager, data: Bytes, view: RoomView, nativeResult: Option<Packet>): (o: Outcome<Packet>)
    ensures m.room.None? ==> o == Outcome(m, Err(ConfigurationError))
    ensures m.room.Some? ==>
              var a := GetDataPacketCryptor(m);
              o.m == a.m.(native := a.m.native + [Encrypt(a.cryptor, view.localIdentity,
                                                          KeyProvider.GetLatestKeyIndex(m.keys, view.localIdentity), data)])
    ensures m.room.Some? && nativeResult.None? ==> o.result == Err(CryptoFailed)
    ensures m.room.Some? && nativeResult.Some? ==> o.result == Ok(nativeResult.value)
  {
    if m.room.None? then Outcome(m, Err(ConfigurationError))
    else
      var identity := view.localIdentity;
      var a := GetDataPacketCryptor(m);
      var keyIndex := KeyProvider.GetLatestKeyIndex(a.m.keys, identity);
      var m' := a.m.(native := a.m.native + [Encrypt(a.cryptor, identity, keyIndex, data)]);
      match nativeResult
      case None => Outcome(m', Err(CryptoFailed))
      case Some(p) => Outcome(m', Ok(p))
  }

  /** Decrypts a data packet keyed by the sender's identity. No bound room is
      needed; a missing native result throws. */
  function HandleEncryptedData(m: Manager, payload: Bytes, iv: Bytes, identity: string, keyIndex: int,
                               nativeResult: Option<Bytes>): (o: Outcome<Bytes>)
    ensures var a := GetDataPacketCryptor(m);
            o.m == a.m.(native := a.m.native + [Decrypt(a.cryptor, identity, Packet(payload, iv, keyIndex))])
    ensures nativeResult.None? ==> o.result == Err(CryptoFailed)
    ensures nativeResult.Some? ==> o.result == Ok(nativeResult.value)
  {
    var a := GetDataPacketCryptor(m);
    var m' := a.m.(native := a.m.native + [Decrypt(a.cryptor, identity, Packet(payload, iv, keyIndex))]);
    match nativeResult
    case None => Outcome(m', Err(CryptoFailed))
    case Some(d) => Outcome(m', Ok(d))
  }

  /** Round trip through the manager: when the native cryptor's decryption
      undoes its encryption, the packet `EncryptData` returns, handed to
      `HandleEncryptedData` with the sender's identity, yields the original
      bytes, and both calls used the same data-packet cryptor. */
  lemma DataRoundTrip(m: Manager, data: Bytes, view: RoomView,
                      encrypt: (string, int, Bytes) -> Option<Packet>,
                      decrypt: (string, Packet) -> Option<Bytes>)
    requires m.room.Some?
    requires forall id, idx, d, p :: encrypt(id, idx, d) == Some(p) ==> decrypt(id, p) == Some(d)
    requires encrypt(view.localIdentity, KeyProvider.GetLatestKeyIndex(m.keys, view.localIdentity), data).Some?
    ensures var sent := EncryptData(m, data, view,
                                    encrypt(view.localIdentity, KeyProvider.GetLatestKeyIndex(m.keys, view.localIdentity), data));
            sent.result.Ok? &&
            var p := sent.result.value;
            var received := HandleEncryptedData(sent.m, p.payload, p.iv, view.localIdentity, p.keyIndex,
                                                decrypt(view.localIdentity, Packet(p.payload, p.iv, p.keyIndex)));
            received.result == Ok(data) &&
            received.m.dataPacketCryptor == sent.m.dataPacketCryptor
  {
  }

  lemma EncryptDataPreservesValid(m: Manager, data: Bytes, view: RoomView, nativeResult: Option<Packet>)
    requires Valid(m)
    ensures Valid(EncryptData(m, data, view, nativeResult).m)
  {
    if m.room.Some? {
      GetDataPacketCryptorPreservesValid(m);
      var a := GetDataPacketCryptor(m);
      var c := Encrypt(a.cryptor, view.localIdentity, KeyProvider.GetLatestKeyIndex(m.keys, view.localIdentity), data);
      LogAppend(a.m.native, c);
    }
  }

  lemma HandleEncryptedDataPreservesValid(m: Manager, payload: Bytes, iv: Bytes, identity: string, keyIndex: int,
                                          nativeResult: Option<Bytes>)
    requires Valid(m)
    ensures Valid(HandleEncryptedData(m, payload, iv, identity, keyIndex, nativeResult).m)
  {
    GetDataPacketCryptorPreservesValid(m);
    var a := GetDataPacketCryptor(m);
    LogAppend(a.m.native, Decrypt(a.cryptor, identity, Packet(payload, iv, keyIndex)));
  }

  /** Forwards the SIF trailer to the key provider. */
  function SetSifTrailer(m: Manager, trailer: Bytes): (r: Manager)
    ensures r.keys == KeyProvider.SetSifTrailer(m.keys, trailer)
    ensures r.(keys := m.keys) == m
  {
    m.(keys := KeyProvider.SetSifTrailer(m.keys, trailer))
  }

  // ---------------------------------------------------------------------
  // Runs of operations
  // ---------------------------------------------------------------------

  /** Everything that can happen to a manager. */
  datatype Action =
    | DoSetup(room: RoomRef)
    | DoDeliver(from: RoomRef, ev: TrackEvent)
    | DoSignalConnected(from: RoomRef, localE2EEEnabled: bool, view: RoomView)
    | DoSetParticipantCryptorEnabled(enabled: bool, identity: string, view: RoomView)
    | DoSetDataChannelEncryptionEnabled(value: bool)
    | DoEncryptData(data: Bytes, view: RoomView, encrypted: Option<Packet>)
    | DoHandleEncryptedData(payload: Bytes, iv: Bytes, sender: string, keyIndex: int, decrypted: Option<Bytes>)
    | DoSetSifTrailer(trailer: Bytes)
    | DoKeyOp(op: KeyProvider.Op)

  /** The manager after an action; a call that throws before changing
      anything leaves it as it was. */
  function Apply(m: Manager, a: Action): Manager {
    match a
    case DoSetup(room) => Setup(m, room)
    case DoDeliver(room, ev) => Deliver(m, room, ev)
    case DoSignalConnected(from, e, view) => DeliverSignalConnected(m, from, e, view)
    case DoSetParticipantCryptorEnabled(e, id, view) =>
      (match SetParticipantCryptorEnabled(m, e, id, view) case Ok(m') => m' case Err(_) => m)
    case DoSetDataChannelEncryptionEnabled(v) => SetDataChannelEncryptionEnabled(m, v)
    case DoEncryptData(d, view, p) => EncryptData(m, d, view, p).m
    case DoHandleEncryptedData(pl, iv, s, k, d) => HandleEncryptedData(m, pl, iv, s, k, d).m
    case DoSetSifTrailer(t) => SetSifTrailer(m, t)
    case DoKeyOp(op) => m.(keys := KeyProvider.Step(m.keys, op))
  }

  function Run(m: Manager, actions: seq<Action>): Manager
    decreases |actions|
  {
    if actions == [] then m else Run(Apply(m, actions[0]), actions[1..])
  }

  lemma ApplyPreservesValid(m: Manager, a: Action)
    requires Valid(m)
    ensures Valid(Apply(m, a))
  {
    match a
    case DoSetup(room) =>
    case DoDeliver(room, ev) =>
      DeliveryFromListenedRoom(m, room, ev);
      HandleTrackEventPreservesValid(m, ev);
    case DoSignalConnected(from, e, view) =>
      SignalRepeatedlyEmitsPerRun(m, e, view, Registrations(m, from));
    case DoSetParticipantCryptorEnabled(e, id, view) =>
    case DoSetDataChannelEncryptionEnabled(v) =>
    case DoEncryptData(d, view, p) => EncryptDataPreservesValid(m, d, view, p);
    case DoHandleEncryptedData(pl, iv, s, k, d) => HandleEncryptedDataPreservesValid(m, pl, iv, s, k, d);
    case DoSetSifTrailer(t) =>
    case DoKeyOp(op) =>
  }

  /** From a new manager, any sequence of events and calls keeps the
      invariant: one cryptor per track SID, registered cryptors are live,
      unregistered ones were disposed, and at most one data-packet cryptor
      was ever created. */
  lemma {:induction false} RunPreservesValid(m: Manager, actions: seq<Action>)
    requires Valid(m)
    ensures Valid(Run(m, actions))
    ensures DataPacketCreations(Run(m, actions).native) <= 1
    decreases |actions|
  {
    if actions != [] {
      ApplyPreservesValid(m, actions[0]);
      RunPreservesValid(Apply(m, actions[0]), actions[1..]);
    }
  }

  /** End-to-end: an encrypted camera track published before any key was set
      gets one enabled sender cryptor with key index 0; unpublishing removes
      it, then disables and disposes it, in that order. */
  lemma CameraTrackScenario(m: Manager, identity: string, sender: Endpoint)
    requires Valid(m) && m.frameCryptors == map[] && identity !in m.keys.latestSetIndex
    ensures var pub := Publication("TR_CAM1", true, Some(sender));
            var h := m.nextHandle;
            var p := SetupE2EESender(m, pub, identity);
            p.frameCryptors == map["TR_CAM1" := h] &&
            p.native[|m.native|..] == [CreateFrameCryptor(h, Sender, identity, sender), SetEnabled(h, true), SetKeyIndex(h, 0)] &&
            var u := OnLocalTrackUnpublished(p, "TR_CAM1");
            u.frameCryptors == map[] &&
            u.native[|p.native|..] == [SetEnabled(h, false), DisposeCryptor(h)] &&
            Valid(u)
  {
    var pub := Publication("TR_CAM1", true, Some(sender));
    var p := SetupE2EESender(m, pub, identity);
    AttachPreservesValid(m, "TR_CAM1", Sender, identity, sender);
    DetachPreservesValid(p, "TR_CAM1");
  }
}

=== FILE: element_info.dfy ===
/** The element-info objects the video components hand to the adaptive
    stream logic (`VideoTrackElementInfo` in src/components/VideoTrack.tsx,
    `VideoViewElementInfo` in src/components/VideoView.tsx). Both keep the
    rendered size and visibility and, while observed, call back on resize
    and on a visibility change. They differ only in that the view scales
    its layout by the device pixel ratio. `Date.now()` is a parameter. */
module ElementInfo {
  import opened Wrappers

  datatype Callback = HandleResize | HandleVisibilityChanged

  datatype Info = Info(
    width: real,
    height: real,
    observing: bool,
    visible: bool,
    visibilityChangedAt: Option<int>,
    hasResizeHandler: bool,
    hasVisibilityHandler: bool,
    callbacks: seq<Callback>)

  /** A new element is visible, 0 by 0, not observed, and has made no call. */
  function New(hasResizeHandler: bool, hasVisibilityHandler: bool): (e: Info)
    ensures e.visible && e.width == 0.0 && e.height == 0.0 && !e.observing && e.callbacks == []
  {
    Info(0.0, 0.0, false, true, None, hasResizeHandler, hasVisibilityHandler, [])
  }

  function Observe(e: Info): (e': Info)
    ensures e'.observing && e'.(observing := e.observing) == e
  {
    e.(observing := true)
  }

  function StopObserving(e: Info): (e': Info)
    ensures !e'.observing && e'.(observing := e.observing) == e
  {
    e.(observing := false)
  }

  /** Calls the resize handler, if any, while observed. */
  function Resized(e: Info): Info {
    if e.observing && e.hasResizeHandler then e.(callbacks := e.callbacks + [HandleResize]) else e
  }

  /** `VideoTrackElementInfo.onLayout`: the layout size is stored as is. */
  function VideoTrackOnLayout(e: Info, width: real, height: real): (e': Info)
    ensures e'.width == width && e'.height == height
    ensures e'.callbacks == e.callbacks + (if e.observing && e.hasResizeHandler then [HandleResize] else [])
    ensures e'.(width := e.width, height := e.height, callbacks := e.callbacks) == e
  {
    Resized(e.(width := width, height := height))
  }

  /** `VideoViewElementInfo.onLayout`: the layout size is stored in device
      pixels. */
  function VideoViewOnLayout(e: Info, width: real, height: real, pixelRatio: real): (e': Info)
    ensures e'.width == width * pixelRatio && e'.height == height * pixelRatio
    ensures e'.callbacks == e.callbacks + (if e.observing && e.hasResizeHandler then [HandleResize] else [])
    ensures e'.(width := e.width, height := e.height, callbacks := e.callbacks) == e
  {
    Resized(e.(width := width * pixelRatio, height := height * pixelRatio))
  }

  /** The view's layout is the track's layout scaled by the pixel ratio;
      with a ratio of 1 they coincide. */
  lemma ViewLayoutScalesTrackLayout(e: Info, width: real, height: real, pixelRatio: real)
    ensures VideoViewOnLayout(e, width, height, pixelRatio) == VideoTrackOnLayout(e, width * pixelRatio, height * pixelRatio)
    ensures VideoViewOnLayout(e, width, height, 1.0) == VideoTrackOnLayout(e, width, height)
  {
  }

  /** A visibility report, shared by both classes: only a change is
      recorded, stamped with `now`, and called back while observed. */
  function OnVisibility(e: Info, isVisible: bool, now: int): (e': Info)
    ensures e'.visible == isVisible
    ensures e.visible == isVisible ==> e' == e
    ensures e.visible != isVisible ==>
              e'.visibilityChangedAt == Some(now) &&
              e'.callbacks == e.callbacks + (if e.observing && e.hasVisibilityHandler then [HandleVisibilityChanged] else [])
    ensures e'.(visible := e.visible, visibilityChangedAt := e.visibilityChangedAt, callbacks := e.callbacks) == e
  {
    if e.visible != isVisible then
      var changed := e.(visible := isVisible, visibilityChangedAt := Some(now));
      if e.observing && e.hasVisibilityHandler
      then changed.(callbacks := e.callbacks + [HandleVisibilityChanged])
      else changed
    else e
  }

  /** The same report twice changes nothing the second time. */
  lemma OnVisibilityIdempotent(e: Info, isVisible: bool, now: int, later: int)
    ensures OnVisibility(OnVisibility(e, isVisible, now), isVisible, later) == OnVisibility(e, isVisible, now)
  {
  }

  /** The visibility `VideoTrack` reports: with picture-in-picture enabled
      the track always counts as visible. */
  function ReportedVisibility(isVisible: bool, iosPIPEnabled: Option<bool>): (v: bool)
    ensures v <==> isVisible || iosPIPEnabled == Some(true)
  {
    isVisible || iosPIPEnabled.GetOr(false)
  }

  function ReportAll(e: Info, seen: seq<bool>, iosPIPEnabled: Option<bool>, now: int): Info
    decreases |seen|
  {
    if seen == [] then e
    else ReportAll(OnVisibility(e, ReportedVisibility(seen[0], iosPIPEnabled), now), seen[1..], iosPIPEnabled, now)
  }

  /** With picture-in-picture on, a visible track stays visible whatever the
      viewport detector reports, and its visibility handler is never called. */
  lemma {:induction false} PictureInPictureStaysVisible(e: Info, seen: seq<bool>, now: int)
    requires e.visible
    ensures ReportAll(e, seen, Some(true), now) == e
    decreases |seen|
  {
    if seen != [] {
      assert OnVisibility(e, ReportedVisibility(seen[0], Some(true)), now) == e;
      PictureInPictureStaysVisible(e, seen[1..], now);
    }
  }

  function CountChanges(start: bool, seen: seq<bool>): nat
    decreases |seen|
  {
    if seen == [] then 0
    else (if seen[0] != start then 1 else 0) + CountChanges(seen[0], seen[1..])
  }

  /** While observed, the visibility handler is called once per change of
      the reported value and never otherwise. */
  lemma {:induction false} OneCallbackPerChange(e: Info, seen: seq<bool>, now: int)
    requires e.observing && e.hasVisibilityHandler
    ensures var r := ReportAll(e, seen, None, now);
            r.callbacks == e.callbacks + seq(CountChanges(e.visible, seen), _ => HandleVisibilityChanged) &&
            r.observing
    decreases |seen|
  {
    if seen != [] {
      var next := OnVisibility(e, ReportedVisibility(seen[0], None), now);
      OneCallbackPerChange(next, seen[1..], now);
      var k := CountChanges(seen[0], seen[1..]);
      var calls := seq(k, _ => HandleVisibilityChanged);
      if seen[0] != e.visible {
        assert e.callbacks + [HandleVisibilityChanged] + calls ==
               e.callbacks + seq(k + 1, _ => HandleVisibilityChanged);
      } else {
        assert next == e;
      }
    }
  }

  /** An unobserved element still tracks size and visibility but calls
      nothing back. */
  lemma UnobservedIsSilent(e: Info, width: real, height: real, pixelRatio: real, isVisible: bool, now: int)
    requires !e.observing
    ensures VideoTrackOnLayout(e, width, height).callbacks == e.callbacks
    ensures VideoViewOnLayout(e, width, height, pixelRatio).callbacks == e.callbacks
    ensures OnVisibility(e, isVisible, now).callbacks == e.callbacks
  {
  }
}

=== FILE: frame_skipper.dfy ===
/** The iOS volume renderers (ios/audio/VolumeAudioRenderer.swift and
    ios/audio/MultibandVolumeAudioRenderer.swift). Both receive every audio
    buffer but process only one in `frameInterval`, counting the skipped
    ones, and send an event to JavaScript only when there is something to
    send and a tag to address it to. The level and band computations are
    foreign; their results are parameters. */
module FrameSkipper {
  import opened Wrappers

  /** The skip counter of `BaseVolumeAudioRenderer` and
      `BaseMultibandVolumeAudioRenderer`. `frameInterval` is the rounded
      tenth of the interval in milliseconds; it is taken as given. */
  datatype Skipper = Skipper(frameInterval: int, skippedFrames: int)

  function New(frameInterval: int): (s: Skipper)
    ensures s.frameInterval == frameInterval && s.skippedFrames == 0
  {
    Skipper(frameInterval, 0)
  }

  function Max(a: int, b: int): int {
    if a >= b then a else b
  }

  /** The counter never exceeds the frames one interval skips. */
  predicate Valid(s: Skipper) {
    0 <= s.skippedFrames <= Max(0, s.frameInterval - 1)
  }

  /** The renderer after one buffer, and whether it processed that buffer. */
  datatype Rendered = Rendered(next: Skipper, processed: bool)

  function Render(s: Skipper): (r: Rendered)
    ensures !r.processed <==> s.skippedFrames < s.frameInterval - 1
    ensures !r.processed ==> r.next.skippedFrames == s.skippedFrames + 1
    ensures r.processed ==> r.next.skippedFrames == 0
    ensures r.next.frameInterval == s.frameInterval
    ensures Valid(s) ==> Valid(r.next)
  {
    if s.skippedFrames < s.frameInterval - 1 then Rendered(s.(skippedFrames := s.skippedFrames + 1), false)
    else Rendered(s.(skippedFrames := 0), true)
  }

  /** The renderer after `calls` buffers, and how many it processed. */
  datatype Counted = Counted(next: Skipper, processed: nat)

  function RenderMany(s: Skipper, calls: nat): Counted
    decreases calls
  {
    if calls == 0 then Counted(s, 0)
    else
      var r := Render(s);
      var rest := RenderMany(r.next, calls - 1);
      Counted(rest.next, rest.processed + (if r.processed then 1 else 0))
  }

  lemma {:induction false} RenderManySplit(s: Skipper, a: nat, b: nat)
    ensures var first := RenderMany(s, a);
            var second := RenderMany(first.next, b);
            RenderMany(s, a + b) == Counted(second.next, first.processed + second.processed)
    decreases a
  {
    if a != 0 {
      RenderManySplit(Render(s).next, a - 1, b);
    }
  }

  lemma {:induction false} SkipsUntilFull(n: int, j: int)
    requires 1 <= n && 0 <= j <= n - 1
    ensures RenderMany(Skipper(n, j), n - 1 - j) == Counted(Skipper(n, n - 1), 0)
    decreases n - 1 - j
  {
    if j < n - 1 {
      SkipsUntilFull(n, j + 1);
    }
  }

  /** One interval: `frameInterval - 1` buffers are skipped, the next one is
      processed and the counter is back at 0. */
  lemma OneInterval(n: int)
    requires n >= 1
    ensures RenderMany(Skipper(n, 0), n) == Counted(Skipper(n, 0), 1)
  {
    RenderManySplit(Skipper(n, 0), n - 1, 1);
    SkipsUntilFull(n, 0);
  }

  /** With an interval of n ≥ 1 buffers, a fresh renderer processes exactly
      k of its first k·n buffers. */
  lemma {:induction false} ExactlyOnePerInterval(n: int, k: nat)
    requires n >= 1
    ensures RenderMany(New(n), k * n) == Counted(New(n), k)
    decreases k
  {
    if k != 0 {
      assert k * n == n + (k - 1) * n;
      RenderManySplit(New(n), n, (k - 1) * n);
      OneInterval(n);
      ExactlyOnePerInterval(n, k - 1);
    }
  }

  /** With an interval of at most one buffer, every buffer is processed. */
  lemma {:induction false} ShortIntervalProcessesAll(n: int, calls: nat)
    requires n <= 1
    ensures RenderMany(New(n), calls) == Counted(New(n), calls)
    decreases calls
  {
    if calls != 0 {
      ShortIntervalProcessesAll(n, calls - 1);
    }
  }

  /** The counter stays in range however many buffers arrive. */
  lemma {:induction false} RenderManyValid(s: Skipper, calls: nat)
    requires Valid(s)
    ensures Valid(RenderMany(s, calls).next) && RenderMany(s, calls).processed <= calls
    decreases calls
  {
    if calls != 0 {
      RenderManyValid(Render(s).next, calls - 1);
    }
  }

  /** The events sent to JavaScript. */
  datatype Event =
    | VolumeProcessed(volume: real, id: string)
    | MultibandProcessed(magnitudes: seq<real>, id: string)

  /** `VolumeAudioRenderer.onVolumeCalculated`: the average of the combined
      levels (absent when there are no levels) is sent under the tag. */
  function OnVolumeCalculated(reactTag: Option<string>, average: Option<real>): (e: Option<Event>)
    ensures e.Some? <==> reactTag.Some? && average.Some?
    ensures e.Some? ==> e.value == VolumeProcessed(average.value, reactTag.value)
  {
    if average.Some? && reactTag.Some? then Some(VolumeProcessed(average.value, reactTag.value)) else None
  }

  /** `MultibandVolumeAudioRenderer.onMagnitudesCalculated`: non-empty
      magnitudes are sent under the tag. */
  function OnMagnitudesCalculated(reactTag: Option<string>, magnitudes: seq<real>): (e: Option<Event>)
    ensures e.Some? <==> reactTag.Some? && magnitudes != []
    ensures e.Some? ==> e.value == MultibandProcessed(magnitudes, reactTag.value)
  {
    if magnitudes != [] && reactTag.Some? then Some(MultibandProcessed(magnitudes, reactTag.value)) else None
  }

  /** The renderer after one buffer, and the event it sent, if any. */
  datatype Emitted = Emitted(next: Skipper, event: Option<Event>)

  /** A volume renderer's buffer: `average` is the combined level average
      of the converted buffer, absent when conversion fails or there are no
      levels. */
  function RenderVolume(s: Skipper, reactTag: Option<string>, average: Option<real>): (r: Emitted)
    ensures r.next == Render(s).next
    ensures r.event.Some? ==> Render(s).processed && r.event == OnVolumeCalculated(reactTag, average)
    ensures Render(s).processed ==> r.event == OnVolumeCalculated(reactTag, average)
  {
    var step := Render(s);
    Emitted(step.next, if step.processed then OnVolumeCalculated(reactTag, average) else None)
  }

  /** A multiband renderer's buffer: `magnitudes` is the processor's result,
      absent when it produced none, in which case nothing is sent. */
  function RenderMultiband(s: Skipper, reactTag: Option<string>, magnitudes: Option<seq<real>>): (r: Emitted)
    ensures r.next == Render(s).next
    ensures r.event.Some? <==> Render(s).processed && reactTag.Some? && magnitudes.Some? && magnitudes.value != []
    ensures r.event.Some? ==> r.event == OnMagnitudesCalculated(reactTag, magnitudes.value)
  {
    var step := Render(s);
    if !step.processed then Emitted(step.next, None)
    else match magnitudes
      case None => Emitted(step.next, None)
      case Some(ms) => Emitted(step.next, OnMagnitudesCalculated(reactTag, ms))
  }

  /** A skipped buffer never sends anything, whatever the processor says;
      a renderer without a tag never sends anything at all. */
  lemma SkippedOrUntaggedIsSilent(s: Skipper, tag: Option<string>, average: Option<real>, magnitudes: Option<seq<real>>)
    requires s.skippedFrames < s.frameInterval - 1 || tag.None?
    ensures RenderVolume(s, tag, average).event.None?
    ensures RenderMultiband(s, tag, magnitudes).event.None?
  {
  }
}

=== FILE: ios_audio_utils.dfy ===
/** The iOS audio-session name translators (ios/AudioUtils.swift): the
    JavaScript side names an `AVAudioSession` mode, category and category
    options as strings, and these functions turn them into the framework's
    values. The operating-system version, which gates three of the values,
    is a parameter. */
module IosAudioUtils {
  import opened Wrappers

  /** An iOS version, compared as (major, minor). */
  datatype OsVersion = OsVersion(major: nat, minor: nat) {
    predicate AtLeast(major': nat, minor': nat) {
      major > major' || (major == major' && minor >= minor')
    }
  }

  // ---------------------------------------------------------------------
  // Modes
  // ---------------------------------------------------------------------

  datatype Mode =
    | Default | VoicePrompt | VideoRecording | VideoChat | VoiceChat
    | GameChat | Measurement | MoviePlayback | SpokenAudio

  /** The name each mode is requested by; the default mode's is "default_". */
  function ModeName(m: Mode): string {
    match m
    case Default => "default_"
    case VoicePrompt => "voicePrompt"
    case VideoRecording => "videoRecording"
    case VideoChat => "videoChat"
    case VoiceChat => "voiceChat"
    case GameChat => "gameChat"
    case Measurement => "measurement"
    case MoviePlayback => "moviePlayback"
    case SpokenAudio => "spokenAudio"
  }

  /** A mode exists on every version except the voice prompt, from iOS 12. */
  predicate ModeAvailable(m: Mode, os: OsVersion) {
    m == VoicePrompt ==> os.AtLeast(12, 0)
  }

  /** The mode for a name; unknown names, and the voice prompt before
      iOS 12, give the default mode. */
  function ModeFromString(name: string, os: OsVersion): Mode {
    match name
    case "default_" => Default
    case "voicePrompt" => if os.AtLeast(12, 0) then VoicePrompt else Default
    case "videoRecording" => VideoRecording
    case "videoChat" => VideoChat
    case "voiceChat" => VoiceChat
    case "gameChat" => GameChat
    case "measurement" => Measurement
    case "moviePlayback" => MoviePlayback
    case "spokenAudio" => SpokenAudio
    case _ => Default
  }

  /** A name selects a mode other than the default exactly when it is that
      mode's name and the mode is available; so every available mode is
      reached by its own name and by no other. */
  lemma ModeFromStringInvertsName(name: string, m: Mode, os: OsVersion)
    ensures m != Default ==> (ModeFromString(name, os) == m <==> name == ModeName(m) && ModeAvailable(m, os))
    ensures ModeAvailable(m, os) ==> ModeFromString(ModeName(m), os) == m
  {
  }

  /** "default" without the underscore is not a mode name, and still gives
      the default mode. */
  lemma UnknownModeIsDefault(os: OsVersion)
    ensures ModeFromString("default", os) == Default
    ensures ModeFromString("", os) == Default
    ensures !os.AtLeast(12, 0) ==> ModeFromString("voicePrompt", os) == Default
  {
  }

  // ---------------------------------------------------------------------
  // Categories
  // ---------------------------------------------------------------------

  datatype Category = Ambient | SoloAmbient | Playback | Record | PlayAndRecord | MultiRoute

  function CategoryName(c: Category): string {
    match c
    case Ambient => "ambient"
    case SoloAmbient => "soloAmbient"
    case Playback => "playback"
    case Record => "record"
    case PlayAndRecord => "playAndRecord"
    case MultiRoute => "multiRoute"
  }

  /** The category for a name; unknown names give solo-ambient. */
  function CategoryFromString(name: string): Category {
    match name
    case "ambient" => Ambient
    case "soloAmbient" => SoloAmbient
    case "playback" => Playback
    case "record" => Record
    case "playAndRecord" => PlayAndRecord
    case "multiRoute" => MultiRoute
    case _ => SoloAmbient
  }

  /** Every category is reached by its own name, any other category than
      the fallback only by it. */
  lemma CategoryFromStringInvertsName(name: string, c: Category)
    ensures CategoryFromString(CategoryName(c)) == c
    ensures c != SoloAmbient ==> (CategoryFromString(name) == c <==> name == CategoryName(c))
  {
  }

  // ---------------------------------------------------------------------
  // Category options
  // ---------------------------------------------------------------------

  datatype CategoryOption =
    | MixWithOthers | DuckOthers | AllowBluetooth | AllowBluetoothA2DP | AllowAirPlay
    | DefaultToSpeaker | InterruptSpokenAudioAndMixWithOthers | OverrideMutedMicrophoneInterruption

  function OptionName(o: CategoryOption): string {
    match o
    case MixWithOthers => "mixWithOthers"
    case DuckOthers => "duckOthers"
    case AllowBluetooth => "allowBluetooth"
    case AllowBluetoothA2DP => "allowBluetoothA2DP"
    case AllowAirPlay => "allowAirPlay"
    case DefaultToSpeaker => "defaultToSpeaker"
    case InterruptSpokenAudioAndMixWithOthers => "interruptSpokenAudioAndMixWithOthers"
    case OverrideMutedMicrophoneInterruption => "overrideMutedMicrophoneInterruption"
  }

  /** Two options need a newer system: iOS 13 and iOS 14.5. */
  predicate OptionAvailable(o: CategoryOption, os: OsVersion) {
    match o
    case InterruptSpokenAudioAndMixWithOthers => os.AtLeast(13, 0)
    case OverrideMutedMicrophoneInterruption => os.AtLeast(14, 5)
    case _ => true
  }

  /** The option one name contributes, if any. */
  function OptionFromString(name: string, os: OsVersion): Option<CategoryOption> {
    match name
    case "mixWithOthers" => Some(MixWithOthers)
    case "duckOthers" => Some(DuckOthers)
    case "allowBluetooth" => Some(AllowBluetooth)
    case "allowBluetoothA2DP" => Some(AllowBluetoothA2DP)
    case "allowAirPlay" => Some(AllowAirPlay)
    case "defaultToSpeaker" => Some(DefaultToSpeaker)
    case "interruptSpokenAudioAndMixWithOthers" =>
      if os.AtLeast(13, 0) then Some(InterruptSpokenAudioAndMixWithOthers) else None
    case "overrideMutedMicrophoneInterruption" =>
      if os.AtLeast(14, 5) then Some(OverrideMutedMicrophoneInterruption) else None
    case _ => None
  }

  /** Each option's raw value in the framework's bitmask: one bit each,
      except that interrupting spoken audio (0x11) also sets the bit of
      mixing with others (0x1). */
  function RawValue(o: CategoryOption): bv64 {
    match o
    case MixWithOthers => 0x1
    case DuckOthers => 0x2
    case AllowBluetooth => 0x4
    case DefaultToSpeaker => 0x8
    case InterruptSpokenAudioAndMixWithOthers => 0x11
    case AllowBluetoothA2DP => 0x20
    case AllowAirPlay => 0x40
    case OverrideMutedMicrophoneInterruption => 0x80
  }

  /** The positions of the bits set in an option's raw value. */
  function RawBits(o: CategoryOption): (bits: set<nat>)
    ensures forall b: nat | b < 64 :: b in bits <==> RawValue(o) & (1 as bv64 << b) != 0
  {
    match o
    case MixWithOthers => {0}
    case DuckOthers => {1}
    case AllowBluetooth => {2}
    case DefaultToSpeaker => {3}
    case InterruptSpokenAudioAndMixWithOthers => {0, 4}
    case AllowBluetoothA2DP => {5}
    case AllowAirPlay => {6}
    case OverrideMutedMicrophoneInterruption => {7}
  }
  /** The bits an option set holds after inserting the given options: the
      union of their raw values. */
  function Mask(s: set<CategoryOption>): set<nat> {
    set o, b | o in s && b in RawBits(o) :: b
  }

  /** An option set contains an option when every bit of the option's raw
      value is set. */
  predicate Contains(mask: set<nat>, o: CategoryOption) {
    RawBits(o) <= mask
  }

  /** Inserting an option ORs in its raw value. */
  lemma MaskInsert(s: set<CategoryOption>, o: CategoryOption)
    ensures Mask(s + {o}) == Mask(s) + RawBits(o)
  {
  }

  /** The mask contains exactly the inserted options, and also mixing with
      others whenever interrupting spoken audio was inserted. */
  lemma MaskContains(s: set<CategoryOption>, o: CategoryOption)
    ensures Contains(Mask(s), o) <==> o in s || (o == MixWithOthers && InterruptSpokenAudioAndMixWithOthers in s)
  {
    var top: nat := match o
      case MixWithOthers => 0
      case DuckOthers => 1
      case AllowBluetooth => 2
      case DefaultToSpeaker => 3
      case InterruptSpokenAudioAndMixWithOthers => 4
      case AllowBluetoothA2DP => 5
      case AllowAirPlay => 6
      case OverrideMutedMicrophoneInterruption => 7;
    assert top in RawBits(o);
    if Contains(Mask(s), o) {
      assert top in Mask(s);
      var o', b :| o' in s && b in RawBits(o') && b == top;
      assert o' == o || (o == MixWithOthers && o' == InterruptSpokenAudioAndMixWithOthers);
    }
    if o in s {
      forall b | b in RawBits(o) ensures b in Mask(s) {
        assert o in s && b in RawBits(o);
      }
    }
    if o == MixWithOthers && InterruptSpokenAudioAndMixWithOthers in s {
      assert 0 in RawBits(InterruptSpokenAudioAndMixWithOthers);
    }
  }

  lemma OptionFromStringInvertsName(name: string, o: CategoryOption, os: OsVersion)
    ensures OptionFromString(name, os) == Some(o) <==> name == OptionName(o) && OptionAvailable(o, os)
  {
  }

  /** The options a list of names selects. */
  function OptionsOf(names: seq<string>, os: OsVersion): set<CategoryOption> {
    set i | 0 <= i < |names| && OptionFromString(names[i], os).Some? :: OptionFromString(names[i], os).value
  }

  /** An option is inserted exactly when its name is in the list and it is
      available: unknown names are ignored, and neither the order of the
      names nor their repetition matters. */
  lemma OptionsOfMembership(names: seq<string>, os: OsVersion)
    ensures forall o :: o in OptionsOf(names, os) <==> OptionName(o) in names && OptionAvailable(o, os)
  {
    forall o
      ensures o in OptionsOf(names, os) <==> OptionName(o) in names && OptionAvailable(o, os)
    {
      if o in OptionsOf(names, os) {
        var i :| 0 <= i < |names| && OptionFromString(names[i], os) == Some(o);
        OptionFromStringInvertsName(names[i], o, os);
      }
      if OptionName(o) in names && OptionAvailable(o, os) {
        var i :| 0 <= i < |names| && names[i] == OptionName(o);
        OptionFromStringInvertsName(names[i], o, os);
      }
    }
  }

  /** What the resulting option set contains: an available option whose
      name is listed, and mixing with others also when interrupting spoken
      audio is listed and available. */
  lemma ContainsMembership(names: seq<string>, os: OsVersion)
    ensures forall o :: Contains(Mask(OptionsOf(names, os)), o) <==>
              (OptionName(o) in names && OptionAvailable(o, os)) ||
              (o == MixWithOthers && OptionName(InterruptSpokenAudioAndMixWithOthers) in names && os.AtLeast(13, 0))
  {
    OptionsOfMembership(names, os);
    forall o: CategoryOption {
      MaskContains(OptionsOf(names, os), o);
    }
  }

  /** Asking only to interrupt spoken audio yields a set that also answers
      yes for mixing with others, from iOS 13 on. */
  lemma InterruptAlsoMixes(os: OsVersion)
    requires os.AtLeast(13, 0)
    ensures Contains(Mask(OptionsOf(["interruptSpokenAudioAndMixWithOthers"], os)), MixWithOthers)
    ensures MixWithOthers !in OptionsOf(["interruptSpokenAudioAndMixWithOthers"], os)
  {
    ContainsMembership(["interruptSpokenAudioAndMixWithOthers"], os);
    OptionsOfMembership(["interruptSpokenAudioAndMixWithOthers"], os);
  }

  lemma OptionsIgnoreOrderAndDuplicates(a: seq<string>, b: seq<string>, os: OsVersion)
    requires forall s :: s in a <==> s in b
    ensures OptionsOf(a, os) == OptionsOf(b, os)
  {
    OptionsOfMembership(a, os);
    OptionsOfMembership(b, os);
  }

  /** The options set built by inserting, name by name, what each name
      selects: `r` holds the options inserted and `mask` the resulting
      bitmask. */
  method CategoryOptionsFromStrings(names: seq<string>, os: OsVersion) returns (r: set<CategoryOption>, mask: set<nat>)
    ensures r == OptionsOf(names, os)
    ensures mask == Mask(r)
    ensures names == [] ==> r == {} && mask == {}
  {
    r := {};
    mask := {};
    var i := 0;
    while i < |names|
      invariant 0 <= i <= |names|
      invariant r == OptionsOf(names[..i], os)
      invariant mask == Mask(r)
    {
      var next := OptionFromString(names[i], os);
      ghost var before := names[..i];
      assert names[..i + 1] == before + [names[i]];
      if next.Some? {
        MaskInsert(r, next.value);
        r := r + {next.value};
        mask := mask + RawBits(next.value);
      }
      ghost var after := names[..i + 1];
      assert OptionsOf(after, os) == OptionsOf(before, os) + (if next.Some? then {next.value} else {}) by {
        forall o | o in OptionsOf(after, os)
          ensures o in OptionsOf(before, os) + (if next.Some? then {next.value} else {})
        {
          var k :| 0 <= k < |after| && OptionFromString(after[k], os).Some? && OptionFromString(after[k], os).value == o;
          if k < i {
            assert after[k] == before[k];
          }
        }
        forall o | o in OptionsOf(before, os)
          ensures o in OptionsOf(after, os)
        {
          var k :| 0 <= k < |before| && OptionFromString(before[k], os).Some? && OptionFromString(before[k], os).value == o;
          assert after[k] == before[k];
        }
        if next.Some? {
          assert after[i] == names[i];
        }
      }
      i := i + 1;
    }
    assert names[..i] == names;
  }

  /** Both newer options are dropped on iOS 12 and kept on iOS 14.5. */
  lemma GatedOptions()
    ensures var names := ["mixWithOthers", "interruptSpokenAudioAndMixWithOthers", "overrideMutedMicrophoneInterruption", "bogus"];
            OptionsOf(names, OsVersion(12, 4)) == {MixWithOthers} &&
            OptionsOf(names, OsVersion(14, 5)) ==
              {MixWithOthers, InterruptSpokenAudioAndMixWithOthers, OverrideMutedMicrophoneInterruption}
  {
    var names := ["mixWithOthers", "interruptSpokenAudioAndMixWithOthers", "overrideMutedMicrophoneInterruption", "bogus"];
    OptionsOfMembership(names, OsVersion(12, 4));
    OptionsOfMembership(names, OsVersion(14, 5));
    assert OptionName(MixWithOthers) == names[0];
    assert OptionName(InterruptSpokenAudioAndMixWithOthers) == names[1];
    assert OptionName(OverrideMutedMicrophoneInterruption) == names[2];
  }
}

=== FILE: key_provider.dfy ===
/** The React Native key provider of the end-to-end-encryption subsystem
    (src/e2ee/RNKeyProvider.ts).

    The provider resolves its options once, keeps a cache of the latest key
    index set for each participant, and forwards every key operation to the
    native key provider. The native provider is opaque here: each forwarded
    call is appended to `native`, a log of the calls in the order they were
    made, so that routing and "nothing else changes" can be stated. */
module KeyProvider {
  import opened Wrappers

  newtype byte = x: int | 0 <= x < 256
  type Bytes = seq<byte>

  const DefaultRatchetSalt: string := "LKFrameEncryptionKey"
  const DefaultMagicBytes: string := "LK-ROCKS"
  const DefaultRatchetWindowSize: int := 16
  const DefaultFailureTolerance: int := -1
  const DefaultKeyRingSize: int := 16
  const DefaultDiscardFrameWhenCryptorNotReady: bool := false

  /** `uncryptedMagicBytes` may be given as text or as raw bytes. */
  datatype MagicBytes = Text(text: string) | Raw(bytes: Bytes)

  /** Key material is handed to the native provider verbatim. */
  datatype Key = KeyText(text: string) | KeyBytes(bytes: Bytes)

  /** The caller's partial options; `None` is an unset property. */
  datatype Options = Options(
    sharedKey: Option<bool>,
    ratchetSalt: Option<string>,
    ratchetWindowSize: Option<int>,
    failureTolerance: Option<int>,
    keyringSize: Option<int>,
    discardFrameWhenCryptorNotReady: Option<bool>,
    uncryptedMagicBytes: Option<MagicBytes>)

  /** The options object handed to the base provider and the native factory. */
  datatype Resolved = Resolved(
    sharedKey: bool,
    ratchetSalt: string,
    ratchetWindowSize: int,
    failureTolerance: int,
    keyRingSize: int,
    keyringSize: int,
    discardFrameWhenCryptorNotReady: bool,
    uncryptedMagicBytes: Bytes)

  /** One call into the native key provider. */
  datatype NativeCall =
    | NativeCreateDefault(options: Resolved)
    | NativeSetSharedKey(key: Key, keyIndex: Option<int>)
    | NativeSetKey(participant: string, key: Key, keyIndex: Option<int>)
    | NativeRatchetSharedKey(keyIndex: Option<int>)
    | NativeRatchetKey(participant: string, keyIndex: Option<int>)
    | NativeSetSifTrailer(trailer: Bytes)
    | NativeDispose

  datatype KeyProvider = KeyProvider(
    options: Resolved,
    latestSetIndex: map<string, int>,
    native: seq<NativeCall>)

  // ---------------------------------------------------------------------
  // UTF-8, the encoding `TextEncoder` applies to textual magic bytes.
  // A Dafny `char` is a Unicode scalar value, so no surrogate can occur.
  // ---------------------------------------------------------------------

  function EncodeChar(c: char): (r: Bytes)
    ensures 1 <= |r| <= 4
  {
    var n := c as int;
    if n < 0x80 then [n as byte]
    else if n < 0x800 then [(0xC0 + n / 64) as byte, (0x80 + n % 64) as byte]
    else if n < 0x1_0000 then
      [(0xE0 + n / 4096) as byte, (0x80 + (n / 64) % 64) as byte, (0x80 + n % 64) as byte]
    else
      [(0xF0 + n / 262144) as byte, (0x80 + (n / 4096) % 64) as byte,
       (0x80 + (n / 64) % 64) as byte, (0x80 + n % 64) as byte]
  }

  function Utf8Encode(s: string): Bytes {
    if s == [] then [] else EncodeChar(s[0]) + Utf8Encode(s[1..])
  }

  /** The number of bytes announced by a UTF-8 lead byte, 0 for a non-lead byte. */
  function SequenceLength(b: byte): nat {
    if b < 0x80 then 1
    else if 0xC0 <= b < 0xE0 then 2
    else if 0xE0 <= b < 0xF0 then 3
    else if 0xF0 <= b < 0xF8 then 4
    else 0
  }

  function Continuation(b: byte): int { (b as int) % 64 }

  /** The scalar value of one complete UTF-8 sequence, if it is one. */
  function DecodeScalar(b: Bytes): Option<char>
    requires 1 <= |b| <= 4
  {
    var v :=
      if |b| == 1 then b[0] as int
      else if |b| == 2 then (b[0] as int - 0xC0) * 64 + Continuation(b[1])
      else if |b| == 3 then (b[0] as int - 0xE0) * 4096 + Continuation(b[1]) * 64 + Continuation(b[2])
      else (b[0] as int - 0xF0) * 262144 + Continuation(b[1]) * 4096 + Continuation(b[2]) * 64 + Continuation(b[3]);
    if 0 <= v < 0xD800 || 0xE000 <= v < 0x11_0000 then Some(v as char) else None
  }

  /** A UTF-8 decoder, the partner of `Utf8Encode`. */
  function Utf8Decode(b: Bytes): Option<string>
    decreases |b|
  {
    if b == [] then Some([])
    else
      var k := SequenceLength(b[0]);
      if k == 0 || |b| < k then None
      else match DecodeScalar(b[..k])
        case None => None
        case Some(c) =>
          match Utf8Decode(b[k..])
          case None => None
          case Some(rest) => Some([c] + rest)
  }

  lemma EncodeCharDecodes(c: char)
    ensures SequenceLength(EncodeChar(c)[0]) == |EncodeChar(c)|
    ensures DecodeScalar(EncodeChar(c)) == Some(c)
  {
    var n := c as int;
    if n < 0x80 {
    } else if n < 0x800 {
      EncodeTwoBytes(c);
    } else if n < 0x1_0000 {
      EncodeThreeBytes(c);
    } else {
      EncodeFourBytes(c);
    }
  }

  lemma EncodeTwoBytes(c: char)
    requires 0x80 <= c as int < 0x800
    ensures SequenceLength(EncodeChar(c)[0]) == 2
    ensures DecodeScalar(EncodeChar(c)) == Some(c)
  {
    var n := c as int;
    assert (n / 64) * 64 + n % 64 == n;
  }

  lemma EncodeThreeBytes(c: char)
    requires 0x800 <= c as int < 0x1_0000
    ensures SequenceLength(EncodeChar(c)[0]) == 3
    ensures DecodeScalar(EncodeChar(c)) == Some(c)
  {
    var n := c as int;
    var hi, mid, lo := n / 4096, (n / 64) % 64, n % 64;
    assert n / 64 == hi * 64 + mid;
    assert hi * 4096 + mid * 64 + lo == n;
    assert Continuation((0x80 + mid) as byte) == mid;
    assert Continuation((0x80 + lo) as byte) == lo;
  }

  lemma EncodeFourBytes(c: char)
    requires 0x1_0000 <= c as int
    ensures SequenceLength(EncodeChar(c)[0]) == 4
    ensures DecodeScalar(EncodeChar(c)) == Some(c)
  {
    var n := c as int;
    var top, hi, mid, lo := n / 262144, (n / 4096) % 64, (n / 64) % 64, n % 64;
    assert n / 4096 == top * 64 + hi;
    assert n / 64 == (n / 4096) * 64 + mid;
    assert top * 262144 + hi * 4096 + mid * 64 + lo == n;
    assert Continuation((0x80 + hi) as byte) == hi;
    assert Continuation((0x80 + mid) as byte) == mid;
    assert Continuation((0x80 + lo) as byte) == lo;
  }

  /** Decoding undoes `TextEncoder`'s encoding for every string. */
  lemma {:induction false} Utf8RoundTrip(s: string)
    ensures Utf8Decode(Utf8Encode(s)) == Some(s)
  {
    if s != [] {
      var e := EncodeChar(s[0]);
      var b := Utf8Encode(s);
      EncodeCharDecodes(s[0]);
      assert b == e + Utf8Encode(s[1..]);
      assert b[..|e|] == e;
      assert b[|e|..] == Utf8Encode(s[1..]);
      Utf8RoundTrip(s[1..]);
      assert [s[0]] + s[1..] == s;
    }
  }

  /** Every ASCII character is encoded as the single byte of its code point. */
  lemma {:induction false} AsciiEncodesBytewise(s: string)
    requires forall i :: 0 <= i < |s| ==> s[i] < 128 as char
    ensures |Utf8Encode(s)| == |s|
    ensures forall i :: 0 <= i < |s| ==> Utf8Encode(s)[i] as int == s[i] as int
  {
    if s != [] {
      AsciiEncodesBytewise(s[1..]);
      assert Utf8Encode(s) == [s[0] as int as byte] + Utf8Encode(s[1..]);
      forall i | 1 <= i < |s|
        ensures Utf8Encode(s)[i] as int == s[i] as int
      {
        assert s[1..][i - 1] == s[i];
      }
    }
  }

  // ---------------------------------------------------------------------
  // Construction
  // ---------------------------------------------------------------------

  function EncodeMagicBytes(m: MagicBytes): Bytes {
    match m
    case Text(t) => Utf8Encode(t)
    case Raw(b) => b
  }

  lemma TextMagicBytesDecode(m: MagicBytes)
    ensures m.Text? ==> Utf8Decode(EncodeMagicBytes(m)) == Some(m.text)
  {
    if m.Text? {
      Utf8RoundTrip(m.text);
    }
  }

  /** The options the constructor hands on: every unset option takes its
      default, `keyringSize` feeds both ring-size spellings, and frames are
      never discarded while a cryptor is not ready, whatever was asked. */
  function Resolve(o: Options): (r: Resolved)
    ensures o.uncryptedMagicBytes.None? ==> r.uncryptedMagicBytes == Utf8Encode(DefaultMagicBytes)
    ensures o.uncryptedMagicBytes.Some? && o.uncryptedMagicBytes.value.Text? ==>
              r.uncryptedMagicBytes == Utf8Encode(o.uncryptedMagicBytes.value.text)
    ensures r.sharedKey == o.sharedKey.GetOr(true)
    ensures r.ratchetSalt == (if o.ratchetSalt.Some? then o.ratchetSalt.value else DefaultRatchetSalt)
    ensures r.ratchetWindowSize == (if o.ratchetWindowSize.Some? then o.ratchetWindowSize.value else 16)
    ensures r.failureTolerance == (if o.failureTolerance.Some? then o.failureTolerance.value else -1)
    ensures r.keyRingSize == r.keyringSize == (if o.keyringSize.Some? then o.keyringSize.value else 16)
    ensures !r.discardFrameWhenCryptorNotReady
    ensures o.uncryptedMagicBytes.None? ==> Utf8Decode(r.uncryptedMagicBytes) == Some("LK-ROCKS")
    ensures o.uncryptedMagicBytes.Some? && o.uncryptedMagicBytes.value.Text? ==>
              Utf8Decode(r.uncryptedMagicBytes) == Some(o.uncryptedMagicBytes.value.text)
    ensures o.uncryptedMagicBytes.Some? && o.uncryptedMagicBytes.value.Raw? ==>
              r.uncryptedMagicBytes == o.uncryptedMagicBytes.value.bytes
  {
    var magic := EncodeMagicBytes(o.uncryptedMagicBytes.GetOr(Text(DefaultMagicBytes)));
    TextMagicBytesDecode(o.uncryptedMagicBytes.GetOr(Text(DefaultMagicBytes)));
    Resolved(
      o.sharedKey.GetOr(true),
      o.ratchetSalt.GetOr(DefaultRatchetSalt),
      o.ratchetWindowSize.GetOr(DefaultRatchetWindowSize),
      o.failureTolerance.GetOr(DefaultFailureTolerance),
      o.keyringSize.GetOr(DefaultKeyRingSize),
      o.keyringSize.GetOr(DefaultKeyRingSize),
      DefaultDiscardFrameWhenCryptorNotReady,
      magic)
  }

  /** The default magic bytes are the eight ASCII bytes of "LK-ROCKS". */
  lemma DefaultMagicBytesAreAscii()
    ensures Utf8Encode(DefaultMagicBytes) == [76, 75, 45, 82, 79, 67, 75, 83]
  {
    AsciiEncodesBytewise(DefaultMagicBytes);
  }

  /** A new provider: resolved options, an empty index cache, and one call
      creating the native provider from exactly those options. */
  function New(o: Options): (kp: KeyProvider)
    ensures kp.options == Resolve(o)
    ensures kp.latestSetIndex == map[]
    ensures kp.native == [NativeCreateDefault(Resolve(o))]
  {
    KeyProvider(Resolve(o), map[], [NativeCreateDefault(Resolve(o))])
  }

  // ---------------------------------------------------------------------
  // Operations
  // ---------------------------------------------------------------------

  /** The cached index for a participant, 0 when none was ever recorded. */
  function GetLatestKeyIndex(kp: KeyProvider, participant: string): int {
    if participant in kp.latestSetIndex then kp.latestSetIndex[participant] else 0
  }

  function Forward(kp: KeyProvider, c: NativeCall): (r: KeyProvider)
    ensures r.options == kp.options && r.latestSetIndex == kp.latestSetIndex
    ensures r.native == kp.native + [c]
  {
    kp.(native := kp.native + [c])
  }

  /** Sets the shared key: one native call, the index cache untouched. */
  function SetSharedKey(kp: KeyProvider, key: Key, keyIndex: Option<int>): (r: KeyProvider)
    ensures r.options == kp.options && r.latestSetIndex == kp.latestSetIndex
    ensures r.native == kp.native + [NativeSetSharedKey(key, keyIndex)]
  {
    Forward(kp, NativeSetSharedKey(key, keyIndex))
  }

  function RatchetSharedKey(kp: KeyProvider, keyIndex: Option<int>): (r: KeyProvider)
    ensures r.options == kp.options && r.latestSetIndex == kp.latestSetIndex
    ensures r.native == kp.native + [NativeRatchetSharedKey(keyIndex)]
  {
    Forward(kp, NativeRatchetSharedKey(keyIndex))
  }

  /** In shared-key mode the identity is ignored and the shared key is set;
      otherwise the participant's key is set and `keyIndex ?? 0` is recorded
      for that participant only. The native call receives the index as given. */
  function SetKey(kp: KeyProvider, participant: string, key: Key, keyIndex: Option<int>): (r: KeyProvider)
    ensures r.options == kp.options
    ensures kp.options.sharedKey ==> r == SetSharedKey(kp, key, keyIndex)
    ensures !kp.options.sharedKey ==> r.native == kp.native + [NativeSetKey(participant, key, keyIndex)]
    ensures !kp.options.sharedKey ==> GetLatestKeyIndex(r, participant) == keyIndex.GetOr(0)
    ensures forall p :: p != participant ==> GetLatestKeyIndex(r, p) == GetLatestKeyIndex(kp, p)
  {
    if kp.options.sharedKey then SetSharedKey(kp, key, keyIndex)
    else
      Forward(kp.(latestSetIndex := kp.latestSetIndex[participant := keyIndex.GetOr(0)]),
              NativeSetKey(participant, key, keyIndex))
  }

  /** The per-participant native ratchet runs only outside shared-key mode
      and only for a non-empty identity (the source tests the identity for
      truthiness, so the empty string counts as absent); every other call
      ratchets the shared key. The index cache never changes. */
  function RatchetKey(kp: KeyProvider, participant: Option<string>, keyIndex: Option<int>): (r: KeyProvider)
    ensures r.options == kp.options && r.latestSetIndex == kp.latestSetIndex
    ensures |r.native| == |kp.native| + 1 && r.native[..|kp.native|] == kp.native
    ensures r.native[|kp.native|].NativeRatchetKey? <==>
              !kp.options.sharedKey && participant.Some? && participant.value != ""
    ensures r.native[|kp.native|].NativeRatchetKey? ==>
              r.native[|kp.native|] == NativeRatchetKey(participant.value, keyIndex)
    ensures !r.native[|kp.native|].NativeRatchetKey? ==>
              r.native[|kp.native|] == NativeRatchetSharedKey(keyIndex)
  {
    if !kp.options.sharedKey && participant.Some? && participant.value != "" then
      Forward(kp, NativeRatchetKey(participant.value, keyIndex))
    else
      RatchetSharedKey(kp, keyIndex)
  }

  function SetSifTrailer(kp: KeyProvider, trailer: Bytes): (r: KeyProvider)
    ensures r.options == kp.options && r.latestSetIndex == kp.latestSetIndex
    ensures r.native == kp.native + [NativeSetSifTrailer(trailer)]
  {
    Forward(kp, NativeSetSifTrailer(trailer))
  }

  function Dispose(kp: KeyProvider): (r: KeyProvider)
    ensures r.options == kp.options && r.latestSetIndex == kp.latestSetIndex
    ensures r.native == kp.native + [NativeDispose]
  {
    Forward(kp, NativeDispose)
  }

  // ---------------------------------------------------------------------
  // Properties over sequences of operations
  // ---------------------------------------------------------------------

  datatype Op =
    | OpSetSharedKey(key: Key, keyIndex: Option<int>)
    | OpSetKey(participant: string, key: Key, keyIndex: Option<int>)
    | OpRatchetKey(identity: Option<string>, keyIndex: Option<int>)
    | OpRatchetSharedKey(keyIndex: Option<int>)
    | OpSetSifTrailer(trailer: Bytes)

  function Step(kp: KeyProvider, op: Op): KeyProvider {
    match op
    case OpSetSharedKey(k, i) => SetSharedKey(kp, k, i)
    case OpSetKey(p, k, i) => SetKey(kp, p, k, i)
    case OpRatchetKey(p, i) => RatchetKey(kp, p, i)
    case OpRatchetSharedKey(i) => RatchetSharedKey(kp, i)
    case OpSetSifTrailer(t) => SetSifTrailer(kp, t)
  }

  function Run(kp: KeyProvider, ops: seq<Op>): KeyProvider
    decreases |ops|
  {
    if ops == [] then kp else Run(Step(kp, ops[0]), ops[1..])
  }

  /** Shared-key mode and per-participant mode never mix: a provider in
      shared-key mode keeps its index cache as it was through any sequence of
      operations, and never issues a per-participant native call. */
  lemma {:induction false} SharedModeNeverDiverges(kp: KeyProvider, ops: seq<Op>)
    requires kp.options.sharedKey
    ensures Run(kp, ops).options == kp.options
    ensures Run(kp, ops).latestSetIndex == kp.latestSetIndex
    ensures |Run(kp, ops).native| == |kp.native| + |ops|
    ensures Run(kp, ops).native[..|kp.native|] == kp.native
    ensures forall i :: |kp.native| <= i < |Run(kp, ops).native| ==>
              !Run(kp, ops).native[i].NativeSetKey? && !Run(kp, ops).native[i].NativeRatchetKey?
    decreases |ops|
  {
    if ops != [] {
      var next := Step(kp, ops[0]);
      assert next.native[..|kp.native|] == kp.native;
      SharedModeNeverDiverges(next, ops[1..]);
      var r := Run(kp, ops).native;
      assert r[..|next.native|] == next.native;
      assert r[|kp.native|] == next.native[|kp.native|];
      assert r[..|kp.native|] == next.native[..|kp.native|];
    }
  }

  /** In shared-key mode, setting a participant's key is observably the same
      as setting the shared key. */
  lemma SharedModeSetKeyIsSetSharedKey(kp: KeyProvider, participant: string, key: Key, keyIndex: Option<int>)
    requires kp.options.sharedKey
    ensures SetKey(kp, participant, key, keyIndex) == SetSharedKey(kp, key, keyIndex)
  {
  }

  /** End-to-end: a per-participant provider given key index 2 for "alice"
      reports 2 for her and the default 0 for "bob". */
  lemma PerParticipantScenario(key: Key)
    ensures var kp := New(Options(Some(false), None, None, None, None, None, None));
            var kp' := SetKey(kp, "alice", key, Some(2));
            GetLatestKeyIndex(kp', "alice") == 2 && GetLatestKeyIndex(kp', "bob") == 0
  {
  }
}

=== FILE: media_recorder.dfy ===
/** The audio-only `MediaRecorder` (src/audio/MediaRecorder.ts).

    Starting the recorder asks the native side for an audio sink on the
    stream's single audio track and listens for the `LK_AUDIO_DATA` events
    it sends; while recording, every chunk addressed to the recorder's tag
    is buffered, and stopping (or requesting data) hands the concatenated
    buffer out as one `dataavailable` event. Chunks stay base64 strings: the
    decoding into bytes is not modelled. The tag the native side returns is
    a parameter of `Start`. */
module MediaRecorder {
  import opened Wrappers

  datatype RecorderState = Inactive | Recording | Paused

  /** An audio track of the recorded stream; a track without a peer
      connection is a local one. */
  datatype AudioTrack = AudioTrack(peerConnectionId: Option<int>, id: string)

  /** The events the recorder dispatches and the native calls it makes, in
      one log so that their relative order can be stated. */
  datatype Effect =
    | CreateAudioSinkListener(peerConnectionId: int, trackId: string)
    | DeleteAudioSinkListener(tag: string, peerConnectionId: int, trackId: string)
    | StartEvent | PauseEvent | ResumeEvent | StopEvent
    | DataAvailable(data: string)

  datatype Recorder = Recorder(
    state: RecorderState,
    audioTracks: seq<AudioTrack>,
    reactTag: Option<string>,
    parts: seq<string>,
    handlers: nat,          // how many LK_AUDIO_DATA handlers are installed
    log: seq<Effect>)

  function New(audioTracks: seq<AudioTrack>): (r: Recorder)
    ensures r.state == Inactive && r.parts == [] && r.reactTag.None? && r.handlers == 0 && r.log == []
  {
    Recorder(Inactive, audioTracks, None, [], 0, [])
  }

  /** A tag counts as set when it is present and not empty. */
  predicate TagSet(r: Recorder) {
    r.reactTag.Some? && r.reactTag.value != ""
  }

  function PeerConnectionOf(t: AudioTrack): int {
    t.peerConnectionId.GetOr(-1)
  }

  /** Creates a native sink for the single audio track, stores its tag and
      installs one more data handler; does nothing unless the stream has
      exactly one audio track. */
  function RegisterListener(r: Recorder, tag: string): (r': Recorder)
    ensures |r.audioTracks| != 1 ==> r' == r
    ensures |r.audioTracks| == 1 ==>
              r'.reactTag == Some(tag) && r'.handlers == r.handlers + 1 &&
              r'.log == r.log + [CreateAudioSinkListener(PeerConnectionOf(r.audioTracks[0]), r.audioTracks[0].id)]
    ensures r'.state == r.state && r'.parts == r.parts && r'.audioTracks == r.audioTracks
  {
    if |r.audioTracks| != 1 then r
    else
      var t := r.audioTracks[0];
      r.(reactTag := Some(tag), handlers := r.handlers + 1,
         log := r.log + [CreateAudioSinkListener(PeerConnectionOf(t), t.id)])
  }

  /** Deletes the native sink when a tag is set and the stream still has
      exactly one audio track. The tag and the handlers stay. */
  function UnregisterListener(r: Recorder): (r': Recorder)
    ensures TagSet(r) && |r.audioTracks| == 1 ==>
              r'.log == r.log + [DeleteAudioSinkListener(r.reactTag.value, PeerConnectionOf(r.audioTracks[0]), r.audioTracks[0].id)]
    ensures !(TagSet(r) && |r.audioTracks| == 1) ==> r' == r
    ensures r'.(log := r.log) == r
  {
    if TagSet(r) && |r.audioTracks| == 1 then
      var t := r.audioTracks[0];
      r.(log := r.log + [DeleteAudioSinkListener(r.reactTag.value, PeerConnectionOf(t), t.id)])
    else r
  }

  function Start(r: Recorder, tag: string): (r': Recorder)
    ensures r'.state == Recording && r'.parts == r.parts
    ensures r'.log == RegisterListener(r, tag).log + [StartEvent]
    ensures r'.handlers == r.handlers + (if |r.audioTracks| == 1 then 1 else 0)
  {
    var s := RegisterListener(r, tag);
    s.(state := Recording, log := s.log + [StartEvent])
  }

  function Pause(r: Recorder): (r': Recorder)
    ensures r' == r.(state := Paused, log := r.log + [PauseEvent])
  {
    r.(state := Paused, log := r.log + [PauseEvent])
  }

  function Resume(r: Recorder): (r': Recorder)
    ensures r' == r.(state := Recording, log := r.log + [ResumeEvent])
  {
    r.(state := Recording, log := r.log + [ResumeEvent])
  }

  /** The buffered chunks, concatenated in order. */
  function Concat(parts: seq<string>): string
    decreases |parts|
  {
    if parts == [] then "" else Concat(parts[..|parts| - 1]) + parts[|parts| - 1]
  }

  lemma ConcatAppend(parts: seq<string>, chunk: string)
    ensures Concat(parts + [chunk]) == Concat(parts) + chunk
  {
    assert (parts + [chunk])[..|parts|] == parts;
  }

  /** Hands out everything buffered, in order, and empties the buffer. */
  function DispatchData(r: Recorder): (r': Recorder)
    ensures r'.parts == []
    ensures r'.log == r.log + [DataAvailable(Concat(r.parts))]
    ensures r'.(parts := r.parts, log := r.log) == r
  {
    r.(parts := [], log := r.log + [DataAvailable(Concat(r.parts))])
  }

  /** An explicit request hands out the buffered data exactly as the
      recorder does on its own: the in-order concatenation, buffer emptied. */
  function RequestData(r: Recorder): (r': Recorder)
    ensures r'.parts == []
    ensures r'.log == r.log + [DataAvailable(Concat(r.parts))]
    ensures r'.(parts := r.parts, log := r.log) == r
  {
    DispatchData(r)
  }

  /** Stopping first hands out the buffered data, then deletes the sink,
      then becomes inactive and says so. */
  function Stop(r: Recorder): (r': Recorder)
    ensures r'.state == Inactive && r'.parts == []
    ensures var deleted := if TagSet(r) && |r.audioTracks| == 1
                           then [DeleteAudioSinkListener(r.reactTag.value, PeerConnectionOf(r.audioTracks[0]), r.audioTracks[0].id)]
                           else [];
            r'.log == r.log + [DataAvailable(Concat(r.parts))] + deleted + [StopEvent]
    ensures r'.reactTag == r.reactTag && r'.handlers == r.handlers
  {
    var d := UnregisterListener(DispatchData(r));
    d.(state := Inactive, log := d.log + [StopEvent])
  }

  /** One `LK_AUDIO_DATA` event: every installed handler appends the chunk
      when the tag is set, the event is addressed to it and the recorder is
      recording. */
  function OnAudioData(r: Recorder, id: string, data: string): (r': Recorder)
    ensures TagSet(r) && Some(id) == r.reactTag && r.state == Recording ==>
              r'.parts == r.parts + seq(r.handlers, _ => data)
    ensures !(TagSet(r) && Some(id) == r.reactTag && r.state == Recording) ==> r' == r
    ensures r'.(parts := r.parts) == r
  {
    if TagSet(r) && Some(id) == r.reactTag && r.state == Recording then
      r.(parts := r.parts + seq(r.handlers, _ => data))
    else r
  }

  /** Chunks addressed to the recorder, delivered while it records. */
  function Deliver(r: Recorder, chunks: seq<string>): Recorder
    decreases |chunks|
  {
    if chunks == [] then r
    else Deliver(OnAudioData(r, r.reactTag.GetOr(""), chunks[0]), chunks[1..])
  }

  lemma {:induction false} DeliverBuffers(r: Recorder, chunks: seq<string>)
    requires TagSet(r) && r.state == Recording && r.handlers == 1
    ensures Deliver(r, chunks).parts == r.parts + chunks
    ensures Deliver(r, chunks).(parts := r.parts) == r
    decreases |chunks|
  {
    if chunks != [] {
      var next := OnAudioData(r, r.reactTag.GetOr(""), chunks[0]);
      assert seq(1, _ => chunks[0]) == [chunks[0]];
      DeliverBuffers(next, chunks[1..]);
      assert r.parts + [chunks[0]] + chunks[1..] == r.parts + chunks;
    }
  }

  /** A first recording of a one-track stream hands out, on stop, exactly
      the chunks received, in order, and deletes the sink it created. */
  lemma {:induction false} RecordingRoundTrip(track: AudioTrack, tag: string, chunks: seq<string>)
    requires tag != ""
    ensures var r := Stop(Deliver(Start(New([track]), tag), chunks));
            r.state == Inactive &&
            r.log == [CreateAudioSinkListener(PeerConnectionOf(track), track.id), StartEvent,
                      DataAvailable(Concat(chunks)),
                      DeleteAudioSinkListener(tag, PeerConnectionOf(track), track.id), StopEvent]
  {
    var started := Start(New([track]), tag);
    DeliverBuffers(started, chunks);
    assert [] + chunks == chunks;
  }

  /** A stream without exactly one audio track records nothing: no sink is
      created and no chunk is ever buffered. */
  lemma NoSingleTrackRecordsNothing(tracks: seq<AudioTrack>, tag: string, id: string, data: string)
    requires |tracks| != 1
    ensures var r := Start(New(tracks), tag);
            r.log == [StartEvent] && OnAudioData(r, id, data).parts == []
  {
  }

  /** The handler installed by a first `start` is never removed, so after a
      restart each chunk is buffered twice. */
  lemma RestartDuplicatesChunks(track: AudioTrack, tag: string, data: string)
    requires tag != ""
    ensures var r := Start(Stop(Start(New([track]), tag)), tag);
            r.handlers == 2 && OnAudioData(r, tag, data).parts == [data, data]
  {
    var r := Start(Stop(Start(New([track]), tag)), tag);
    assert seq(2, _ => data) == [data, data];
  }

  /** While paused nothing is buffered; resuming buffers again. */
  lemma PausedIgnoresChunks(r: Recorder, data: string)
    requires TagSet(r)
    ensures OnAudioData(Pause(r), r.reactTag.value, data).parts == r.parts
    ensures r.handlers == 1 ==> OnAudioData(Resume(r), r.reactTag.value, data).parts == r.parts + [data]
  {
    assert seq(1, _ => data) == [data];
  }
}

=== FILE: participant_order.dfy ===
/** The participant ordering of the room hook (src/useRoom.ts).

    `Compare` is the default comparator; `Sort` is a stable sort by it, as
    `Array.prototype.sort` is; `PlaceLocal` then moves the local participant
    to the second slot. A `Date` becomes its millisecond time, and the
    comparator's identity test on two `lastSpokeAt` dates is read as "at
    least one of the two is set": two different participants never share
    one `Date` object, and a participant compared with itself gets 0 on
    either reading. */
module ParticipantOrder {
  import opened Wrappers

  datatype Participant = Participant(
    identity: string,
    isSpeaking: bool,
    audioLevel: real,
    lastSpokeAt: Option<int>,
    videoTrackCount: nat,
    joinedAt: Option<int>)

  /** A date's time in milliseconds, 0 when absent (the source's `?? 0`). */
  function Millis(d: Option<int>): int {
    d.GetOr(0)
  }

  /** The default comparator: negative when `a` goes first. */
  function Compare(a: Participant, b: Participant): real {
    if a.isSpeaking && b.isSpeaking then b.audioLevel - a.audioLevel
    else if a.isSpeaking != b.isSpeaking then (if a.isSpeaking then -1.0 else 1.0)
    else if a.lastSpokeAt.Some? || b.lastSpokeAt.Some? then (Millis(b.lastSpokeAt) - Millis(a.lastSpokeAt)) as real
    else if (a.videoTrackCount > 0) != (b.videoTrackCount > 0) then (if a.videoTrackCount > 0 then -1.0 else 1.0)
    else (Millis(a.joinedAt) - Millis(b.joinedAt)) as real
  }

  /** `a` may stay before `b`. */
  predicate Leq(a: Participant, b: Participant) {
    Compare(a, b) <= 0.0
  }

  /** Swapping the arguments negates the comparator, so any two participants
      are ordered one way or the other and a participant ties with itself. */
  lemma CompareAntisymmetric(a: Participant, b: Participant)
    ensures Compare(a, b) == -Compare(b, a)
    ensures Leq(a, b) || Leq(b, a)
    ensures Compare(a, a) == 0.0
  {
  }

  /** A `lastSpokeAt` time of zero or earlier is indistinguishable from
      "never spoke" by the `?? 0` default; the comparator is transitive only
      when every recorded time is later than that. */
  predicate SpokeAfterEpoch(p: Participant) {
    p.lastSpokeAt.Some? ==> p.lastSpokeAt.value > 0
  }

  /** The comparator's order, spelled out rank by rank, for participants
      whose recorded speaking times are positive: speakers first, louder
      speakers before quieter ones; then those who spoke before, most recent
      first, with no further tie-break; then video on before off; then
      earlier joiners first. */
  predicate RankedBefore(a: Participant, b: Participant) {
    if a.isSpeaking != b.isSpeaking then a.isSpeaking
    else if a.isSpeaking then a.audioLevel >= b.audioLevel
    else if a.lastSpokeAt.Some? != b.lastSpokeAt.Some? then a.lastSpokeAt.Some?
    else if a.lastSpokeAt.Some? then a.lastSpokeAt.value >= b.lastSpokeAt.value
    else if (a.videoTrackCount > 0) != (b.videoTrackCount > 0) then a.videoTrackCount > 0
    else Millis(a.joinedAt) <= Millis(b.joinedAt)
  }

  lemma LeqIsRankedBefore(a: Participant, b: Participant)
    requires SpokeAfterEpoch(a) && SpokeAfterEpoch(b)
    ensures Leq(a, b) <==> RankedBefore(a, b)
  {
  }

  lemma LeqTransitive(a: Participant, b: Participant, c: Participant)
    requires SpokeAfterEpoch(a) && SpokeAfterEpoch(b) && SpokeAfterEpoch(c)
    requires Leq(a, b) && Leq(b, c)
    ensures Leq(a, c)
  {
    LeqIsRankedBefore(a, b);
    LeqIsRankedBefore(b, c);
    LeqIsRankedBefore(a, c);
  }

  /** With a speaking time of zero, "spoke at the epoch" ties with everyone
      who never spoke while those still differ among themselves by video. */
  lemma ZeroSpeakingTimeBreaksTransitivity()
    ensures var withVideo := Participant("a", false, 0.0, None, 1, None);
            var epoch := Participant("b", false, 0.0, Some(0), 0, None);
            var noVideo := Participant("c", false, 0.0, None, 0, None);
            Leq(noVideo, epoch) && Leq(epoch, withVideo) && !Leq(noVideo, withVideo)
  {
  }

  // ---------------------------------------------------------------------
  // Stable sort
  // ---------------------------------------------------------------------

  predicate Sorted(s: seq<Participant>) {
    forall i :: 0 <= i < |s| - 1 ==> Leq(s[i], s[i + 1])
  }

  predicate SortedPairwise(s: seq<Participant>) {
    forall i, j :: 0 <= i < j < |s| ==> Leq(s[i], s[j])
  }

  predicate AllSpokeAfterEpoch(s: seq<Participant>) {
    forall i :: 0 <= i < |s| ==> SpokeAfterEpoch(s[i])
  }

  /** Inserts `x` before the first element it may precede; ties keep `x`
      first, which is what makes `Sort` stable. */
  function Insert(x: Participant, s: seq<Participant>): (r: seq<Participant>)
    ensures multiset(r) == multiset(s) + multiset{x}
    ensures |r| == |s| + 1
    decreases |s|
  {
    if s == [] then [x]
    else if Leq(x, s[0]) then [x] + s
    else
      assert s == [s[0]] + s[1..];
      [s[0]] + Insert(x, s[1..])
  }

  function Sort(s: seq<Participant>): (r: seq<Participant>)
    ensures multiset(r) == multiset(s)
    ensures |r| == |s|
    decreases |s|
  {
    if s == [] then []
    else
      assert s == [s[0]] + s[1..];
      Insert(s[0], Sort(s[1..]))
  }

  lemma {:induction false} InsertSorted(x: Participant, s: seq<Participant>)
    requires Sorted(s)
    ensures Sorted(Insert(x, s))
    ensures Insert(x, s)[0] == x || (s != [] && Insert(x, s)[0] == s[0])
    decreases |s|
  {
    if s != [] && !Leq(x, s[0]) {
      CompareAntisymmetric(x, s[0]);
      InsertSorted(x, s[1..]);
    }
  }

  /** Each neighbour pair of the result is in comparator order. */
  lemma {:induction false} SortSorted(s: seq<Participant>)
    ensures Sorted(Sort(s))
    decreases |s|
  {
    if s != [] {
      SortSorted(s[1..]);
      InsertSorted(s[0], Sort(s[1..]));
    }
  }

  lemma {:induction false} SortedIsPairwise(s: seq<Participant>)
    requires Sorted(s) && AllSpokeAfterEpoch(s)
    ensures SortedPairwise(s)
  {
    forall i, j | 0 <= i < j < |s|
      ensures Leq(s[i], s[j])
    {
      var k := i + 1;
      while k < j
        invariant i < k <= j
        invariant Leq(s[i], s[k])
      {
        LeqTransitive(s[i], s[k], s[k + 1]);
        k := k + 1;
      }
    }
  }

  /** When every recorded speaking time is positive, every earlier element
      of the result may precede every later one, so speakers come before
      non-speakers and louder speakers before quieter ones. */
  lemma SortOrdersByRank(s: seq<Participant>)
    requires AllSpokeAfterEpoch(s)
    ensures SortedPairwise(Sort(s))
    ensures forall i, j :: 0 <= i < j < |s| && Sort(s)[j].isSpeaking ==> Sort(s)[i].isSpeaking
    ensures forall i, j :: 0 <= i < j < |s| && Sort(s)[i].isSpeaking && Sort(s)[j].isSpeaking ==>
              Sort(s)[i].audioLevel >= Sort(s)[j].audioLevel
  {
    var r := Sort(s);
    SortSorted(s);
    forall i | 0 <= i < |r|
      ensures SpokeAfterEpoch(r[i])
    {
      assert r[i] in multiset(s);
    }
    SortedIsPairwise(r);
    forall i, j | 0 <= i < j < |r|
      ensures Leq(r[i], r[j])
    {
    }
  }

  // ---------------------------------------------------------------------
  // Placing the local participant
  // ---------------------------------------------------------------------

  /** The first position of `x` in `s`, -1 when absent. */
  function IndexOf(s: seq<Participant>, x: Participant): (i: int)
    ensures -1 <= i < |s|
    ensures i >= 0 ==> s[i] == x && x !in s[..i]
    ensures i == -1 <==> x !in s
    decreases |s|
  {
    if s == [] then -1
    else if s[0] == x then 0
    else
      var k := IndexOf(s[1..], x);
      assert k >= 0 ==> s[1..][..k] == s[1..k + 1];
      if k == -1 then -1 else k + 1
  }

  function RemoveAt(s: seq<Participant>, i: nat): seq<Participant>
    requires i < |s|
  {
    s[..i] + s[i + 1..]
  }

  /** Takes the local participant out of the sorted list and puts it back
      second, or first when it is the only one; without a local participant,
      or when it is not in the list, nothing changes. */
  function PlaceLocal(s: seq<Participant>, local: Option<Participant>): (r: seq<Participant>)
    ensures local.None? || local.value !in s ==> r == s
    ensures |r| == |s|
  {
    if local.None? then s
    else
      var i := IndexOf(s, local.value);
      if i < 0 then s
      else
        var rest := RemoveAt(s, i);
        if |rest| > 0 then rest[..1] + [local.value] + rest[1..] else [local.value]
  }

  lemma MultisetRemoveAt(s: seq<Participant>, i: nat)
    requires i < |s|
    ensures multiset(s) == multiset(RemoveAt(s, i)) + multiset{s[i]}
  {
    assert s == s[..i] + [s[i]] + s[i + 1..];
  }

  lemma MultisetInsertSecond(rest: seq<Participant>, x: Participant)
    requires |rest| > 0
    ensures multiset(rest[..1] + [x] + rest[1..]) == multiset(rest) + multiset{x}
    ensures RemoveAt(rest[..1] + [x] + rest[1..], 1) == rest
  {
    assert rest == rest[..1] + rest[1..];
    var r := rest[..1] + [x] + rest[1..];
    assert r[..1] == rest[..1];
    assert r[2..] == rest[1..];
  }

  /** When the local participant is in the list, it ends up second (first
      when alone), the list keeps the same participants, and the others keep
      their order. */
  lemma PlaceLocalMovesLocal(s: seq<Participant>, local: Participant)
    requires local in s
    ensures var r := PlaceLocal(s, Some(local));
            var pos := if |s| >= 2 then 1 else 0;
            multiset(r) == multiset(s) && r[pos] == local &&
            RemoveAt(r, pos) == RemoveAt(s, IndexOf(s, local))
  {
    var i := IndexOf(s, local);
    var rest := RemoveAt(s, i);
    MultisetRemoveAt(s, i);
    if |rest| > 0 {
      MultisetInsertSecond(rest, local);
    }
  }

  /** The default sort: comparator order, then the local participant second. */
  function SortParticipants(s: seq<Participant>, local: Option<Participant>): seq<Participant> {
    PlaceLocal(Sort(s), local)
  }

  /** The participant list the hook publishes when participants change: the
      local participant plus every remote one, sorted by default. */
  function OnParticipantsChanged(local: Participant, remotes: seq<Participant>): seq<Participant> {
    SortParticipants([local] + remotes, Some(local))
  }

  /** The published list holds exactly the local and the remote participants,
      with the local one second whenever anyone else is in the room and first
      otherwise. */
  lemma ParticipantsChangedPlacesLocal(local: Participant, remotes: seq<Participant>)
    ensures var r := OnParticipantsChanged(local, remotes);
            multiset(r) == multiset{local} + multiset(remotes) &&
            |r| == |remotes| + 1 &&
            r[if remotes == [] then 0 else 1] == local
  {
    var s := Sort([local] + remotes);
    assert local in multiset([local] + remotes);
    assert local in s;
    PlaceLocalMovesLocal(s, local);
  }

  /** The other participants keep their comparator order around the local
      one: the list without the local participant is sorted when the speaking
      times are positive. */
  lemma ParticipantsChangedOrdersOthers(local: Participant, remotes: seq<Participant>)
    requires SpokeAfterEpoch(local) && AllSpokeAfterEpoch(remotes)
    ensures var r := OnParticipantsChanged(local, remotes);
            SortedPairwise(RemoveAt(r, if remotes == [] then 0 else 1))
  {
    var input := [local] + remotes;
    forall i | 0 <= i < |input|
      ensures SpokeAfterEpoch(input[i])
    {
      if i > 0 { assert input[i] == remotes[i - 1]; }
    }
    SortOrdersByRank(input);
    var s := Sort(input);
    assert local in multiset(input);
    assert local in s;
    PlaceLocalMovesLocal(s, local);
    RemoveAtKeepsSorted(s, IndexOf(s, local));
  }

  lemma RemoveAtKeepsSorted(s: seq<Participant>, k: nat)
    requires k < |s| && SortedPairwise(s)
    ensures SortedPairwise(RemoveAt(s, k))
  {
    var rest := RemoveAt(s, k);
    forall i, j | 0 <= i < j < |rest|
      ensures Leq(rest[i], rest[j])
    {
      var i' := if i < k then i else i + 1;
      var j' := if j < k then j else j + 1;
      assert rest[i] == s[i'] && rest[j] == s[j'];
    }
  }

  /** An example: a quiet local participant goes second behind a remote
      speaker even though it joined first. */
  lemma LocalSecondBehindSpeaker()
    ensures var me := Participant("me", false, 0.0, None, 1, Some(1));
            var loud := Participant("loud", true, 0.9, Some(100), 0, Some(5));
            var idle := Participant("idle", false, 0.0, None, 0, Some(3));
            OnParticipantsChanged(me, [idle, loud]) == [loud, me, idle]
  {
    var me := Participant("me", false, 0.0, None, 1, Some(1));
    var loud := Participant("loud", true, 0.9, Some(100), 0, Some(5));
    var idle := Participant("idle", false, 0.0, None, 0, Some(3));
    assert [idle, loud][1..] == [loud];
    assert [me, idle, loud][1..] == [idle, loud];
    assert Sort([loud]) == [loud];
    assert Insert(idle, [loud]) == [loud, idle];
    assert Sort([idle, loud]) == [loud, idle];
    assert Insert(me, [idle]) == [me, idle];
    assert Insert(me, [loud, idle]) == [loud, me, idle];
    assert Sort([me, idle, loud]) == [loud, me, idle];
    assert IndexOf([loud, me, idle], me) == 1;
  }
}

=== FILE: sink_registry.dfy ===
/** What the Android sink registry
    (android/.../audio/processing/AudioSinkManager.kt) and the iOS renderer
    registry (ios/audio/AudioRendererManager.swift) have in common: a map
    from a random tag to an audio sink (a renderer on iOS), and the routing
    of a sink to a track. A sink is an object, so it is modelled by its
    identity. Tags come from a UUID generator and are a parameter here. */
module AudioSinks {
  import opened Wrappers

  /** The identity of a sink or renderer object. */
  type Sink = nat

  type Registry = map<string, Sink>

  /** The peer-connection id that stands for the local (microphone) track. */
  const LOCAL_PC_ID: int := -1

  /** Where a sink is attached: the local samples dispatcher (the local
      processing manager on iOS), or a remote track itself. */
  datatype Route = LocalDispatcher | TrackSinks(pcId: int, trackId: string)

  /** One native attachment change. */
  datatype Routing = AddSink(added: Sink, to: Route) | RemoveSink(removed: Sink, from: Route)

  function RouteFor(pcId: int, trackId: string): (r: Route)
    ensures r.LocalDispatcher? <==> pcId == LOCAL_PC_ID
    ensures r.TrackSinks? ==> r.pcId == pcId && r.trackId == trackId
  {
    if pcId == LOCAL_PC_ID then LocalDispatcher else TrackSinks(pcId, trackId)
  }

  datatype Registered = Registered(registry: Registry, tag: string)


  /** Stores the sink under the tag and hands the tag back. */
  function Register(reg: Registry, sink: Sink, tag: string): (r: Registered)
    ensures r.tag == tag && r.tag in r.registry && r.registry[r.tag] == sink
    ensures r.registry.Keys == reg.Keys + {tag}
    ensures forall k :: k in reg && k != tag ==> r.registry[k] == reg[k]
    ensures tag !in reg ==> |r.registry| == |reg| + 1
  {
    Registered(reg[tag := sink], tag)
  }

  /** Forgets one tag; an unknown tag changes nothing. */
  function UnregisterTag(reg: Registry, tag: string): (r: Registry)
    ensures r.Keys == reg.Keys - {tag}
    ensures forall k :: k in r ==> r[k] == reg[k]
    ensures tag !in reg ==> r == reg
  {
    reg - {tag}
  }

  /** The registry with every tag of the sink removed, every other tag
      kept. */
  function WithoutSink(reg: Registry, sink: Sink): (r: Registry)
    ensures forall k :: k in r <==> k in reg && reg[k] != sink
    ensures forall k :: k in r ==> r[k] == reg[k]
  {
    map k | k in reg && reg[k] != sink :: reg[k]
  }

  function GetSink(reg: Registry, tag: string): (r: Option<Sink>)
    ensures r.Some? <==> tag in reg
    ensures r.Some? ==> r.value == reg[tag]
  {
    if tag in reg then Some(reg[tag]) else None
  }

  /** The registry hands back the sink under the tag it returned, and
      unregistering a fresh tag undoes the registration. */
  lemma RegisterRoundTrip(reg: Registry, sink: Sink, tag: string)
    ensures var r := Register(reg, sink, tag);
            GetSink(r.registry, r.tag) == Some(sink) &&
            (tag !in reg ==> UnregisterTag(r.registry, r.tag) == reg)
  {
  }

  /** After a sink is unregistered by value no tag finds it, whichever tags
      it was registered under, and doing it again changes nothing. */
  lemma WithoutSinkForgetsIt(reg: Registry, sink: Sink, tag: string)
    ensures GetSink(WithoutSink(reg, sink), tag) != Some(sink)
    ensures WithoutSink(WithoutSink(reg, sink), sink) == WithoutSink(reg, sink)
  {
    var once := WithoutSink(reg, sink);
    assert WithoutSink(once, sink).Keys == once.Keys;
  }

  /** Unregistering a sink by value also removes a tag it was just
      registered under. */
  lemma WithoutSinkUndoesRegister(reg: Registry, sink: Sink, tag: string)
    ensures WithoutSink(Register(reg, sink, tag).registry, sink) == WithoutSink(UnregisterTag(reg, tag), sink)
  {
    var a := WithoutSink(Register(reg, sink, tag).registry, sink);
    var b := WithoutSink(UnregisterTag(reg, tag), sink);
    assert a.Keys == b.Keys;
  }

  /** The sinks attached to each route, as a set of pairs. */
  type Attachments = set<(Route, Sink)>

  function Apply(a: Attachments, r: Routing): (a': Attachments)
    ensures r.AddSink? ==> a' == a + {(r.to, r.added)}
    ensures r.RemoveSink? ==> a' == a - {(r.from, r.removed)}
  {
    match r
    case AddSink(s, to) => a + {(to, s)}
    case RemoveSink(s, from) => a - {(from, s)}
  }
}

/** The Android registry (AudioSinkManager.kt). The WebRTC module and the
    audio tracks it knows are the environment. */
module AudioSinkManager {
  import opened Wrappers
  import opened AudioSinks

  datatype Environment = Environment(hasWebRTCModule: bool, audioTracks: set<(int, string)>)

  /** Unregistering by value: every key found for the sink is removed, one
      at a time. */
  method UnregisterSink(reg: Registry, sink: Sink) returns (r: Registry)
    ensures r == WithoutSink(reg, sink)
  {
    var keysToRemove := set k | k in reg && reg[k] == sink;
    r := reg;
    while keysToRemove != {}
      invariant keysToRemove <= r.Keys
      invariant forall k :: k in r ==> k in reg && r[k] == reg[k]
      invariant forall k :: k in reg && reg[k] != sink ==> k in r
      invariant forall k :: k in r && reg[k] == sink ==> k in keysToRemove
      decreases keysToRemove
    {
      var key :| key in keysToRemove;
      r := UnregisterTag(r, key);
      keysToRemove := keysToRemove - {key};
    }
  }

  /** Attaching needs the WebRTC module and the audio track; the local
      track's samples come from the shared dispatcher, a remote track takes
      the sink itself. */
  function AttachSinkToTrack(env: Environment, sink: Sink, pcId: int, trackId: string): (r: Result<Routing>)
    ensures r.Ok? <==> env.hasWebRTCModule && (pcId, trackId) in env.audioTracks
    ensures r.Ok? ==> r.value.AddSink? && r.value.added == sink &&
                      (r.value.to.LocalDispatcher? <==> pcId == LOCAL_PC_ID)
    ensures r.Err? ==> r.error == IllegalArgument
  {
    if !env.hasWebRTCModule then Err(IllegalArgument)
    else if (pcId, trackId) !in env.audioTracks then Err(IllegalArgument)
    else Ok(AddSink(sink, RouteFor(pcId, trackId)))
  }

  /** Detaching also needs the WebRTC module, but a missing track is
      ignored. */
  function DetachSinkFromTrack(env: Environment, sink: Sink, pcId: int, trackId: string): (r: Result<Option<Routing>>)
    ensures r.Err? <==> !env.hasWebRTCModule
    ensures r.Err? ==> r.error == IllegalArgument
    ensures r == Ok(None) <==> env.hasWebRTCModule && (pcId, trackId) !in env.audioTracks
    ensures r.Ok? && r.value.Some? ==> r.value.value.RemoveSink? && r.value.value.removed == sink
  {
    if !env.hasWebRTCModule then Err(IllegalArgument)
    else if (pcId, trackId) !in env.audioTracks then Ok(None)
    else Ok(Some(RemoveSink(sink, RouteFor(pcId, trackId))))
  }

  /** Detaching by tag fails for a tag that is not registered, before
      anything else is looked at. */
  function DetachSinkFromTrackByTag(env: Environment, reg: Registry, tag: string, pcId: int, trackId: string): (r: Result<Option<Routing>>)
    ensures tag !in reg ==> r == Err(IllegalArgument)
    ensures tag in reg ==> r == DetachSinkFromTrack(env, reg[tag], pcId, trackId)
  {
    match GetSink(reg, tag)
    case None => Err(IllegalArgument)
    case Some(sink) => DetachSinkFromTrack(env, sink, pcId, trackId)
  }

  /** Detaching after a successful attach uses the same route, so it undoes
      the attachment. */
  lemma AttachDetachInverse(env: Environment, a: Attachments, sink: Sink, pcId: int, trackId: string)
    requires AttachSinkToTrack(env, sink, pcId, trackId).Ok?
    requires (RouteFor(pcId, trackId), sink) !in a
    ensures var attach := AttachSinkToTrack(env, sink, pcId, trackId).value;
            var detach := DetachSinkFromTrack(env, sink, pcId, trackId);
            detach.Ok? && detach.value.Some? &&
            Apply(Apply(a, attach), detach.value.value) == a
  {
  }

  /** A sink registered and attached can be detached by its tag. */
  lemma DetachRegisteredByTag(env: Environment, reg: Registry, a: Attachments, sink: Sink, tag: string,
                              pcId: int, trackId: string)
    requires AttachSinkToTrack(env, sink, pcId, trackId).Ok?
    requires (RouteFor(pcId, trackId), sink) !in a
    ensures var r := Register(reg, sink, tag);
            var detach := DetachSinkFromTrackByTag(env, r.registry, r.tag, pcId, trackId);
            detach.Ok? && detach.value.Some? &&
            Apply(Apply(a, AttachSinkToTrack(env, sink, pcId, trackId).value), detach.value.value) == a
  {
    AttachDetachInverse(env, a, sink, pcId, trackId);
  }
}

/** The iOS registry (AudioRendererManager.swift). The WebRTC module is
    force-cast, so it is always there; a missing track or tag is logged and
    ignored, which is modelled as no routing. */
module AudioRendererManager {
  import opened Wrappers
  import opened AudioSinks
  import AudioSinkManager

  /** Unregistering by identity filters the map. */
  function UnregisterRenderer(reg: Registry, renderer: Sink): (r: Registry)
    ensures forall k :: k in r <==> k in reg && reg[k] != renderer
    ensures forall k :: k in r ==> r[k] == reg[k]
  {
    WithoutSink(reg, renderer)
  }

  function Attach(audioTracks: set<(int, string)>, renderer: Sink, pcId: int, trackId: string): (r: Option<Routing>)
    ensures r.Some? <==> (pcId, trackId) in audioTracks
    ensures r.Some? ==> r.value.AddSink? && r.value.added == renderer &&
                        (r.value.to.LocalDispatcher? <==> pcId == LOCAL_PC_ID)
  {
    if (pcId, trackId) in audioTracks then Some(AddSink(renderer, RouteFor(pcId, trackId))) else None
  }

  function Detach(audioTracks: set<(int, string)>, renderer: Sink, pcId: int, trackId: string): (r: Option<Routing>)
    ensures r.Some? <==> (pcId, trackId) in audioTracks
    ensures r.Some? ==> r.value.RemoveSink? && r.value.removed == renderer &&
                        (r.value.from.LocalDispatcher? <==> pcId == LOCAL_PC_ID)
  {
    if (pcId, trackId) in audioTracks then Some(RemoveSink(renderer, RouteFor(pcId, trackId))) else None
  }

  /** Detaching by an unknown tag does nothing. */
  function DetachByTag(audioTracks: set<(int, string)>, reg: Registry, tag: string, pcId: int, trackId: string): (r: Option<Routing>)
    ensures tag !in reg ==> r.None?
    ensures tag in reg ==> r == Detach(audioTracks, reg[tag], pcId, trackId)
  {
    match GetSink(reg, tag)
    case None => None
    case Some(renderer) => Detach(audioTracks, renderer, pcId, trackId)
  }

  /** Where Android reports no error, the two platforms route identically;
      Android throws exactly where iOS logs an unknown track on attach or
      an unknown tag on detach, and both unregister by value alike. */
  lemma PlatformsAgree(audioTracks: set<(int, string)>, reg: Registry, sink: Sink, tag: string, pcId: int, trackId: string)
    ensures var env := AudioSinkManager.Environment(true, audioTracks);
            var attach := AudioSinkManager.AttachSinkToTrack(env, sink, pcId, trackId);
            var detach := AudioSinkManager.DetachSinkFromTrackByTag(env, reg, tag, pcId, trackId);
            (attach.Ok? ==> Attach(audioTracks, sink, pcId, trackId) == Some(attach.value)) &&
            (attach.Err? <==> Attach(audioTracks, sink, pcId, trackId).None?) &&
            (detach.Ok? ==> DetachByTag(audioTracks, reg, tag, pcId, trackId) == detach.value) &&
            (detach.Err? <==> tag !in reg) &&
            UnregisterRenderer(reg, sink) == WithoutSink(reg, sink)
  {
  }
}

=== FILE: video_decoder_factory.dfy ===
/** The Android video-decoder selection
    (packages/react-native/android/.../video/CustomVideoDecoderFactory.kt):
    each decoder, and the list of supported codecs, comes either from
    WebRTC's software factory or from the wrapped (hardware-first) one. The
    factories themselves are foreign code; the model says which one is
    asked. */
module VideoDecoderFactory {
  import opened Wrappers

  datatype Source = Software | Wrapped

  datatype DecoderFactory = DecoderFactory(forceSWCodec: bool, forceSWCodecs: seq<string>)

  /** Constructor arguments default to no forcing and the list ["VP9"]. */
  function New(forceSWCodec: Option<bool>, forceSWCodecs: Option<seq<string>>): (f: DecoderFactory)
    ensures f.forceSWCodec == (forceSWCodec == Some(true))
    ensures forceSWCodecs.None? ==> f.forceSWCodecs == ["VP9"]
    ensures forceSWCodecs.Some? ==> f.forceSWCodecs == forceSWCodecs.value
  {
    DecoderFactory(forceSWCodec.GetOr(false), forceSWCodecs.GetOr(["VP9"]))
  }

  function SetForceSWCodec(f: DecoderFactory, force: bool): (f': DecoderFactory)
    ensures f'.forceSWCodec == force && f'.forceSWCodecs == f.forceSWCodecs
  {
    f.(forceSWCodec := force)
  }

  function SetForceSWCodecList(f: DecoderFactory, codecs: seq<string>): (f': DecoderFactory)
    ensures f'.forceSWCodecs == codecs && f'.forceSWCodec == f.forceSWCodec
  {
    f.(forceSWCodecs := codecs)
  }

  /** A decoder comes from the software factory when software is forced
      for all codecs or the codec is on the list. */
  function CreateDecoder(f: DecoderFactory, codecName: string): (r: Source)
    ensures r == Software <==> f.forceSWCodec || codecName in f.forceSWCodecs
  {
    if f.forceSWCodec then Software
    else if |f.forceSWCodecs| != 0 && codecName in f.forceSWCodecs then Software
    else Wrapped
  }

  /** The supported codecs are the software factory's only when software is
      forced and no list narrows it. */
  function GetSupportedCodecs(f: DecoderFactory): (r: Source)
    ensures r == Software <==> f.forceSWCodec && f.forceSWCodecs == []
  {
    if f.forceSWCodec && |f.forceSWCodecs| == 0 then Software else Wrapped
  }

  /** By default exactly VP9 is decoded in software. */
  lemma DefaultForcesOnlyVP9(codecName: string)
    ensures CreateDecoder(New(None, None), codecName) == Software <==> codecName == "VP9"
    ensures GetSupportedCodecs(New(None, None)) == Wrapped
  {
  }

  /** Whenever the supported codecs come from the software factory, so does
      every decoder. The converse does not hold: with software forced and a
      non-empty list, every decoder is software but the wrapped factory's
      codecs are advertised. */
  lemma SupportedCodecsAndDecoders(f: DecoderFactory, codecName: string)
    ensures GetSupportedCodecs(f) == Software ==> CreateDecoder(f, codecName) == Software
    ensures f.forceSWCodec && f.forceSWCodecs != [] ==>
              GetSupportedCodecs(f) == Wrapped && CreateDecoder(f, codecName) == Software
  {
  }

  /** The flag and the list are independent settings: setting one never
      changes the other's effect, and an empty list with the flag off sends
      everything to the wrapped factory. */
  lemma SettersReplaceWholesale(f: DecoderFactory, force: bool, codecs: seq<string>, codecName: string)
    ensures SetForceSWCodecList(SetForceSWCodec(f, force), codecs) == SetForceSWCodec(SetForceSWCodecList(f, codecs), force)
    ensures CreateDecoder(SetForceSWCodecList(SetForceSWCodec(f, false), []), codecName) == Wrapped
  {
  }
}

=== FILE: viewport_detector.dfy ===
/** The viewport detector component (src/components/ViewPortDetector.tsx).

    While watching, a repeating timer measures the wrapped view and reports
    visibility changes to `onChange`: a view is visible when it has a
    non-zero width and height, and only a change from the last reported
    value is reported. Timers are recorded as calls with identifiers drawn
    from a counter (the runtime's identifiers are positive). A timer tick
    only asks the mounted view to measure itself; the view answers later,
    through a callback that checks visibility with whatever state the
    detector has by then, so the tick and the measurement are two events. */
module ViewportDetector {
  import opened Wrappers

  type TimerId = x: int | x >= 1 witness 1

  datatype TimerCall = SetInterval(id: TimerId, delay: int) | ClearInterval(cleared: Option<TimerId>)

  datatype Props = Props(disabled: bool, delay: Option<int>, hasOnChange: bool)

  datatype Detector = Detector(
    props: Props,
    lastValue: Option<bool>,
    interval: Option<TimerId>,
    nextTimer: TimerId,
    timers: seq<TimerCall>,
    pending: nat,          // measure requests whose callback has not run yet
    notified: seq<bool>)   // the values passed to onChange, in order

  /** A measured size; a missing dimension is absent. */
  datatype Size = Size(width: Option<real>, height: Option<real>)

  /** Visible exactly when both dimensions are present and non-zero. */
  function IsVisible(s: Size): (v: bool)
    ensures v <==> s.width.Some? && s.width.value != 0.0 && s.height.Some? && s.height.value != 0.0
  {
    !(s.width.None? || s.width.value == 0.0 || s.height.None? || s.height.value == 0.0)
  }

  function New(props: Props): (d: Detector)
    ensures d.lastValue.None? && d.interval.None? && d.timers == [] && d.notified == []
    ensures d.pending == 0
  {
    Detector(props, None, None, 1, [], 0, [])
  }

  /** The timer period: the `delay` prop, or 100 ms when it is absent or 0. */
  function Delay(p: Props): (ms: int)
    ensures ms == (if p.delay.None? || p.delay.value == 0 then 100 else p.delay.value)
    ensures ms != 0
  {
    match p.delay
    case None => 100
    case Some(d) => if d == 0 then 100 else d
  }

  /** Starts the timer unless one is already running. */
  function StartWatching(d: Detector): (d': Detector)
    ensures d.interval.Some? ==> d' == d
    ensures d.interval.None? ==>
              d'.interval == Some(d.nextTimer) &&
              d'.timers == d.timers + [SetInterval(d.nextTimer, Delay(d.props))]
    ensures d'.interval.Some? && d'.lastValue == d.lastValue && d'.notified == d.notified
  {
    if d.interval.Some? then d
    else
      d.(interval := Some(d.nextTimer), nextTimer := d.nextTimer + 1,
         timers := d.timers + [SetInterval(d.nextTimer, Delay(d.props))])
  }

  /** Clears the timer, whatever it is, and forgets it. */
  function StopWatching(d: Detector): (d': Detector)
    ensures d'.interval.None?
    ensures d'.timers == d.timers + [ClearInterval(d.interval)]
    ensures d'.(interval := d.interval, timers := d.timers) == d
  {
    d.(interval := None, timers := d.timers + [ClearInterval(d.interval)])
  }

  function ComponentDidMount(d: Detector): (d': Detector)
    ensures d.props.disabled ==> d' == d
    ensures !d.props.disabled ==> d' == StartWatching(d)
  {
    if d.props.disabled then d else StartWatching(d)
  }

  function ComponentWillUnmount(d: Detector): Detector {
    StopWatching(d)
  }

  /** New props: disabled stops watching; otherwise the last reported value
      is forgotten, so that the next measurement is reported, and watching
      (re)starts. A timer started here still takes its period from the
      current props; the new props take effect afterwards. */
  function ComponentWillReceiveProps(d: Detector, next: Props): (d': Detector)
    ensures next.disabled ==> d' == StopWatching(d).(props := next)
    ensures !next.disabled ==> d'.lastValue.None? && d'.interval.Some?
    ensures !next.disabled && d.interval.None? ==>
              d'.timers == d.timers + [SetInterval(d.nextTimer, Delay(d.props))]
    ensures d'.props == next && d'.notified == d.notified
  {
    var updated :=
      if next.disabled then StopWatching(d)
      else StartWatching(d.(lastValue := None));
    updated.(props := next)
  }

  /** A measurement: reported, and remembered, only when the visibility
      differs from the last one reported. */
  function CheckInViewPort(d: Detector, s: Size): (d': Detector)
    ensures d'.lastValue == Some(IsVisible(s))
    ensures d.lastValue == Some(IsVisible(s)) ==> d' == d
    ensures d.lastValue != Some(IsVisible(s)) ==>
              d'.notified == d.notified + (if d.props.hasOnChange then [IsVisible(s)] else [])
    ensures d'.(lastValue := d.lastValue, notified := d.notified) == d
  {
    var v := IsVisible(s);
    if d.lastValue != Some(v) then
      d.(lastValue := Some(v), notified := d.notified + (if d.props.hasOnChange then [v] else []))
    else d
  }

  /** A tick of the timer: asks the view to measure itself if it is
      mounted. A tick never reports anything by itself; one that arrives
      once the interval is cleared, or while no view is mounted, changes
      nothing. */
  function OnTimer(d: Detector, mounted: bool): (d': Detector)
    ensures d.interval.None? || !mounted ==> d' == d
    ensures d.interval.Some? && mounted ==> d'.pending == d.pending + 1
    ensures d'.(pending := d.pending) == d
  {
    if d.interval.None? || !mounted then d
    else d.(pending := d.pending + 1)
  }

  /** The view's measure callback. Only an outstanding request can call
      back; it checks visibility against the detector as it is now, whether
      or not the timer that asked is still running. */
  function OnMeasured(d: Detector, s: Size): (d': Detector)
    ensures d.pending == 0 ==> d' == d
    ensures d.pending > 0 ==> d'.pending == d.pending - 1 && d'.(pending := d.pending) == CheckInViewPort(d, s)
  {
    if d.pending == 0 then d
    else CheckInViewPort(d, s).(pending := d.pending - 1)
  }

  /** Measuring the same visibility twice reports it at most once. */
  lemma CheckIdempotent(d: Detector, s: Size)
    ensures CheckInViewPort(CheckInViewPort(d, s), s) == CheckInViewPort(d, s)
  {
  }

  /** The first measurement after mounting, or after new props, is always
      reported. */
  lemma FirstMeasurementReported(props: Props, next: Props, d: Detector, s: Size)
    requires props.hasOnChange && !next.disabled && next.hasOnChange
    ensures CheckInViewPort(New(props), s).notified == [IsVisible(s)]
    ensures CheckInViewPort(ComponentWillReceiveProps(d, next), s).notified == d.notified + [IsVisible(s)]
  {
  }

  predicate Alternating(s: seq<bool>) {
    forall i :: 0 < i < |s| ==> s[i] != s[i - 1]
  }

  /** The reports agree with the last value, and no value is reported twice
      in a row. */
  predicate Reporting(d: Detector) {
    d.props.hasOnChange &&
    Alternating(d.notified) &&
    (d.notified == [] ==> d.lastValue.None?) &&
    (d.notified != [] ==> d.lastValue == Some(d.notified[|d.notified| - 1]))
  }

  function MeasureAll(d: Detector, sizes: seq<Size>): Detector
    decreases |sizes|
  {
    if sizes == [] then d else MeasureAll(CheckInViewPort(d, sizes[0]), sizes[1..])
  }

  /** However the view's size moves, the values reported to `onChange`
      alternate: each report is a change. */
  lemma {:induction false} ReportsAlternate(d: Detector, sizes: seq<Size>)
    requires Reporting(d)
    ensures Reporting(MeasureAll(d, sizes))
    ensures |MeasureAll(d, sizes).notified| <= |d.notified| + |sizes|
    decreases |sizes|
  {
    if sizes != [] {
      var next := CheckInViewPort(d, sizes[0]);
      assert Reporting(next);
      ReportsAlternate(next, sizes[1..]);
    }
  }

  /** What can happen to a watching detector: a tick, a measure callback,
      and starting or stopping the timer (mount, unmount, disabling). */
  datatype Event = Tick(mounted: bool) | Measured(size: Size) | Start | Stop

  function Apply(d: Detector, e: Event): Detector {
    match e
    case Tick(mounted) => OnTimer(d, mounted)
    case Measured(s) => OnMeasured(d, s)
    case Start => StartWatching(d)
    case Stop => StopWatching(d)
  }

  function Run(d: Detector, events: seq<Event>): Detector
    decreases |events|
  {
    if events == [] then d else Run(Apply(d, events[0]), events[1..])
  }

  /** The number of ticks among the events. */
  function Ticks(events: seq<Event>): nat
    decreases |events|
  {
    if events == [] then 0 else (if events[0].Tick? then 1 else 0) + Ticks(events[1..])
  }

  /** However ticks, callbacks, starts and stops interleave, the values
      reported to `onChange` alternate, and every report, like every
      outstanding request, is paid for by a tick or by a request that was
      already outstanding. */
  lemma {:induction false} TicksReportAlternate(d: Detector, events: seq<Event>)
    requires Reporting(d)
    ensures Reporting(Run(d, events))
    ensures |Run(d, events).notified| + Run(d, events).pending <= |d.notified| + d.pending + Ticks(events)
    decreases |events|
  {
    if events != [] {
      var next := Apply(d, events[0]);
      assert Reporting(next);
      assert |next.notified| + next.pending <= |d.notified| + d.pending + (if events[0].Tick? then 1 else 0);
      TicksReportAlternate(next, events[1..]);
    }
  }

  /** A measurement requested by the last tick before the timer stops still
      reaches `onChange`: nothing in the callback checks the timer. */
  lemma LateReportAfterStop(props: Props, s: Size)
    requires props.hasOnChange
    ensures var d := Run(New(props), [Start, Tick(true), Stop, Measured(s)]);
            d.interval.None? && d.notified == [IsVisible(s)] && d.pending == 0
  {
    var d1 := StartWatching(New(props));
    var d2 := OnTimer(d1, true);
    var d3 := StopWatching(d2);
    var d4 := OnMeasured(d3, s);
    var events := [Start, Tick(true), Stop, Measured(s)];
    assert Run(d3, events[3..]) == d4;
    assert Run(d2, events[2..]) == Run(d3, events[3..]);
    assert Run(d1, events[1..]) == Run(d2, events[2..]);
    assert Run(New(props), events) == Run(d1, events[1..]);
  }

  // ---------------------------------------------------------------------
  // At most one timer
  // ---------------------------------------------------------------------

  /** The timers started and not cleared since. */
  function Live(timers: seq<TimerCall>): set<TimerId>
    decreases |timers|
  {
    if timers == [] then {}
    else
      Step(Live(timers[..|timers| - 1]), timers[|timers| - 1])
  }

  /** The live timers after one call. */
  function Step(live: set<TimerId>, c: TimerCall): set<TimerId> {
    if c.SetInterval? then live + {c.id}
    else if c.cleared.Some? then live - {c.cleared.value}
    else live
  }

  lemma LiveAppend(timers: seq<TimerCall>, c: TimerCall)
    ensures Live(timers + [c]) == Step(Live(timers), c)
  {
    assert (timers + [c])[..|timers|] == timers;
  }

  /** The running timer is the only live one. */
  predicate OneTimer(d: Detector) {
    Live(d.timers) == (if d.interval.Some? then {d.interval.value} else {}) &&
    (d.interval.Some? ==> d.interval.value < d.nextTimer) &&
    forall i :: 0 <= i < |d.timers| && d.timers[i].SetInterval? ==> d.timers[i].id < d.nextTimer
  }

  lemma StartWatchingKeepsOneTimer(d: Detector)
    requires OneTimer(d)
    ensures OneTimer(StartWatching(d))
  {
    if d.interval.None? {
      LiveAppend(d.timers, SetInterval(d.nextTimer, Delay(d.props)));
    }
  }

  lemma StopWatchingKeepsOneTimer(d: Detector)
    requires OneTimer(d)
    ensures OneTimer(StopWatching(d))
  {
    LiveAppend(d.timers, ClearInterval(d.interval));
  }

  /** Mounting, unmounting, new props and measurements never leave two
      timers running. */
  lemma LifecycleKeepsOneTimer(d: Detector, next: Props, s: Size)
    requires OneTimer(d)
    ensures OneTimer(ComponentDidMount(d))
    ensures OneTimer(ComponentWillUnmount(d))
    ensures OneTimer(ComponentWillReceiveProps(d, next))
    ensures OneTimer(CheckInViewPort(d, s))
  {
    StartWatchingKeepsOneTimer(d);
    StopWatchingKeepsOneTimer(d);
    StartWatchingKeepsOneTimer(d.(lastValue := None));
  }

  /** Ticks and callbacks never start a timer, so any run of events keeps
      at most one timer running. */
  lemma {:induction false} RunKeepsOneTimer(d: Detector, events: seq<Event>)
    requires OneTimer(d)
    ensures OneTimer(Run(d, events))
    decreases |events|
  {
    if events != [] {
      if events[0].Start? {
        StartWatchingKeepsOneTimer(d);
      } else if events[0].Stop? {
        StopWatchingKeepsOneTimer(d);
      }
      RunKeepsOneTimer(Apply(d, events[0]), events[1..]);
    }
  }

  lemma NewHasNoTimer(props: Props)
    ensures OneTimer(New(props)) && Live(New(props).timers) == {}
  {
  }
}

=== FILE: wrappers.dfy ===
/** Failure-carrying datatypes shared by every module of the model.
    `Option` stands for the source's `null`/`undefined`/`nil`, `Result` for a
    call that either returns a value or throws. */
module Wrappers {

  datatype Option<+T> = None | Some(value: T) {

    /** The value, or `default` when absent (the source's `??`). */
    function GetOr(default: T): T {
      match this
      case Some(v) => v
      case None => default
    }
  }

  /** The kinds of exception the modelled code throws. */
  datatype Error =
    | ConfigurationError   // an operation that needs a bound room ran without one
    | NotFound             // an identity, tag or track could not be resolved
    | CryptoFailed         // the native cryptor returned no result
    | RangeError           // an array of negative length was requested
    | IllegalArgument      // a Kotlin IllegalArgumentException
    | NativeFailure        // a native call rejected

  datatype Result<+T> = Ok(value: T) | Err(error: Error) {
    predicate IsFailure() { Err? }
  }
}
